=== FILE: README.md ===
# Logistics multi-agent system: a verified model of its deterministic core

The system answers a parts-replenishment request with several agents. An
orchestrator asks an inventory agent whether the part is in stock. A fleet
agent then picks an AGV (automated guided vehicle) to carry it. An approver
agent decides whether the spend may go ahead. A Flask dashboard drives the
workflow, and hooks and an observability layer report progress to the user
interface. Most of the code is glue around language-model calls. Beneath the
glue sit deterministic rules and small in-memory stores, and those are what
this project models.

The model is in Dafny. Each store is an immutable record. Each operation is a
pure function that returns its result together with the new state. Whatever
the Python gets from a language model or another agent is a plain input, and
so are clocks and generated ids. Money is exact `real`, and quantities are
unbounded `int`, as Python's are. Every module is one component of the
source:

| module | component |
|---|---|
| `Wrappers`, `Seqs`, `Text`, `OrderedMap`, `Ranking` | shared helpers: `Option`/`Result`, filters and counts, ASCII case folding and Python's `strip`/`split`/`join`/`in` on strings, Python's insertion-ordered `dict`, and "first element with the best score" |
| `ApproverData` | the approval threshold table and `determine_approval_level` |
| `ApprovalStore` | the approval workflow store (`ApprovalDataProvider`) |
| `ApprovalService` | the approval rule engine of the core services |
| `ApproverAgent` | the approver agent's rules |
| `InventoryProvider` | the inventory reservation store (`InventoryDataProvider`) |
| `InventoryService` | the inventory service of the core services |
| `InventoryAgent`, `InventoryBackup` | the two inventory agents and their legacy paths |
| `FleetManager` | the fleet store (`FleetDataManager`) |
| `FleetAgent` | the fleet agent's AGV selection and scheduling |
| `FleetService` | the fleet service of the core services |
| `Orchestrator` | the orchestrator's request store, cost and status decisions, and the status sequence of its workflow |
| `Dashboard` | the dashboard's workflow state machine and its step-tagged logs |
| `Hooks` | the orchestrator hooks: text cleaning, phase tracking, part extraction |
| `Observability` | the observability message log and the step counter of the agent wrapper |

## Model

| member | source | states |
|---|---|---|
| ApproverData.FirstFit | Agents/data/approver_data.py:55-59 | the index found is the first table row whose `max_cost` admits the cost; none is found exactly when every row's limit is below the cost |
| ApproverData.DetermineApprovalLevel | Agents/data/approver_data.py:53-59 | the level is the category of the first admitting row, and "exceeds_limits" when no row admits the cost |
| ApproverData.FirstAdmittingUnique | Agents/data/approver_data.py:55-58 | the first admitting row is unique |
| ApproverData.DefaultTableShape | Agents/data/approver_data.py:9-13 | the built-in table is strictly ascending in `max_cost`, and each row asks for exactly one of auto-approval, manager or director |
| ApproverData.DefaultLevels | Agents/data/approver_data.py:9-13 | with the built-in table, a cost up to 1000 is low value, up to 5000 medium, up to 999999 high, and "exceeds_limits" holds exactly above 999999 |
| ApprovalStore.GetApprovalThreshold | Agents/approval_data_provider.py:34-65 | the result describes the first admitting row and carries the cost; it is the error result (high value, director required, no `max_cost`) exactly when every limit is below the cost; `approval_required` is the negation of `auto_approve` |
| ApprovalStore.CreateApprovalRequest | Agents/approval_data_provider.py:70-136 | a missing cost, description or request type fails in that order, and so does a cost above every threshold; a failure changes nothing; with all three present and a cost within some threshold it succeeds, appending exactly one request with the fresh id whose description, type, category and approval flags are the inputs and the threshold row for the cost, APPROVED by SYSTEM_AUTO with one SYSTEM comment when that row auto-approves, and PENDING with no approver and no comment otherwise |
| ApprovalStore.FindRequest | Agents/approval_data_provider.py:152-160 | the index found holds the first request with the id; none is found exactly when no request has it |
| ApprovalStore.ProcessApproval | Agents/approval_data_provider.py:138-202 | the errors come in the source's order: unknown id, not pending, invalid decision, director authority missing, manager-or-director authority missing; each leaves the store unchanged; a success updates only that request and appends its decided copy to the history |
| ApprovalStore.ProcessSucceedsIff | Agents/approval_data_provider.py:153-173 | a decision succeeds exactly when the first request with the id is pending, the decision is APPROVED or REJECTED, and the approver's name carries the required authority |
| ApprovalStore.FindAfterUpdate | Agents/approval_data_provider.py:154-186 | a request updated in place with its id kept is still the first one with that id |
| ApprovalStore.SecondDecisionFails | Agents/approval_data_provider.py:162-176 | once a request is decided, any second decision on its id fails with "not pending" |
| ApprovalStore.CreatePreservesInv | Agents/approval_data_provider.py:95-124 | creation keeps every request well formed: pending exactly when it has no approver, no comment while pending, one comment once decided, and auto-approved ones approved by SYSTEM_AUTO; every history entry is decided |
| ApprovalStore.ProcessPreservesInv | Agents/approval_data_provider.py:175-189 | a decision keeps the same invariant |
| ApprovalStore.GetApprovalRequest | Agents/approval_data_provider.py:204-214 | the request found has the id and comes from the live list or the history; the first live match wins; "not found" exactly when neither list has the id |
| ApprovalStore.GetAfterDecision | Agents/approval_data_provider.py:176-209 | after a successful decision, looking up the id gives a request with that approver and with the decision as its status |
| ApprovalStore.GetPendingApprovals | Agents/approval_data_provider.py:216-238 | the live PENDING requests of the approver type asked for, in list order with their multiplicity: "manager" keeps manager-but-not-director requests, "director" keeps director requests, anything else keeps all |
| ApprovalStore.CheckCompliance | Agents/approval_data_provider.py:240-294 | compliant exactly when there are no violations, which is exactly when no given cost is negative, no given request type is outside the four valid ones, and no given description is shorter than 10 after stripping; a cost above 10000 only warns; one check is recorded per key present |
| ApprovalStore.Distribution | Agents/approval_data_provider.py:325-328 | one entry per threshold category, in table order, whose count is the number of records in that category |
| ApprovalStore.StatisticsOver | Agents/approval_data_provider.py:299-329 | the total is the number of records; the pending, approved and rejected counts are the numbers of records in each status and add up to the total; the auto-approved count is the number approved by SYSTEM_AUTO; the approval rate is the approved share in percent and the distribution counts each category, both empty (0 and none) for no records |
| ApprovalStore.StatusCountsPartition | Agents/approval_data_provider.py:311-322 | the three status counts add up to the number of records |
| ApprovalStore.GetApprovalStatisticsAsWritten | Agents/approval_data_provider.py:296-332 | the source's statistics count every record of the live list and of the history |
| ApprovalStore.GetApprovalStatistics | Agents/approval_data_provider.py:296-332 | the corrected statistics count each stored request once, from the live list |
| ApprovalStore.DecisionKeepsTotal | Agents/approval_data_provider.py:296-329 | with the corrected statistics, a successful decision keeps the total and leaves one request fewer pending |
| ApprovalStore.StatisticsDoubleCount | Agents/approval_data_provider.py:189-299 | on a concrete store, creating one medium-value request and having a manager approve it gives a store of one request that the source's statistics report as two, and the corrected statistics as one |
| ApprovalStore.SearchApprovals | Agents/approval_data_provider.py:334-370 | the live requests and then the history, each in order and with repeats kept, filtered to those meeting every criterion given: status, requester as a case-insensitive substring, minimum cost, maximum cost, threshold category |
| ApprovalStore.SearchIsOneFilter | Agents/approval_data_provider.py:349-365 | the five optional filter steps applied in turn keep the same requests, in the same order, as one filter by all the criteria |
| ApprovalStore.NarrowIf | Agents/approval_data_provider.py:349-365 | one optional filter step keeps, in order, exactly the requests that meet its criterion, and keeps the list whole when the criterion is not given |
| ApprovalService.CostRisk | src/logistics_system/core/approval_service.py:336-345 | above 50000 adds 30 points (high_cost), above 10000 adds 15 (medium_cost), above 5000 adds 10 (elevated_cost), and 5000 or less adds none and names no factor |
| ApprovalService.PriorityRisk | src/logistics_system/core/approval_service.py:347-353 | URGENT adds 20 points (urgent_priority), HIGH adds 10 (high_priority), any other priority adds none and names no factor |
| ApprovalService.KeywordRisk | src/logistics_system/core/approval_service.py:355-359 | a description with an emergency keyword adds 15 points and the factor emergency_keywords; any other adds nothing |
| ApprovalService.LevelOf | src/logistics_system/core/approval_service.py:361-369 | critical from 40, high from 25 below 40, medium from 15 below 25, low below 15 |
| ApprovalService.LevelMonotone | src/logistics_system/core/approval_service.py:361-369 | a higher score never gives a lower risk level |
| ApprovalService.Recommendations | src/logistics_system/core/approval_service.py:742-758 | senior sign-off is recommended exactly for high or critical risk, multiple quotes exactly for a high-cost factor, urgency validation exactly for an urgent-priority factor |
| ApprovalService.AnalyzeApprovalRisk | src/logistics_system/core/approval_service.py:327-399 | the score is the sum of the three factors' points and lies in 0..65, the factors are listed in the source's order, the level follows the score, and the recommendations follow level and factors |
| ApprovalService.CriticalNeedsTwoFactors | src/logistics_system/core/approval_service.py:336-363 | a critical level needs at least two of the three factors |
| ApprovalService.LowRiskCases | src/logistics_system/core/approval_service.py:336-369 | the level is low exactly when the cost is at most 10000, the priority is not URGENT, no emergency keyword occurs, and a cost above 5000 does not meet HIGH priority |
| ApprovalService.Summarize | src/logistics_system/core/approval_service.py:494-498 | `all_passed` holds exactly when every check passed, and a name is in `failed_checks` exactly when a check of that name failed |
| ApprovalService.RunApprovalChecks | src/logistics_system/core/approval_service.py:474-502 | all checks pass exactly when the cost is positive, the priority is one of the four, the description is not blank, the cost is within the board limit, and the cost is above the justification threshold |
| ApprovalService.CheapRequestFailsChecks | src/logistics_system/core/approval_service.py:491-497 | a cost at or below the justification threshold always fails the checks, with "justification_required" among the failed names |
| ApprovalService.CheckBudgetCompliance | src/logistics_system/core/approval_service.py:504-531 | the remaining budget is 75000, the cost is compliant exactly up to 75000, and the warning is raised exactly above 55000 (80% utilisation) |
| ApprovalService.WarningBeforeNonCompliance | src/logistics_system/core/approval_service.py:516-525 | a non-compliant cost always carries the warning |
| ApprovalService.ApplicableThreshold | src/logistics_system/core/approval_service.py:816-827 | the name is the first threshold, in the order auto, manager, director, that admits the cost, and "board_approval" when none does |
| ApprovalService.ValidateApprovalPolicies | src/logistics_system/core/approval_service.py:698-719 | compliant exactly when the cost is within all four thresholds and the priority has a rule |
| ApprovalService.Covering | src/logistics_system/core/approval_service.py:779-781 | exactly the authorities whose limit covers the cost |
| ApprovalService.FirstLeast | src/logistics_system/core/approval_service.py:779 | the position of the first authority with the least limit: none before it has a limit as small |
| ApprovalService.FirstGreatest | src/logistics_system/core/approval_service.py:783 | the position of the first authority with the greatest limit: none before it has a limit as large |
| ApprovalService.GetRequiredAuthority | src/logistics_system/core/approval_service.py:777-783 | when some authority covers the cost, the result covers it with the least such limit and is the first in list order among the covering ones with that limit; otherwise it has the greatest limit and no earlier authority has a limit as large |
| ApprovalService.LeastCoverIsFirst | src/logistics_system/core/approval_service.py:779-781 | the least covering authority is, among the covering authorities with that limit, the first in list order, as the stable sort leaves it |
| ApprovalService.DefaultAuthorityExamples | src/logistics_system/core/approval_service.py:777-783 | with the default authorities, 3000 needs the supervisor and any cost above 100000 falls to the director |
| ApprovalService.DefaultOverallPassed | src/logistics_system/core/approval_service.py:451-459 | under the default policies the combined checks pass exactly when the cost is within the auto-approval threshold of 1000 and the priority is known |
| ApprovalService.OverallPassed | src/logistics_system/core/approval_service.py:451-459 | the combined checks pass exactly when the cost is within the 75000 budget and all four policy thresholds and the priority has a rule |
| ApprovalService.AutoApproveLimit | src/logistics_system/core/approval_service.py:653-655 | the priority's own auto-approval limit when it has one, otherwise the auto-approval threshold |
| ApprovalService.DefaultAutoApproveLimits | src/logistics_system/core/approval_service.py:124-129 | under the default policies the limits are 2000, 1500, 1000 and 500 for URGENT, HIGH, MEDIUM and LOW, and 1000 for any other priority |
| ApprovalService.MakeApprovalDecision | src/logistics_system/core/approval_service.py:640-687 | auto-approved exactly when the cost is within the priority's limit, the risk is low and the checks passed; escalated exactly when it is not auto-approved and the risk is high or critical or the cost is above the director threshold; requires review otherwise; the status matches the decision, and escalation is required exactly when escalated |
| ApprovalService.ReviewDecision | src/logistics_system/core/approval_service.py:262-276 | the decision of the combined checks and the risk level; auto-approved exactly when the cost is within the priority's limit, the auto-approval threshold, the budget and every policy threshold, the priority has a rule and the risk is low; escalated whenever the cost is above the director threshold |
| ApprovalService.DefaultReviewBounds | src/logistics_system/core/approval_service.py:640-676 | under the default policies nothing above 1000 is auto-approved, even an URGENT request with its own limit of 2000, and anything above 25000 is escalated |
| ApprovalService.EstimateProcessingTime | src/logistics_system/core/approval_service.py:785-799 | at least one hour; at most 13 for URGENT; at least 26 for LOW |
| ApprovalService.ProcessingTimeMonotone | src/logistics_system/core/approval_service.py:785-799 | more cost never means less processing time |
| ApprovalService.GetRequiredDocuments | src/logistics_system/core/approval_service.py:801-814 | the justification comes first; vendor quotes exactly above 10000; a risk assessment exactly above 50000; an ROI analysis exactly for capital expenditure |
| ApprovalService.DocumentsGrowWithCost | src/logistics_system/core/approval_service.py:801-814 | a costlier request needs every document a cheaper one needs |
| ApproverAgent.PriorityMultiplier | Agents/ApproverAgent.py:83-88 | URGENT 2.0, HIGH 1.5, LOW 0.8, and 1.0 for MEDIUM and any unknown priority |
| ApproverAgent.DetermineApprovalLevel | Agents/ApproverAgent.py:479-493 | with the effective cost being the cost divided by the priority's multiplier: auto exactly up to 500, manager exactly above 500 up to 2000, director exactly above 2000 up to 10000, board exactly above 10000 |
| ApproverAgent.LevelMonotoneInCost | Agents/ApproverAgent.py:479-493 | for a fixed priority, a dearer request never needs a lower level |
| ApproverAgent.PriorityScalesLimits | Agents/ApproverAgent.py:479-493 | the priority multiplies every limit: automatic up to 500 times the multiplier (1000 for URGENT, 750 for HIGH, 400 for LOW), manager or below up to 2000 times it |
| ApproverAgent.FirstWithRole | Agents/ApproverAgent.py:506-513 | the first approver in table order that has the role and is available; none is found exactly when no approver in the table is both |
| ApproverAgent.GetApproverForLevel | Agents/ApproverAgent.py:495-524 | auto gives the AUTO-SYSTEM approver, manager and director give the first available approver with that role, and the board gives nobody |
| ApproverAgent.BuiltInApproversCoverAllButBoard | Agents/ApproverAgent.py:90-112 | with the built-in approvers every level but the board has an approver |
| ApproverAgent.FleetCheck | Agents/ApproverAgent.py:619-625 | the fleet check passes exactly when there is no fleet plan or the plan is scheduled |
| ApproverAgent.PriorityCheckCases | Agents/ApproverAgent.py:627-642 | only URGENT can fail; for URGENT the check passes exactly when the first bin level given is at most 10, and fails when no bin level is given, since the default is 100 |
| ApproverAgent.BusinessRulesCheck | Agents/ApproverAgent.py:644-661 | with a positive quantity the check passes exactly when the cost is at most 50 per unit; a quantity that is not positive always passes |
| ApproverAgent.AddIfFailed | Agents/ApproverAgent.py:564-592 | a check's name is added exactly when the check failed, and no other name changes membership |
| ApproverAgent.FailedChecks | Agents/ApproverAgent.py:564-592 | each check's name is listed exactly when that check failed; the model check's name is listed exactly when it ran and failed |
| ApproverAgent.AllPassed | Agents/ApproverAgent.py:568-596 | all checks pass exactly when the five rule checks pass and the model check did not fail |
| ApproverAgent.DisapprovePassesAiCheck | Agents/ApproverAgent.py:557 | the model check is a bare substring test, so a recommendation of "DISAPPROVE" passes it |
| ApproverAgent.MakeApprovalDecision | Agents/ApproverAgent.py:726-762 | rejected, with no conditions, exactly when the budget or the business-rules check failed; otherwise approved, with the inventory condition exactly when the inventory check failed and the delivery condition exactly when the fleet check failed |
| ApproverAgent.RuleDecisionRejectsOnlyOnCriticalChecks | Agents/ApproverAgent.py:726-762 | on the rule-based path a plan is rejected exactly when the cost is above the 50000 budget or above 50 per unit |
| ApproverAgent.AiApprovalConditions | Agents/ApproverAgent.py:675-714 | the executive-notification condition is attached exactly for URGENT above 1000, and the monitoring conditions exactly when the recommendation mentions a condition |
| ApproverAgent.MakeAiApprovalDecision | Agents/ApproverAgent.py:663-724 | rejected, with no conditions and high risk, exactly when the model check did not pass or a budget or business-rules check failed; otherwise approved with the conditions above |
| ApproverAgent.AiDecisionCases | Agents/ApproverAgent.py:663-724 | through the model-assisted path a plan is approved exactly when the recommendation contains APPROVE and the budget and per-unit checks pass |
| ApproverAgent.ReviewReplenishmentPlan | Agents/ApproverAgent.py:246-367 | a `None` inventory or fleet plan is an error that records nothing; otherwise there is no approver exactly when the level has none, and then the history is unchanged; otherwise exactly one record is appended, carrying the request, level, approver, cost, priority, the model-assisted decision and its conditions, and whether all checks passed with the failed ones |
| ApproverAgent.MissingPlanRecordsNothing | Agents/ApproverAgent.py:282-283 | a `None` fleet plan, which the standalone fleet check passes, makes the review an error that records nothing |
| ApproverAgent.BoardLevelNeverApproved | Agents/ApproverAgent.py:312-323 | a plan whose effective cost is above 10000 is never approved and leaves no record; with both plans given the answer is that no approver is available |
| ApproverAgent.EstimateApprovalTime | Agents/ApproverAgent.py:764-776 | the text carries the "Expedited: " prefix exactly for URGENT or HIGH, followed by the level's base time |
| ApproverAgent.GetRequiredDocumentation | Agents/ApproverAgent.py:778-787 | every level requires at least one document |
| ApproverAgent.DocumentationGrows | Agents/ApproverAgent.py:778-787 | from manager upwards, each level's documents are a prefix of every higher level's, and none of them is the automatic level's document |
| ApproverAgent.GetComplianceRequirements | Agents/ApproverAgent.py:789-799 | budget verification comes first; procurement compliance exactly above 1000; emergency justification exactly for HIGH or URGENT |
| InventoryProvider.GetPartInfo | Agents/data_providers/inventory_data_provider.py:33-53 | an unknown part is an error naming it; otherwise the part's record with its net stock, available minus reserved |
| InventoryProvider.CheckAvailability | Agents/data_providers/inventory_data_provider.py:55-85 | an unknown part is an error; otherwise the net stock is available minus reserved, the request can be met exactly when the quantity is at most the net stock, the shortage is never negative and is zero exactly when the request can be met, and otherwise equals the quantity minus the net stock; the total cost is quantity times unit cost |
| InventoryProvider.ReserveQuantity | Agents/data_providers/inventory_data_provider.py:87-139 | an unknown part or a quantity above the net stock fails and changes nothing; a success adds the quantity to that part's reserved stock only, appends exactly the reservation record (part, quantity, requester, new reserved total, new net stock), and returns the new log length as its id, the total cost and the new net stock |
| InventoryProvider.ReleaseReservation | Agents/data_providers/inventory_data_provider.py:141-190 | an unknown part or a quantity above the reserved stock fails and changes nothing; a success takes the quantity off that part's reserved stock only and appends one release record |
| InventoryProvider.ReserveKeepsBounds | Agents/data_providers/inventory_data_provider.py:79-114 | with a non-negative quantity, a reservation keeps every part's reserved stock between 0 and its available stock, and changes no available stock |
| InventoryProvider.ReleaseKeepsBounds | Agents/data_providers/inventory_data_provider.py:157-166 | with a non-negative quantity, a release keeps the same bounds and changes no available stock |
| InventoryProvider.ReserveReleaseRoundTrip | Agents/data_providers/inventory_data_provider.py:105-178 | releasing what a successful reservation reserved succeeds, restores the stock table exactly, and leaves two more log records |
| InventoryProvider.ReleaseUndoes | Agents/data_providers/inventory_data_provider.py:154-178 | the release half of that round trip, for any table with exactly that quantity added to the part's reservations |
| InventoryProvider.LowStockFrom | Agents/data_providers/inventory_data_provider.py:194-208 | one row per part at or below its reorder point, in key order, each with that part's net stock, reorder point, supplier and lead time |
| InventoryProvider.GetLowStockItems | Agents/data_providers/inventory_data_provider.py:192-208 | one row per part whose net stock is at or below its reorder point, in table order, each with its net stock; no other part is listed |
| InventoryProvider.GetReservationHistory | Agents/data_providers/inventory_data_provider.py:224-228 | without a part number the whole log; with one, that part's records in log order with repeats kept |
| InventoryProvider.ReserveExtendsHistory | Agents/data_providers/inventory_data_provider.py:117-228 | a successful reservation adds its record to the end of that part's history and leaves every other part's history unchanged |
| InventoryProvider.SearchFrom | Agents/data_providers/inventory_data_provider.py:242-255 | one hit per part whose field contains the term ignoring case, in key order, each with that part's description, category, supplier, net stock and unit cost |
| InventoryProvider.SearchParts | Agents/data_providers/inventory_data_provider.py:230-258 | a field other than description, category or supplier is an error; otherwise one hit per part whose field contains the term ignoring case, in table order |
| InventoryService.LoadPart | src/logistics_system/core/inventory_service.py:93-106 | a loaded part's stock is its available plus reserved quantity, and each absent catalogue field takes the loader's default (no name gives "Part <number>", reorder point 10, maximum 100, cost 100.0, lead time 7 days) |
| InventoryService.LoadAll | src/logistics_system/core/inventory_service.py:89-106 | the loaded table holds exactly the catalogue's part numbers; each part is the loader's record (with its defaults) of a catalogue entry with that number, and of the last such entry when the number repeats; every part's stock is consistent |
| InventoryService.LoadConfiguration | src/logistics_system/core/inventory_service.py:84-146 | an unreadable configuration leaves exactly the one fallback pump; a readable one holds exactly the catalogue's part numbers, each the loader's record of its last catalogue entry; either way stock is consistent |
| InventoryService.GetInventoryInfo | src/logistics_system/core/inventory_service.py:294-298 | a record is returned exactly when the part is in the table, and it is that part's record |
| InventoryService.FamilyKeyword | src/logistics_system/core/inventory_service.py:307-313 | a part number has no family exactly when it contains none of HYDRAULIC-PUMP, MOTOR, VALVE; otherwise the family is one of HYDRAULIC, MOTOR, VALVE |
| InventoryService.GetAlternativeParts | src/logistics_system/core/inventory_service.py:300-315 | at most three alternatives, never the part itself, none without a family, otherwise the first three other parts in table order whose numbers contain the family keyword |
| InventoryService.CheckAvailability | src/logistics_system/core/inventory_service.py:201-284 | an unknown part reports its alternatives; a known one is available exactly when its available quantity covers the need, costs unit price times the quantity, and when short reports the positive shortage, alternatives and BACKORDER for LOW or MEDIUM priority and EXPEDITE otherwise |
| InventoryService.ReserveInventory | src/logistics_system/core/inventory_service.py:317-367 | an unknown part or short stock is an error that leaves the table unchanged; success happens exactly when the available quantity covers the request, moves the quantity from available to reserved on that part only, keeps its stock figure, and names the reservation RES-<part>-<time> |
| InventoryService.ReservePreservesConsistency | src/logistics_system/core/inventory_service.py:331-347 | a reservation keeps every part's stock equal to available plus reserved |
| InventoryService.StatusOf | src/logistics_system/core/inventory_service.py:387-400 | a part's level is OK exactly when stock is at least the minimum, and its value is stock times unit cost |
| InventoryService.TotalValueConcat | src/logistics_system/core/inventory_service.py:384-388 | the inventory value adds up over consecutive lists of part numbers, so a part named twice is valued twice |
| InventoryService.PartsStatus | src/logistics_system/core/inventory_service.py:384-400 | the status table holds exactly the known parts named, each with its own status |
| InventoryService.GetInventoryStatus | src/logistics_system/core/inventory_service.py:369-414 | without a list every part is reported; the table holds exactly the known parts named with the right level; the low list is the named numbers, in the order named and with repeats, whose part is at or below its minimum; the counts match the lists |
| InventoryService.LowStockListsJoin | src/logistics_system/core/inventory_service.py:384-404 | the report for two joined lists of part numbers lists the low parts of each in turn, so the low count adds up and a repeated number counts each time |
| InventoryService.AtMinimumBothOkAndLow | src/logistics_system/core/inventory_service.py:396-404 | a part whose stock equals its minimum is reported at level OK and also listed as low on stock |
| InventoryAgent.MockInventoryServesPump | Agents/InventoryAgent.py:77-117 | in the agent's built-in table the pump is available exactly for requests of at most its 24 free units, and a larger reservation is refused with 24 reported and the table unchanged |
| InventoryAgent.GetAlternativeParts | Agents/InventoryAgent.py:464-476 | the fixed pair for the first of ABC, XYZ, DEF the part number contains, and no suggestion exactly when it contains none of them |
| InventoryAgent.CheckAvailability | Agents/InventoryAgent.py:251-340 | an unknown part reports the suggestions; a known one is available exactly when its free units cover the request, costs unit price times quantity, and carries a shortage exactly when unavailable, with the positive shortfall and partial fulfilment exactly when some units are free |
| InventoryAgent.ReserveInventory | Agents/InventoryAgent.py:350-411 | an unknown part or short stock is an error that leaves the table unchanged; success happens exactly when free units cover the request, moves that quantity from free to reserved on that part only, and names the reservation RES-<request>-<time> |
| InventoryAgent.ReserveAgreesWithCheck | Agents/InventoryAgent.py:312-382 | a reservation succeeds exactly when the availability check for the same part and quantity says available |
| InventoryAgent.ReserveConservesUnits | Agents/InventoryAgent.py:389-391 | a reservation never changes the total of free plus reserved units over the table |
| InventoryAgent.EntryFor | Agents/InventoryAgent.py:437-450 | a part's status entry is NOT_FOUND exactly when the part is unknown; otherwise it carries the part's free and reserved units and is IN_STOCK exactly when some units are free |
| InventoryAgent.Entries | Agents/InventoryAgent.py:437-450 | the status table holds exactly the part numbers checked, each with its own entry |
| InventoryAgent.GetInventoryStatus | Agents/InventoryAgent.py:414-455 | no list or an empty one checks every part; the count is the length of the list checked, unknown and repeated numbers included; every checked number has an entry, NOT_FOUND exactly when unknown |
| InventoryBackup.LoadLegacy | Agents/InventoryAgent_Backup.py:117-157 | an unreadable configuration leaves exactly one part, PART-DEFAULT with 10 free units; a readable one holds exactly the catalogue's part numbers, each with the record of a catalogue entry for it, the last one when the number repeats |
| InventoryBackup.Init | Agents/InventoryAgent_Backup.py:66-115 | the agent wraps the inventory service exactly when the service can be imported, and otherwise runs on the legacy table |
| InventoryBackup.CheckAvailability | Agents/InventoryAgent_Backup.py:263-286 | the service answers exactly when the agent was built with it; otherwise the legacy rules answer |
| InventoryBackup.ReserveInventory | Agents/InventoryAgent_Backup.py:376-401 | the service path reserves with the request id as requester and "Request: <id>" as reason; either path leaves the stock unchanged when the reservation fails |
| InventoryBackup.ReserveAgreesWithCheck | Agents/InventoryAgent_Backup.py:263-401 | on either path a reservation goes through exactly when the availability check for the same part and quantity says available |
| InventoryBackup.GetInventoryStatus | Agents/InventoryAgent_Backup.py:455-471 | the service reports exactly when the agent was built with it; otherwise the legacy status table |
| InventoryBackup.DefaultStockServesTen | Agents/InventoryAgent_Backup.py:140-157 | with the configuration unreadable the legacy agent can serve up to 10 units of PART-DEFAULT and nothing of any other part |
| FleetManager.Init | Agents/fleet_manager.py:17-22 | a new manager has an empty dispatch log and no assignments, so every assignment points at a live record from the start |
| FleetManager.GetAgvInfo | Agents/fleet_manager.py:35-56 | an unknown AGV is an error; otherwise the AGV's record, available exactly when its status is AVAILABLE, with a current assignment exactly when one is active |
| FleetManager.AvailableFrom | Agents/fleet_manager.py:70-89 | one summary per named AGV that is AVAILABLE and passes the capacity and type filters, in the order named, each with its own record |
| FleetManager.GetAvailableAgvs | Agents/fleet_manager.py:58-93 | the AVAILABLE AGVs in table order, with at least the minimum capacity when that is positive and of the given type when one is given |
| FleetManager.ScoreAll | Agents/fleet_manager.py:122-138 | one score per candidate, in order, each the 40/30/30 weighting of battery, inverse trip cost and capacity use |
| FleetManager.Rank | Agents/fleet_manager.py:140-145 | the first three scored candidates (all of them when fewer) in non-increasing score order, the head scoring at least as high as every candidate |
| FleetManager.FindOptimalAgv | Agents/fleet_manager.py:95-156 | an unknown route, no AVAILABLE AGV with the capacity, or a zero trip cost or capacity among them is an error, and otherwise it succeeds; the optimal AGV and up to two alternatives are the ranking's top three in non-increasing score, the optimal one scoring at least as high as every candidate, with the route's figures |
| FleetManager.DispatchAgv | Agents/fleet_manager.py:158-219 | errors in the source's order for an unknown AGV, one not AVAILABLE, a missing from, to or quantity, and a load above capacity, each leaving the manager unchanged; on success the AGV is DISPATCHED at the pick-up location, a record numbered one past the log length is appended and assigned, and the cost is the AGV's trip cost |
| FleetManager.CompleteTask | Agents/fleet_manager.py:221-259 | fails exactly when the AGV has no active assignment, changing nothing; otherwise only that AGV's status changes, to AVAILABLE, its assigned log record alone is marked COMPLETED (taking the details when given) and the assignment is dropped; routes and other AGVs are unchanged |
| FleetManager.AvailableCount | Agents/fleet_manager.py:264-268 | with no filters, the AGVs listed as available are as many as those counted AVAILABLE in the fleet status |
| FleetManager.GetFleetStatus | Agents/fleet_manager.py:261-279 | the fleet size; the AVAILABLE, DISPATCHED and MAINTENANCE counts as the numbers of AGVs in each status; the mean battery level (none for an empty fleet); the summed capacity; the active assignments and the COMPLETED records in the log |
| FleetManager.AverageBattery | Agents/fleet_manager.py:272 | the mean battery level is absent exactly for an empty fleet, and otherwise times the fleet size is the battery sum |
| FleetManager.StatusesDisjoint | Agents/fleet_manager.py:264-270 | the AVAILABLE, DISPATCHED and MAINTENANCE counts together never exceed the fleet size |
| FleetManager.GetRouteInfo | Agents/fleet_manager.py:281-294 | the route is found exactly when `from|to` is a route key, and then it is that route |
| FleetManager.RecommendationUsesRouteInfo | Agents/fleet_manager.py:108-113 | a recommendation fails with the same error as the route lookup when the route is unknown, and otherwise carries the route the lookup reports |
| FleetManager.GetDispatchHistory | Agents/fleet_manager.py:296-300 | without an AGV id the whole log; with one, that AGV's records in log order with repeats kept |
| FleetManager.CompleteCountsOne | Agents/fleet_manager.py:233-274 | completing a task raises the completed-task count by exactly one |
| FleetManager.DispatchThenComplete | Agents/fleet_manager.py:158-259 | dispatching an AVAILABLE AGV and completing its task makes it AVAILABLE again with the old assignments, keeps the old log and adds exactly one COMPLETED record |
| FleetManager.CompleteAfterDispatch | Agents/fleet_manager.py:206-248 | completing right after a dispatch marks the record just appended COMPLETED and restores the previous assignments |
| FleetAgent.DemoFleetNeedsNoTopUp | Agents/FleetAgent.py:195-210 | the built-in fleet starts with every AGV AVAILABLE and charged, so the demo top-up leaves it unchanged |
| FleetAgent.ReadyIds | Agents/FleetAgent.py:197-200 | the ready AGVs are exactly those AVAILABLE with more than 30% battery |
| FleetAgent.EnsureDemoAvailability | Agents/FleetAgent.py:195-210 | with two or more ready AGVs nothing changes; otherwise exactly the first two AGVs are made AVAILABLE with at least 85% battery and the rest are untouched |
| FleetAgent.EnsureDemoReadiesTwo | Agents/FleetAgent.py:202-210 | after the top-up a fleet of at least two AGVs has at least two ready |
| FleetAgent.AddVirtual | Agents/FleetAgent.py:666-680 | a virtual AVAILABLE AGV is added, and becomes the only candidate, exactly when no AGV is ready |
| FleetAgent.ReviveForFallback | Agents/FleetAgent.py:684-690 | reviving one AGV for the fallback chooser keeps every candidate AVAILABLE and never shrinks the candidates |
| FleetAgent.FallbackPool | Agents/FleetAgent.py:660-690 | the fallback chooser always has at least one candidate, and every candidate is AVAILABLE |
| FleetAgent.ChooseFrom | Agents/FleetAgent.py:693-714 | the choice is a candidate; when some candidate can carry the load the choice can, and scores at least as high as every such candidate; when none can it is the first candidate |
| FleetAgent.FindOptimalAgv | Agents/FleetAgent.py:651-714 | always names an AVAILABLE AGV of the adjusted fleet, one that can carry the load and scores highest whenever some candidate can carry it |
| FleetAgent.TopUpForAi | Agents/FleetAgent.py:626-632 | reviving busy AGVs in fleet order keeps every candidate AVAILABLE and never shrinks the candidates |
| FleetAgent.AiPool | Agents/FleetAgent.py:602-632 | the AI chooser always has at least one candidate, and every candidate is AVAILABLE |
| FleetAgent.FindOptimalAgvWithAi | Agents/FleetAgent.py:592-649 | always names an AVAILABLE AGV, never the empty id when the fleet has none; a choice taken from the recommendation is a candidate named in its text that can carry the load; otherwise no candidate qualified and the rule-based choice is used |
| FleetAgent.LoadingMinutes | Agents/FleetAgent.py:344 | loading takes at least two minutes and at least one minute per ten pieces, and is one of those two figures |
| FleetAgent.ScheduleDelivery | Agents/FleetAgent.py:260-382 | the delivery is scheduled exactly when the chooser run on the topped-up fleet names a non-empty id, so always when the fleet has no empty id; the scheduled AGV is that choice, becomes ASSIGNED to the request with its other AGVs untouched, costs its trip cost, lasts the route's time plus the loading time (the route defaulting to 250 m and 8 minutes), and the delivery is named AGV-DEL-<request or DIRECT>-<time>; an unscheduled one offers the four alternative options |
| FleetAgent.GroupsDisjoint | Agents/FleetAgent.py:460-470 | the available, in-transit, charging and maintenance counts together never exceed the fleet size |
| FleetAgent.GetFleetAvailability | Agents/FleetAgent.py:438-491 | the fleet size and the exact counts of AVAILABLE, IN_TRANSIT-or-ASSIGNED, CHARGING and MAINTENANCE AGVs, the four together at most the fleet size |
| FleetAgent.GetDeliveryStatus | Agents/FleetAgent.py:404-419 | SCHEDULED exactly under 5 minutes since scheduling, IN_TRANSIT exactly from 5 to under 30, DELIVERED exactly from 30 on |
| FleetAgent.DeliveryStatusMonotone | Agents/FleetAgent.py:408-419 | a delivery's status never moves backwards as time passes |
| FleetService.LoadVehicle | src/logistics_system/core/fleet_service.py:105-120 | a loaded AGV has no current task, its status is the configured one (AVAILABLE when absent) in lower case, its capacity the configured piece count (100 when absent) and its battery the configured level (100 when absent) |
| FleetService.LoadEntries | src/logistics_system/core/fleet_service.py:101-120 | the fleet holds exactly the configured AGV ids, each loaded from one of its configured entries |
| FleetService.LoadFleet | src/logistics_system/core/fleet_service.py:95-162 | an unreadable configuration leaves exactly the one fallback AGV-001; a readable one is the configuration loaded entry by entry, holding exactly the configured ids |
| FleetService.LoadedStatusLower | src/logistics_system/core/fleet_service.py:112-314 | every loaded status is lower case, so a configured AVAILABLE is the "available" the chooser looks for |
| FleetService.KeyOrdersBattery | src/logistics_system/core/fleet_service.py:364 | the selection key orders AGVs by battery first: a key no greater than another's means a battery no higher |
| FleetService.FindOptimalAgv | src/logistics_system/core/fleet_service.py:302-378 | no AGV is chosen exactly when none is "available" with room for the weight; otherwise the chosen one is such an AGV whose battery is at least that of every such AGV |
| FleetService.ScheduleDelivery | src/logistics_system/core/fleet_service.py:219-300 | scheduling fails exactly when no AGV qualifies, offering the two alternatives and changing nothing; otherwise the chosen AGV alone becomes "assigned" to the delivery DEL-<time>-<agv> |
| FleetService.ScheduledAgvNoLongerCandidate | src/logistics_system/core/fleet_service.py:273-315 | once scheduled, an AGV is not a candidate for any later delivery, whatever its weight |
| FleetService.Utilization | src/logistics_system/core/fleet_service.py:501 | utilisation lies between 0 and 100 percent, is 0 exactly for an empty or wholly available fleet, and is 100 when nothing is available |
| FleetService.AvailableBusyChargingDisjoint | src/logistics_system/core/fleet_service.py:480-482 | the available, busy and charging counts together never exceed the fleet size |
| FleetService.GetFleetAvailability | src/logistics_system/core/fleet_service.py:474-532 | the fleet size and the exact "available", "assigned"-or-"busy", "charging" and maintenance-due counts; the total capacity and the capacity of the available AGVs; utilisation computed from the available share, 0 exactly when every AGV is available |
| FleetService.CapacitySplits | src/logistics_system/core/fleet_service.py:488-489 | the fleet's total capacity is the capacity of the AGVs meeting a test plus that of the others |
| FleetService.AvailableCapacityWithinTotal | src/logistics_system/core/fleet_service.py:488-489 | with no negative capacity configured, the available capacity never exceeds the total |
| FleetService.AssignedTo | src/logistics_system/core/fleet_service.py:539-544 | no AGV is found exactly when none carries the delivery as its task; otherwise the one found carries it |
| FleetService.Progress | src/logistics_system/core/fleet_service.py:554 | the simulated progress lies between 0 and 90 percent |
| FleetService.PhaseOf | src/logistics_system/core/fleet_service.py:556-567 | the phase is "scheduled" exactly for progress outside 0 to 99, pickup_in_progress exactly below 25, and delivery_in_progress exactly from 75 to 99 |
| FleetService.GetDeliveryStatus | src/logistics_system/core/fleet_service.py:534-590 | an unknown delivery fails exactly when no AGV carries it; otherwise the status names an AGV carrying it, with the phase of its progress |
| FleetService.NeverReportsScheduled | src/logistics_system/core/fleet_service.py:554-567 | because progress is capped at 90, the "scheduled" phase is never reported for a found delivery |
| FleetService.ScheduledDeliveryIsFound | src/logistics_system/core/fleet_service.py:539-551 | a delivery just scheduled is found by its id |
| Orchestrator.Fields | Agents/LogisticsOrchestratorAgent.py:655-659 | each request field is read under its snake-case key, then its CamelCase key, with the defaults Unknown, 0 and a bin capacity of 100 |
| Orchestrator.WriteReplenishmentRequest | Agents/LogisticsOrchestratorAgent.py:625-690 | the request is stored under its RequestId (or the generated id) with the given status and priority, its request fields, and exactly those of the four optional fields it supplies, each with its value (RemainingQuantityRequired as its number); every other stored request is unchanged |
| Orchestrator.UpdateRequestStatus | Agents/LogisticsOrchestratorAgent.py:693-758 | the request (created bare when unknown) gets the new status and update time, the ACCEPTED, COMPLETED or FAILED timestamp for those statuses, error details only on FAILED, and orchestration details only when non-empty; its id, creation time, request fields, priority and optional fields are kept, and every other request is unchanged |
| Orchestrator.WriteThenUpdate | Agents/LogisticsOrchestratorAgent.py:646-725 | a request written and then updated keeps its request fields, priority and optional fields and carries the new status |
| Orchestrator.ListActiveRequests | Agents/LogisticsOrchestratorAgent.py:1122-1154 | a prefix of the ACTIVE requests in store order: exactly `limit` of them when the limit is positive and more are ACTIVE, and all of them when the limit is not positive or not reached |
| Orchestrator.DetermineFinalStatus | Agents/LogisticsOrchestratorAgent.py:1005-1032 | PENDING_INVENTORY exactly when stock is unavailable, PENDING_DELIVERY exactly when it is available and a fleet result exists but is unscheduled, PENDING_APPROVAL exactly when those pass but approval is missing |
| Orchestrator.FinalStatusNeverPendingReview | Agents/LogisticsOrchestratorAgent.py:1026-1032 | the closing PENDING_REVIEW fallback is unreachable, and APPROVED holds exactly when every step succeeded |
| Orchestrator.CalculateEstimatedCost | Agents/LogisticsOrchestratorAgent.py:1034-1051 | the estimate before rounding; `Orchestrator.EstimateFleetAddsDelivery` and `Orchestrator.EstimateMonotoneInStock` state how it responds to a fleet result and to the stock |
| Orchestrator.EstimateWithNothingKnown | Agents/LogisticsOrchestratorAgent.py:1037-1050 | with nothing known the estimate is 100, or 150 with a fleet result that gives no delivery cost |
| Orchestrator.EstimateFleetAddsDelivery | Agents/LogisticsOrchestratorAgent.py:1046-1049 | a fleet result adds exactly its delivery cost, or 50 when it gives none, to the estimate made without one |
| Orchestrator.EstimateMonotoneInStock | Agents/LogisticsOrchestratorAgent.py:1041-1049 | at a non-negative unit cost more available stock never lowers the estimate, and with non-negative parts the estimate is at least the 100 handling cost |
| Orchestrator.GenerateBusinessJustification | Agents/LogisticsOrchestratorAgent.py:1053-1070 | the text names the part, then the bin level in units, then the clause for URGENT, HIGH or any other priority, each read from its snake-case key, then its CamelCase key, else Unknown and 0 |
| Orchestrator.JustificationMentions | Agents/LogisticsOrchestratorAgent.py:1053-1070 | the text contains the part, the bin level and the priority clause |
| Orchestrator.JustificationDistinguishesPriority | Agents/LogisticsOrchestratorAgent.py:1063-1068 | two justifications for one part and level are equal exactly when both priorities are URGENT, both HIGH, or both something else |
| Orchestrator.WorkflowStatuses | Agents/LogisticsOrchestratorAgent.py:425-622 | the workflow succeeds exactly when all three agents return success, writing the eleven statuses from CHECKING_INVENTORY to COMPLETED; otherwise it writes a prefix of them and then INVENTORY_UNAVAILABLE, AGV_UNAVAILABLE, REJECTED or WORKFLOW_FAILED |
| Orchestrator.ApplyStatuses | Agents/LogisticsOrchestratorAgent.py:693-742 | after writing a list of statuses the request shows the last one, and every other request is unchanged |
| Orchestrator.WorkflowFinalStatus | Agents/LogisticsOrchestratorAgent.py:425-622 | with agents that return their results: after a successful workflow the request is COMPLETED with a completion time; after an unscheduled delivery it is AGV_UNAVAILABLE; other requests are untouched |
| Orchestrator.WorkflowStatusesAsWritten | Agents/LogisticsOrchestratorAgent.py:497-614 | as written the fleet call always raises, so no workflow succeeds, and once stock is confirmed the statuses are CHECKING_INVENTORY, INVENTORY_CONFIRMED, SCHEDULING_AGV, WORKFLOW_FAILED |
| Orchestrator.WorkflowNeverCompletesAsWritten | Agents/LogisticsOrchestratorAgent.py:497-614 | as written no request ends COMPLETED and one with confirmed stock ends WORKFLOW_FAILED, while with a fleet agent that schedules it would end COMPLETED |
| Dashboard.InventoryEntries | flask_app.py:205-296 | the inventory step logs nothing exactly when there is no orchestrator, and otherwise only step-2 InventoryAgent entries |
| Dashboard.RunAnalysis | flask_app.py:162-430 | the analysis aborts exactly when the part number, quantity, destination or priority is missing, having logged at most the opening entry; a completed one logs steps 1,2,2,3,3,4,4,5 with an orchestrator and 1,3,3,4,4,5 without |
| Dashboard.AnalysisLogOrdered | flask_app.py:162-430 | a completed analysis log is in step order, opens with step 1 and closes with the entry tagged 5, while the state's step is left at 0 |
| Dashboard.Submit | flask_app.py:67-104 | an unreadable body only marks the old state as failed; otherwise the state is reset and active, holds the request and the analysis log, and either awaits approval at step 0 with the analysis as results or carries the error status at step 1 without results |
| Dashboard.Approve | flask_app.py:106-132 | accepted exactly when the state awaits approval, which then moves to agv_workflow_starting at step 5, phase 1; any other state is refused and left unchanged |
| Dashboard.Reject | flask_app.py:134-155 | whatever the state, the result is inactive and rejected at step 0, phase 0, with no request, results or logs |
| Dashboard.WorkflowStatus | flask_app.py:157-160 | the status query answers with the state and leaves it unchanged |
| Dashboard.RejectForgetsHistory | flask_app.py:112-155 | any two states look the same after a rejection, and a rejected state cannot be approved |
| Dashboard.ApproveOnlyOnce | flask_app.py:112-117 | an approval is consumed: a second approval in a row is refused |
| Dashboard.AbortedSubmitCannotBeApproved | flask_app.py:89-113 | a submission whose analysis aborted cannot be approved |
| Dashboard.AgvEntries | flask_app.py:441-533 | the AGV phases log steps 5,5,5,6 when the part number is missing, 5,5,5,6,6,6 when the destination is missing, and 5,5,5,6,6,6,7,7 otherwise, always in step order |
| Dashboard.AgvWorkflow | flask_app.py:432-538 | with part number and destination known the workflow ends completed and inactive at step 7 with the eight phase entries appended; otherwise it ends in error with the active flag kept; the analysis log, results and request are untouched |
| Dashboard.ApprovedRequestCompletes | flask_app.py:67-533 | a completed analysis, once approved, runs the AGV phases to completion with exactly the eight phase entries, and keeps the analysis log beside them |
| Hooks.StrippedLines | orchestrator_hooks.py:610-614 | one stripped line per newline-separated line of the text, none holding a newline |
| Hooks.KeptLines | orchestrator_hooks.py:613-621 | a line is kept exactly when it is a stripped line that is non-empty, mentions neither toolUseId nor status, and starts with neither `{` nor `INFO:` |
| Hooks.CleanText | orchestrator_hooks.py:608-626 | the result is never empty: the fixed completion sentence when no line is kept, otherwise text that splits at newlines into the first three kept lines |
| Hooks.CleanTextLines | orchestrator_hooks.py:623-626 | a cleaned text has one to three lines, all of them kept lines unless it is the fallback sentence alone |
| Hooks.PhaseTitle | orchestrator_hooks.py:1021-1033 | planning is "PHASE 1: PLANNING & ANALYSIS", approval "PHASE 2: APPROVAL PROCESS", execution "PHASE 3: EXECUTION"; any other phase gets "PHASE: " and its upper-cased name |
| Hooks.SendPhaseHeader | orchestrator_hooks.py:1021-1040 | exactly one phase_header message for the phase is appended, and the phase, tools and completed phases are unchanged |
| Hooks.CompletePhase | orchestrator_hooks.py:1042-1061 | exactly one phase_complete message for the phase is appended and the phase is recorded as completed |
| Hooks.ToolsWith | orchestrator_hooks.py:541-544 | the distinct called tools whose name contains the word |
| Hooks.BeforeToolCall | orchestrator_hooks.py:390-472 | the tool name (unknown_tool when missing) is recorded; an approval tool switches the phase to approval, sending the approval header only when the phase changes; then one raw_tool_call message in the current phase is sent |
| Hooks.AfterToolCall | orchestrator_hooks.py:474-566 | one raw_result message in the current phase is sent first; planning completes exactly when still in planning, not yet completed, with inventory and fleet tools called and no approval tool; approval completes exactly when not yet completed, with an approval tool and more than one distinct inventory or fleet tool called |
| Hooks.BeforeKeepsInv | orchestrator_hooks.py:390-472 | a tool call keeps the hook in planning or approval, with at most one header (sent exactly when an approval tool was called) and one completion per completed phase |
| Hooks.AfterKeepsInv | orchestrator_hooks.py:474-566 | a tool result keeps the same invariant |
| Hooks.RunKeepsInv | orchestrator_hooks.py:390-566 | every run of tool events from a fresh hook keeps the invariant |
| Hooks.CalledToolsMembers | orchestrator_hooks.py:403-405 | a tool is among a run's called tools exactly when some before-call event names it |
| Hooks.RunTools | orchestrator_hooks.py:349-405 | the hook's set of called tools is exactly the tools named by the run's before-call events |
| Hooks.PhaseMessagesAtMostOnce | orchestrator_hooks.py:418-559 | over any run the approval header is sent at most once, exactly when an approval tool was called, and each phase is reported complete at most once |
| Hooks.ApprovalPhaseSticks | orchestrator_hooks.py:418-425 | once in the approval phase, no event moves the hook out of it |
| Hooks.UsableKeyIndex | orchestrator_hooks.py:1010-1012 | the index of the first key whose value is present and truthy; none exactly when no key is usable |
| Hooks.ExtractPart | orchestrator_hooks.py:1006-1019 | no part exactly when the input is not a dictionary or none of query, part, item, product, component is usable; otherwise the first usable value, replaced by HYDRAULIC-PUMP-HP450 when it mentions HYDRAULIC or PUMP in any case |
| Hooks.PumpQueryWins | orchestrator_hooks.py:1010-1015 | a truthy query mentioning a pump yields HYDRAULIC-PUMP-HP450 whatever the later keys hold |
| Hooks.LogMessage | orchestrator_hooks.py:688-703 | the record holds type, content, timestamp and source plus the metadata's keys; metadata values win, and type, content and source keep their own values unless the metadata overrides them |
| Hooks.LogMessageKeepsFields | orchestrator_hooks.py:697-703 | metadata never removes a field of the record |
| Observability.DisplayName | strands_observability.py:55 | the shown agent name has the same length, every underscore becomes a space and every other character is upper-cased |
| Observability.ToUiFormat | strands_observability.py:50-61 | the UI record keeps step, content, timestamp, level, progress and type, shows the display name, and turns missing metadata into an empty map |
| Observability.DisplayNameNormalised | strands_observability.py:55 | a displayed name holds no underscore, and displaying it again changes nothing |
| Observability.Prefix | strands_observability.py:265-276 | the Python slice `[:n]`: a prefix of at most n characters, the whole text when it is short enough |
| Observability.CaptureLog | strands_observability.py:79-94 | exactly one `log` message with the given agent, level, content and step is appended; earlier messages, tool calls and communications are unchanged |
| Observability.CaptureProgress | strands_observability.py:96-112 | exactly one `progress` message at level info carrying the progress value and step is appended; nothing else changes |
| Observability.CaptureToolCall | strands_observability.py:114-144 | the call is stored under tool name plus whole seconds, replacing only a same-id entry, and one `tool_call` message is appended whose metadata names that id and a result preview of at most 100 characters |
| Observability.GetMessagesForUi | strands_observability.py:223-226 | one UI record per captured message, in capture order |
| Observability.CaptureExtendsUiList | strands_observability.py:79-226 | capturing a log message extends the UI list by exactly the new record, keeping what was shown before |
| Observability.GetToolCallDetails | strands_observability.py:228-231 | the stored call exactly when the id is known, otherwise nothing |
| Observability.Clear | strands_observability.py:238-243 | messages, tool calls and communications are all emptied |
| Observability.ClearForgets | strands_observability.py:223-243 | after a clear the UI list is empty and no tool call can be looked up |
| Observability.Call | strands_observability.py:256-289 | the step counter goes up by one; a request entry and then a response (info) or error (error) entry, both under the new step, are appended; the result is passed on or the error re-raised |
| Observability.CallAppendsPair | strands_observability.py:256-289 | one call on a wrapper whose log is numbered in pairs adds exactly one more pair |
| Observability.CallsNumberSteps | strands_observability.py:251-289 | a fresh wrapper called n times has counted n steps and logged 2n entries, the k-th pair carrying step k |

## Where the code and its description part ways

The model follows the code in each of these places:

- When the dashboard runs without an orchestrator, its analysis logs steps 1,3,3,4,4,5. No step-2 entries are logged, so not every path produces 1,2,2,3,3,4,4,5 (`Dashboard.RunAnalysis`).
- The approver agent's automatic-level document is not among the manager's documents. Required documents grow only from the manager level upwards (`ApproverAgent.DocumentationGrows`).
- The approval statistics count a decided request twice: once in the live list and once in the history (see Findings).
- The workflow's fleet step passes keyword arguments the fleet agent does not accept, so as written no workflow gets past SCHEDULING_AGV (see Findings). The rest of the model treats the fleet agent's answer as an input, as the evidently intended call would give it.
- The closing PENDING_REVIEW branch of the orchestrator's final-status decision is unreachable (`Orchestrator.FinalStatusNeverPendingReview`).
- The fleet service's progress is capped at 90, so a found delivery is never reported as "scheduled" (`FleetService.NeverReportsScheduled`).

## Left out

- Language-model calls, connection probes and prompt texts. Wherever the code consults a model or another agent, the answer is an input to the model.
- Clocks, uuids, sleeps, threads, locks, queues, files and Langfuse tracing. Clock readings and ids are parameters; the rest has no counterpart.
- Float rounding (`round(…, 2)` and one-decimal utilisation). Money and ratios are exact `real`.
- Python's `hash`, used by the fleet service's tie-break, is a function parameter.
- The pandas NaN truthiness of flags that a threshold-table row leaves unset. Every row carries explicit booleans, and an unset flag is false.
- Agent construction, tool wrappers that only serialise a manager's result, and the monitoring loops. They are glue over libraries that are not part of this model.
- Inventory agents: demand analysis, demand prediction, model recommendations, monitoring, reservation expiry, `duration_hours` and restock dates.
- Inventory service: `llm_inventory_decision`, demand-history loading and the provider's `get_inventory_summary`.
- Fleet agent: `calculate_delivery_cost`, `get_ai_fleet_recommendations`, `analyze_fleet_optimization` and monitoring.
- The fleet agent's route table is an input, so its built-in routes are not part of the model.
- `FleetAgent.GetDeliveryStatus` takes the elapsed minutes as an input. Parsing the timestamp out of the delivery id, and that parse's error path, are not modelled.
- Fleet service: `_estimate_delivery_time` and `calculate_delivery_cost`.
- The fleet service's fallback AGV carries no trip cost in the code; the model gives it 5.0.
- Orchestrator: `lambda_triggered_replenishment`, `orchestrate_replenishment_request`, the `simulate_*` methods and the processing loop.
- `get_request_status` reads a DynamoDB table rather than the in-memory store, so it is not modelled.
- The orchestration-detail dictionaries the workflow attaches to status updates are left out: `Orchestrator.ApplyStatuses` passes none.
- Dashboard: message texts and timestamps. A request missing a key aborts the analysis, as the code's `KeyError` does. A missing `agent_logs` list after a rejection is read as empty. A body that parses but is not an object (`null` or a list) is not modelled: the code resets the state with it and then fails at the first key lookup, as for a request without `part_number`.
- Hooks: only the raw mode with every agent captured is modelled, since both flags are fixed to true. The reasoning and progress texts of the other mode, tool durations, message texts other than the phase titles, `after_model_call` and the `on_*` callbacks are left out.
- Upper and lower casing is ASCII only.
- Observability: subscribers, the per-request file log and `reset_for_new_request`'s file handling are left out. Its clearing of messages, tool calls and communications is what `Observability.Clear` states.
- Observability: `get_agent_communications` is a plain copy.
- Observability: `capture_agent_communication` indexes a list with a string and so always raises, and it is left out.
- Observability: the tool-call id uses the clock in whole seconds, given as an integer.
- Non-negative quantities are assumed only where a bound invariant needs them. The code never checks them.
- InventoryProvider.SearchParts: the term is matched as a literal, case-insensitive substring. The code hands it to pandas' `str.contains`, which reads it as a regular expression, so terms with metacharacters (".", "|", "(" …) may match other parts, and an invalid pattern takes the "Search failed" error branch, which the model never takes.
- InventoryProvider.SearchFrom: the same literal substring match as `InventoryProvider.SearchParts`; regular-expression matching is not modelled.
- ApprovalStore.StatisticsOver: for no records the code returns a differently shaped dictionary (an `average_approval_time` of 0 and no rate or distribution keys); the model returns the same record with a rate of 0 and an empty distribution.
- FleetAgent.ScheduleDelivery: only the timing, id, cost and status update are modelled; the route and cost texts of the reply are left out.
- ApprovalService.EstimateProcessingTime: the contract bounds the hours (at least 1, at most 13 for URGENT, at least 26 for LOW) and `ApprovalService.ProcessingTimeMonotone` orders them by cost. The exact value for each cost band is not restated.
- ApproverAgent.GetRequiredDocumentation: the contract only guarantees at least one document. How the lists nest is stated by `ApproverAgent.DocumentationGrows`, not by the exact lists.

## Findings

| source | as written | input that shows it | evidently intended | confidence | as-written member | corrected member |
|---|---|---|---|---|---|---|
| Agents/approval_data_provider.py:296-332 | the statistics count the live list together with the history, and a decision copies the request into the history, so every decided request is counted twice | one 3000 request created and then approved by a manager: total_requests is 2 | each stored request counted once | not executed | ApprovalStore.GetApprovalStatisticsAsWritten / ApprovalStore.StatisticsDoubleCount | ApprovalStore.GetApprovalStatistics / ApprovalStore.DecisionKeepsTotal |
| Agents/LogisticsOrchestratorAgent.py:500-506 | the fleet step calls the fleet agent's `schedule_delivery` with `pickup_location`, `quantity_pieces` and `delivery_deadline`, keywords its signature (Agents/FleetAgent.py:260-268) does not have, so the call raises and the handler writes WORKFLOW_FAILED | any request whose stock check answers available: the statuses end CHECKING_INVENTORY, INVENTORY_CONFIRMED, SCHEDULING_AGV, WORKFLOW_FAILED | the fleet agent called with its own parameters, so that a scheduled delivery goes on to approval and completion | high; not executed | Orchestrator.WorkflowStatusesAsWritten / Orchestrator.WorkflowNeverCompletesAsWritten | Orchestrator.WorkflowStatuses / Orchestrator.WorkflowFinalStatus |

=== FILE: approval_service.dfy ===
/** The approval service's rules (src/logistics_system/core/approval_service.py):
    integer risk scoring, the basic and policy checks, the budget check,
    the three-way decision, the authority lookup, processing time and the
    document list. Money is exact `real`; the language-model commentary
    the service attaches to each result is not part of the model. */
module ApprovalService {
  import opened Wrappers
  import opened Text
  import opened Seqs

  /** The cost thresholds of the approval policies. */
  datatype Thresholds = Thresholds(autoApprove: real, managerApproval: real, directorApproval: real,
                                   boardApproval: real)

  datatype Policies = Policies(
    thresholds: Thresholds,
    /** Per priority, the optional `auto_approve_limit`. */
    priorityRules: map<string, Option<real>>,
    requireJustificationAbove: real,
    requireMultipleQuotesAbove: real)

  datatype Authority = Authority(role: string, maxAmount: real, authorityLevel: int)

  /** The policies used when the configuration holds none. */
  const DefaultPolicies := Policies(
    Thresholds(1000.0, 5000.0, 25000.0, 100000.0),
    map["URGENT" := Some(2000.0), "HIGH" := Some(1500.0), "MEDIUM" := Some(1000.0), "LOW" := Some(500.0)],
    2000.0, 10000.0)

  /** The authorities used when the configuration lists none. */
  const DefaultAuthorities := [Authority("system", 1000.0, 1), Authority("supervisor", 5000.0, 2),
                               Authority("manager", 25000.0, 3), Authority("director", 100000.0, 4)]

  // ---- risk ----

  datatype RiskLevel = Low | Medium | High | Critical

  function RiskRank(l: RiskLevel): nat {
    match l
    case Low => 0
    case Medium => 1
    case High => 2
    case Critical => 3
  }

  const HighRiskKeywords := ["emergency", "critical", "failure", "breakdown", "urgent"]

  /** Some keyword occurs in the lowercased description. */
  predicate HasRiskKeyword(description: string) {
    exists i :: 0 <= i < |HighRiskKeywords| && Contains(Lower(description), HighRiskKeywords[i])
  }

  /** The cost factor: 30 points above 50000, 15 above 10000, 10 above
      5000, none otherwise. */
  function CostRisk(cost: real): (r: (seq<string>, int))
    ensures r.1 in {0, 10, 15, 30} && (r.1 == 0 <==> r.0 == [])
    ensures r.1 == 30 <==> cost > 50000.0
    ensures r.1 == 15 <==> 10000.0 < cost <= 50000.0
    ensures r.1 == 10 <==> 5000.0 < cost <= 10000.0
    ensures r.1 == 0 <==> cost <= 5000.0
    ensures r.0 != [] ==> |r.0| == 1 && r.0[0] in {"high_cost", "medium_cost", "elevated_cost"}
    ensures (r.1 == 30 ==> r.0 == ["high_cost"]) && (r.1 == 15 ==> r.0 == ["medium_cost"])
            && (r.1 == 10 ==> r.0 == ["elevated_cost"])
  {
    if cost > 50000.0 then (["high_cost"], 30)
    else if cost > 10000.0 then (["medium_cost"], 15)
    else if cost > 5000.0 then (["elevated_cost"], 10)
    else ([], 0)
  }

  /** The priority factor: 20 points for URGENT, 10 for HIGH, none for any
      other priority. */
  function PriorityRisk(priority: string): (r: (seq<string>, int))
    ensures r.1 in {0, 10, 20} && (r.1 == 0 <==> r.0 == [])
    ensures r.1 == 20 <==> priority == "URGENT"
    ensures r.1 == 10 <==> priority == "HIGH"
    ensures r.0 != [] ==> |r.0| == 1 && r.0[0] in {"urgent_priority", "high_priority"}
    ensures (r.1 == 20 ==> r.0 == ["urgent_priority"]) && (r.1 == 10 ==> r.0 == ["high_priority"])
  {
    if priority == "URGENT" then (["urgent_priority"], 20)
    else if priority == "HIGH" then (["high_priority"], 10)
    else ([], 0)
  }

  /** The keyword factor: 15 points exactly when the lowercased description
      mentions one of the emergency keywords. */
  function KeywordRisk(description: string): (r: (seq<string>, int))
    ensures r.1 in {0, 15} && (r.1 == 0 <==> r.0 == [])
    ensures r.1 == 15 <==> HasRiskKeyword(description)
    ensures r.0 != [] ==> r.0 == ["emergency_keywords"]
  {
    if HasRiskKeyword(description) then (["emergency_keywords"], 15) else ([], 0)
  }

  datatype RiskAssessment = RiskAssessment(riskLevel: RiskLevel, riskScore: int, riskFactors: seq<string>,
                                           recommendations: seq<string>)

  /** Critical from 40, high from 25, medium from 15. */
  function LevelOf(score: int): (l: RiskLevel)
    ensures l == Critical <==> score >= 40
    ensures l == High <==> 25 <= score < 40
    ensures l == Medium <==> 15 <= score < 25
    ensures l == Low <==> score < 15
  {
    if score >= 40 then Critical else if score >= 25 then High else if score >= 15 then Medium else Low
  }

  /** A higher score never gives a lower level. */
  lemma LevelMonotone(a: int, b: int)
    requires a <= b
    ensures RiskRank(LevelOf(a)) <= RiskRank(LevelOf(b))
  {
  }

  /** `_get_risk_mitigation_recommendations` */
  function Recommendations(level: RiskLevel, factors: seq<string>): (r: seq<string>)
    ensures ("Require senior management approval" in r) <==> level == High || level == Critical
    ensures ("Obtain multiple quotes for comparison" in r) <==> "high_cost" in factors
    ensures ("Validate urgency justification" in r) <==> "urgent_priority" in factors
  {
    (if level == High || level == Critical
     then ["Require senior management approval", "Conduct additional vendor verification"] else [])
    + (if "high_cost" in factors then ["Obtain multiple quotes for comparison", "Verify budget availability"]
       else [])
    + (if "urgent_priority" in factors
       then ["Validate urgency justification", "Consider expedited approval process"] else [])
  }

  /** The rule part of `analyze_approval_risk`. */
  function AnalyzeApprovalRisk(cost: real, priority: string, description: string): (a: RiskAssessment)
    ensures a.riskScore == CostRisk(cost).1 + PriorityRisk(priority).1 + KeywordRisk(description).1
    ensures a.riskFactors == CostRisk(cost).0 + PriorityRisk(priority).0 + KeywordRisk(description).0
    ensures a.riskLevel == LevelOf(a.riskScore)
    ensures 0 <= a.riskScore <= 65
    ensures a.recommendations == Recommendations(a.riskLevel, a.riskFactors)
  {
    var c := CostRisk(cost);
    var p := PriorityRisk(priority);
    var k := KeywordRisk(description);
    var score := c.1 + p.1 + k.1;
    var factors := c.0 + p.0 + k.0;
    RiskAssessment(LevelOf(score), score, factors, Recommendations(LevelOf(score), factors))
  }

  /** No single factor reaches critical: that takes at least two of them. */
  lemma CriticalNeedsTwoFactors(cost: real, priority: string, description: string)
    ensures AnalyzeApprovalRisk(cost, priority, description).riskLevel == Critical ==>
              |AnalyzeApprovalRisk(cost, priority, description).riskFactors| >= 2
  {
  }

  /** Low risk exactly when there is no factor but possibly one worth 10. */
  lemma LowRiskCases(cost: real, priority: string, description: string)
    ensures AnalyzeApprovalRisk(cost, priority, description).riskLevel == Low <==>
              cost <= 10000.0 && priority != "URGENT" && !HasRiskKeyword(description)
              && !(5000.0 < cost && priority == "HIGH")
  {
  }

  // ---- checks ----

  datatype Check = Check(name: string, passed: bool)

  datatype BasicChecks = BasicChecks(checks: seq<Check>, allPassed: bool, failedChecks: seq<string>)

  /** Whether every check passed, and the names of those that did not. */
  function Summarize(checks: seq<Check>): (b: BasicChecks)
    ensures b.checks == checks
    ensures b.allPassed <==> forall i :: 0 <= i < |checks| ==> checks[i].passed
    ensures forall n :: n in b.failedChecks <==> exists i :: 0 <= i < |checks| && checks[i].name == n
                                                               && !checks[i].passed
  {
    var failed := Filter((c: Check) => !c.passed, checks);
    var names := seq(|failed|, i requires 0 <= i < |failed| => failed[i].name);
    assert forall i :: 0 <= i < |checks| && !checks[i].passed ==> checks[i].name in names by {
      forall i | 0 <= i < |checks| && !checks[i].passed
        ensures checks[i].name in names
      {
        assert checks[i] in failed;
        var j :| 0 <= j < |failed| && failed[j] == checks[i];
        assert names[j] == checks[i].name;
      }
    }
    assert forall n :: n in names ==> exists i :: 0 <= i < |checks| && checks[i].name == n
                                                   && !checks[i].passed by {
      forall n | n in names
        ensures exists i :: 0 <= i < |checks| && checks[i].name == n && !checks[i].passed
      {
        var j :| 0 <= j < |names| && names[j] == n;
        assert failed[j] in checks;
      }
    }
    assert failed == [] <==> forall i :: 0 <= i < |checks| ==> checks[i].passed by {
      if failed != [] {
        assert failed[0] in checks;
      }
    }
    BasicChecks(checks, failed == [], names)
  }

  /** `run_approval_checks` */
  function RunApprovalChecks(p: Policies, cost: real, priority: string, description: string)
    : (b: BasicChecks)
    ensures b.allPassed <==>
              cost > 0.0 && priority in ["LOW", "MEDIUM", "HIGH", "URGENT"] && Strip(description) != []
              && cost <= p.thresholds.boardApproval && cost > p.requireJustificationAbove
  {
    var checks := [
      Check("cost_validation", cost > 0.0),
      Check("priority_validation", priority in ["LOW", "MEDIUM", "HIGH", "URGENT"]),
      Check("description_provided", |Strip(description)| > 0),
      Check("within_policy_limits", cost <= p.thresholds.boardApproval),
      Check("justification_required", cost > p.requireJustificationAbove)
    ];
    var b := Summarize(checks);
    assert b.allPassed <==> checks[0].passed && checks[1].passed && checks[2].passed && checks[3].passed
                             && checks[4].passed;
    b
  }

  /** `justification_required` is counted as a check that must pass, so a
      request at or below the justification threshold always fails. */
  lemma CheapRequestFailsChecks(p: Policies, cost: real, priority: string, description: string)
    requires cost <= p.requireJustificationAbove
    ensures !RunApprovalChecks(p, cost, priority, description).allPassed
    ensures "justification_required" in RunApprovalChecks(p, cost, priority, description).failedChecks
  {
    var checks := RunApprovalChecks(p, cost, priority, description).checks;
    assert checks[4] == Check("justification_required", false);
  }

  const MonthlyBudgetLimit := 100000.0
  const CurrentMonthSpent := 25000.0

  datatype Budget = Budget(compliant: bool, remainingBudget: real, utilizationPercent: real, warning: bool)

  /** `check_budget_compliance` against the fixed month figures. */
  function CheckBudgetCompliance(cost: real): (b: Budget)
    ensures b.remainingBudget == 75000.0
    ensures b.compliant <==> cost <= 75000.0
    ensures b.warning <==> cost > 55000.0
  {
    var remaining := MonthlyBudgetLimit - CurrentMonthSpent;
    var util := (CurrentMonthSpent + cost) / MonthlyBudgetLimit * 100.0;
    Budget(cost <= remaining, remaining, util, util > 80.0)
  }

  /** Past the warning line of 80% the budget is still compliant up to
      75000. */
  lemma WarningBeforeNonCompliance(cost: real)
    requires !CheckBudgetCompliance(cost).compliant
    ensures CheckBudgetCompliance(cost).warning
  {
  }

  /** `_get_applicable_threshold` */
  function ApplicableThreshold(t: Thresholds, cost: real): (name: string)
    ensures name == "auto_approve" <==> cost <= t.autoApprove
    ensures name == "manager_approval" <==> t.autoApprove < cost <= t.managerApproval
    ensures name == "director_approval" <==>
              (t.autoApprove < cost && t.managerApproval < cost && cost <= t.directorApproval)
    ensures name == "board_approval" <==>
              (t.autoApprove < cost && t.managerApproval < cost && t.directorApproval < cost)
  {
    if cost <= t.autoApprove then "auto_approve"
    else if cost <= t.managerApproval then "manager_approval"
    else if cost <= t.directorApproval then "director_approval"
    else "board_approval"
  }

  datatype PolicyValidation = PolicyValidation(compliant: bool, applicableThreshold: string)

  /** `_validate_approval_policies` */
  function ValidateApprovalPolicies(p: Policies, cost: real, priority: string): (v: PolicyValidation)
    ensures v.compliant <==>
              cost <= p.thresholds.autoApprove && cost <= p.thresholds.managerApproval
              && cost <= p.thresholds.directorApproval && cost <= p.thresholds.boardApproval
              && priority in p.priorityRules
    ensures v.applicableThreshold == ApplicableThreshold(p.thresholds, cost)
  {
    var t := p.thresholds;
    var compliant := cost <= t.autoApprove && cost <= t.managerApproval && cost <= t.directorApproval
                     && cost <= t.boardApproval && priority in p.priorityRules;
    PolicyValidation(compliant, ApplicableThreshold(t, cost))
  }

  // ---- authority ----

  function Covers(cost: real): Authority -> bool {
    (a: Authority) => cost <= a.maxAmount
  }

  /** Every authority that covers the cost, in list order. */
  function Covering(auths: seq<Authority>, cost: real): (r: seq<Authority>)
    ensures forall a :: a in r <==> a in auths && cost <= a.maxAmount
  {
    Filter(Covers(cost), auths)
  }

  /** Index of the first authority with the least limit: the head of
      Python's stable sort by ascending limit. */
  function FirstLeast(auths: seq<Authority>): (i: nat)
    requires |auths| > 0
    ensures i < |auths|
    ensures forall j :: 0 <= j < |auths| ==> auths[i].maxAmount <= auths[j].maxAmount
    ensures forall j :: 0 <= j < i ==> auths[i].maxAmount < auths[j].maxAmount
    decreases |auths|
  {
    if |auths| == 1 then 0
    else
      var k := FirstLeast(auths[1..]) + 1;
      if auths[0].maxAmount <= auths[k].maxAmount then 0 else k
  }

  /** Index of the first authority with the greatest limit, the one
      Python's `max` returns. */
  function FirstGreatest(auths: seq<Authority>): (i: nat)
    requires |auths| > 0
    ensures i < |auths|
    ensures forall j :: 0 <= j < |auths| ==> auths[j].maxAmount <= auths[i].maxAmount
    ensures forall j :: 0 <= j < i ==> auths[j].maxAmount < auths[i].maxAmount
    decreases |auths|
  {
    if |auths| == 1 then 0
    else
      var k := FirstGreatest(auths[1..]) + 1;
      if auths[0].maxAmount >= auths[k].maxAmount then 0 else k
  }

  /** `_get_required_authority`: the least authority that covers the cost,
      otherwise the greatest. The loader never leaves the list empty. */
  function GetRequiredAuthority(auths: seq<Authority>, cost: real): (a: Authority)
    requires |auths| > 0
    ensures a in auths
    ensures (exists b :: b in auths && cost <= b.maxAmount) ==>
              cost <= a.maxAmount
              && forall b :: b in auths && cost <= b.maxAmount ==> a.maxAmount <= b.maxAmount
    ensures (forall b :: b in auths ==> b.maxAmount < cost) ==>
              forall b :: b in auths ==> b.maxAmount <= a.maxAmount
    ensures (exists b :: b in auths && cost <= b.maxAmount) ==>
              exists i :: 0 <= i < |auths| && a == auths[i]
                          && forall j :: 0 <= j < i && cost <= auths[j].maxAmount ==> a.maxAmount < auths[j].maxAmount
    ensures (forall b :: b in auths ==> b.maxAmount < cost) ==>
              exists i :: 0 <= i < |auths| && a == auths[i]
                          && forall j :: 0 <= j < i ==> auths[j].maxAmount < a.maxAmount
  {
    var cover := Covering(auths, cost);
    if cover != [] then
      LeastCoverIsFirst(auths, cost);
      cover[FirstLeast(cover)]
    else auths[FirstGreatest(auths)]
  }

  /** The least covering authority is, among the covering ones with that
      limit, the first in list order: the stable sort keeps ties in order. */
  lemma LeastCoverIsFirst(auths: seq<Authority>, cost: real)
    requires Covering(auths, cost) != []
    ensures var cover := Covering(auths, cost);
            exists i :: 0 <= i < |auths| && cover[FirstLeast(cover)] == auths[i]
                        && forall j :: 0 <= j < i && cost <= auths[j].maxAmount ==>
                             cover[FirstLeast(cover)].maxAmount < auths[j].maxAmount
  {
    var cover := Covering(auths, cost);
    var m := FirstLeast(cover);
    var i := FilterPosition(Covers(cost), auths, m);
    forall j | 0 <= j < i && cost <= auths[j].maxAmount
      ensures cover[m].maxAmount < auths[j].maxAmount
    {
      assert auths[j] == auths[..i][j];
      assert auths[j] in Filter(Covers(cost), auths[..i]);
      var m' :| 0 <= m' < m && cover[..m][m'] == auths[j];
      assert cover[m'] == auths[j];
    }
  }

  /** With the default authorities a cost of 3000 needs the supervisor and
      anything above 100000 still lands on the director. */
  lemma DefaultAuthorityExamples(cost: real)
    ensures GetRequiredAuthority(DefaultAuthorities, 3000.0).role == "supervisor"
    ensures cost > 100000.0 ==> GetRequiredAuthority(DefaultAuthorities, cost).role == "director"
  {
    var c := Covering(DefaultAuthorities, 3000.0);
    assert DefaultAuthorities[0] !in c;
    assert DefaultAuthorities[1] in c;
  }

  // ---- decision ----

  /** `overall_status` of `run_approval_checks_with_ai`: a check result
      without a `compliant` key counts as passed, so the basic checks are
      ignored and the authority check always passes; what remains is the
      budget and the policy validation. */
  function OverallPassed(p: Policies, cost: real, priority: string): (b: bool)
    ensures b <==> cost <= 75000.0 && cost <= p.thresholds.autoApprove && cost <= p.thresholds.managerApproval
                   && cost <= p.thresholds.directorApproval && cost <= p.thresholds.boardApproval
                   && priority in p.priorityRules
  {
    CheckBudgetCompliance(cost).compliant && ValidateApprovalPolicies(p, cost, priority).compliant
  }

  /** Under the default policies the combined checks pass only within the
      auto-approval threshold and for a known priority. */
  lemma DefaultOverallPassed(cost: real, priority: string)
    ensures OverallPassed(DefaultPolicies, cost, priority) <==>
              cost <= 1000.0 && priority in {"URGENT", "HIGH", "MEDIUM", "LOW"}
  {
  }

  /** The auto-approval limit for a priority, defaulting to the threshold. */
  function AutoApproveLimit(p: Policies, priority: string): (l: real)
    ensures priority in p.priorityRules && p.priorityRules[priority].Some? ==> l == p.priorityRules[priority].value
    ensures !(priority in p.priorityRules && p.priorityRules[priority].Some?) ==> l == p.thresholds.autoApprove
  {
    if priority in p.priorityRules && p.priorityRules[priority].Some? then p.priorityRules[priority].value
    else p.thresholds.autoApprove
  }

  /** The default limits: 2000 for URGENT, 1500 for HIGH, 1000 for MEDIUM,
      500 for LOW and the 1000 threshold for any other priority. */
  lemma DefaultAutoApproveLimits(priority: string)
    ensures AutoApproveLimit(DefaultPolicies, "URGENT") == 2000.0
    ensures AutoApproveLimit(DefaultPolicies, "HIGH") == 1500.0
    ensures AutoApproveLimit(DefaultPolicies, "MEDIUM") == 1000.0
    ensures AutoApproveLimit(DefaultPolicies, "LOW") == 500.0
    ensures priority !in {"URGENT", "HIGH", "MEDIUM", "LOW"} ==> AutoApproveLimit(DefaultPolicies, priority) == 1000.0
  {
  }

  datatype Decision = AutoApproved | Escalated | RequiresReview

  datatype ApprovalStatus = Approved | EscalatedStatus | RequiresReviewStatus

  datatype DecisionResult = DecisionResult(decision: Decision, status: ApprovalStatus,
                                           requiresEscalation: bool)

  /** `_make_approval_decision` */
  function MakeApprovalDecision(p: Policies, cost: real, priority: string, risk: RiskLevel, checksPassed: bool)
    : (d: DecisionResult)
    ensures d.decision == AutoApproved <==> cost <= AutoApproveLimit(p, priority) && risk == Low && checksPassed
    ensures d.decision == Escalated <==>
              !(cost <= AutoApproveLimit(p, priority) && risk == Low && checksPassed)
              && (risk == High || risk == Critical || cost > p.thresholds.directorApproval)
    ensures d.status == (match d.decision
                         case AutoApproved => Approved
                         case Escalated => EscalatedStatus
                         case RequiresReview => RequiresReviewStatus)
    ensures d.requiresEscalation <==> d.decision == Escalated
  {
    if cost <= AutoApproveLimit(p, priority) && risk == Low && checksPassed then
      DecisionResult(AutoApproved, Approved, false)
    else if risk == High || risk == Critical || cost > p.thresholds.directorApproval then
      DecisionResult(Escalated, EscalatedStatus, true)
    else DecisionResult(RequiresReview, RequiresReviewStatus, false)
  }

  /** The decision part of `review_replenishment_plan`: risk, combined
      checks, then the decision. */
  function ReviewDecision(p: Policies, cost: real, priority: string, description: string): (d: DecisionResult)
    ensures d == MakeApprovalDecision(p, cost, priority, AnalyzeApprovalRisk(cost, priority, description).riskLevel,
                                      OverallPassed(p, cost, priority))
    ensures d.decision == AutoApproved <==>
              cost <= AutoApproveLimit(p, priority) && cost <= p.thresholds.autoApprove && cost <= 75000.0
              && cost <= p.thresholds.managerApproval && cost <= p.thresholds.directorApproval
              && cost <= p.thresholds.boardApproval && priority in p.priorityRules
              && AnalyzeApprovalRisk(cost, priority, description).riskLevel == Low
    ensures cost > p.thresholds.directorApproval ==> d.decision == Escalated
  {
    MakeApprovalDecision(p, cost, priority, AnalyzeApprovalRisk(cost, priority, description).riskLevel,
                         OverallPassed(p, cost, priority))
  }

  /** Under the default policies nothing above 1000 is auto-approved, even
      for URGENT requests whose own limit is 2000, and anything above the
      director threshold of 25000 is escalated. */
  lemma DefaultReviewBounds(cost: real, priority: string, description: string)
    ensures var d := ReviewDecision(DefaultPolicies, cost, priority, description);
            (d.decision == AutoApproved ==> cost <= 1000.0)
            && (cost > 25000.0 ==> d.decision == Escalated)
  {
    var r := AnalyzeApprovalRisk(cost, priority, description);
    DefaultOverallPassed(cost, priority);
    if cost > 25000.0 {
      assert CostRisk(cost).1 >= 15;
    }
  }

  // ---- requirements ----

  /** `_estimate_processing_time`, in hours. */
  function EstimateProcessingTime(cost: real, priority: string): (h: int)
    ensures h >= 1
    ensures priority == "URGENT" ==> h <= 13
    ensures priority == "LOW" ==> h >= 26
  {
    var base := if cost > 50000.0 then 26 else if cost > 10000.0 then 10 else 2;
    if priority == "URGENT" then (if base / 2 >= 1 then base / 2 else 1)
    else if priority == "LOW" then base + 24
    else base
  }

  /** More cost never means less processing time. */
  lemma ProcessingTimeMonotone(a: real, b: real, priority: string)
    requires a <= b
    ensures EstimateProcessingTime(a, priority) <= EstimateProcessingTime(b, priority)
  {
  }

  /** `_get_required_documents` */
  function GetRequiredDocuments(cost: real, requestType: string): (docs: seq<string>)
    ensures |docs| >= 1 && docs[0] == "Request justification"
    ensures ("Vendor quotes" in docs) <==> cost > 10000.0
    ensures ("Risk assessment" in docs) <==> cost > 50000.0
    ensures ("ROI analysis" in docs) <==> requestType == "capital_expenditure"
  {
    ["Request justification"]
    + (if cost > 10000.0 then ["Budget approval", "Vendor quotes"] else [])
    + (if cost > 50000.0 then ["Executive approval", "Risk assessment"] else [])
    + (if requestType == "capital_expenditure" then ["Capital approval form", "ROI analysis"] else [])
  }

  /** A costlier request needs every document a cheaper one needs. */
  lemma DocumentsGrowWithCost(a: real, b: real, requestType: string)
    requires a <= b
    ensures forall d :: d in GetRequiredDocuments(a, requestType) ==> d in GetRequiredDocuments(b, requestType)
  {
  }
}

=== FILE: approval_store.dfy ===
/** The approval workflow store (Agents/approval_data_provider.py): threshold
    lookup, request creation with auto-approval, the PENDING -> APPROVED /
    REJECTED decision with approver-authority checks, compliance rules,
    statistics and search. The store is a value; every operation that
    changes it returns the new store beside its result. Request ids (a uuid
    prefix in the source) are supplied by the caller; timestamps are left
    out. */
module ApprovalStore {
  import opened Wrappers
  import opened Text
  import opened Seqs
  import ApproverData

  type ThresholdRow = ApproverData.ThresholdRow

  datatype Status = Pending | Approved | Rejected

  function StatusName(s: Status): string {
    match s
    case Pending => "PENDING"
    case Approved => "APPROVED"
    case Rejected => "REJECTED"
  }

  datatype Comment = Comment(author: string, text: string)

  datatype ApprovalRequest = ApprovalRequest(
    requestId: string,
    requester: string,
    cost: real,
    description: string,
    requestType: string,
    thresholdCategory: string,
    approvalRequired: bool,
    autoApprove: bool,
    requiresManager: bool,
    requiresDirector: bool,
    status: Status,
    approver: Option<string>,
    comments: seq<Comment>)

  /** `approval_requests` holds every created request, decided ones
      included; `approval_history` receives a copy of each request at the
      moment a person decides it. */
  datatype Store = Store(
    table: seq<ThresholdRow>,
    requests: seq<ApprovalRequest>,
    history: seq<ApprovalRequest>)

  function Init(table: seq<ThresholdRow>): Store {
    Store(table, [], [])
  }

  /** The dictionary `get_approval_threshold` returns. `exceeded` marks the
      variant that carries an `error` key. */
  datatype ThresholdInfo = ThresholdInfo(
    category: string,
    maxCost: Option<real>,
    autoApprove: bool,
    requiresManager: bool,
    requiresDirector: bool,
    costAmount: real,
    approvalRequired: bool,
    exceeded: bool)

  function InfoOf(row: ThresholdRow, cost: real): ThresholdInfo {
    ThresholdInfo(row.category, Some(row.maxCost), row.autoApprove, row.requiresManager,
                  row.requiresDirector, cost, !row.autoApprove, false)
  }

  const ExceededInfoCategory := "high_value"

  /** `get_approval_threshold`: the first row in table order that admits the
      cost, or the "high_value" error result when none does. */
  function GetApprovalThreshold(table: seq<ThresholdRow>, cost: real): (t: ThresholdInfo)
    ensures t.costAmount == cost
    ensures t.exceeded <==> ApproverData.ExceedsAll(table, cost)
    ensures t.exceeded ==>
              t.category == ExceededInfoCategory && t.approvalRequired && t.requiresDirector
              && !t.autoApprove && !t.requiresManager && t.maxCost.None?
    ensures forall i :: ApproverData.FirstAdmitting(table, cost, i) ==> t == InfoOf(table[i], cost)
    ensures !t.exceeded ==> t.approvalRequired == !t.autoApprove
  {
    match ApproverData.FirstFit(table, cost)
    case Some(i) => InfoOf(table[i], cost)
    case None => ThresholdInfo(ExceededInfoCategory, None, false, false, true, cost, true, true)
  }

  /** The keys `create_approval_request` reads; an absent key is `None`. */
  datatype RequestDetails = RequestDetails(
    cost: Option<real>,
    description: Option<string>,
    requestType: Option<string>)

  datatype ApprovalError =
    | MissingField(field: string)
    | ExceedsThresholds(info: ThresholdInfo)
    | NotFound(requestId: string)
    | NotPending(requestId: string, current: Status)
    | InvalidDecision
    | DirectorRequired
    | ManagerOrDirectorRequired

  datatype Created = Created(
    requestId: string,
    status: Status,
    approvalRequired: bool,
    thresholdCategory: string,
    autoApproved: bool)

  const SystemAuto := "SYSTEM_AUTO"
  const SystemAuthor := "SYSTEM"

  /** The stored request for an admitted cost, auto-approved when the
      threshold allows it. */
  function NewRequest(id: string, requester: string, cost: real, description: string,
                      requestType: string, info: ThresholdInfo): ApprovalRequest
  {
    var pending := ApprovalRequest(id, requester, cost, description, requestType, info.category,
                                   info.approvalRequired, info.autoApprove, info.requiresManager,
                                   info.requiresDirector, Pending, None, []);
    if info.autoApprove then
      pending.(status := Approved, approver := Some(SystemAuto),
               comments := [Comment(SystemAuthor, "Auto-approved: cost is within " + info.category + " threshold")])
    else pending
  }

  /** `create_approval_request`. */
  function CreateApprovalRequest(st: Store, details: RequestDetails, requester: string, freshId: string)
    : (out: (Result<Created, ApprovalError>, Store))
    ensures details.cost.None? ==> out == (Failure(MissingField("cost")), st)
    ensures details.cost.Some? && details.description.None? ==>
              out == (Failure(MissingField("description")), st)
    ensures details.cost.Some? && details.description.Some? && details.requestType.None? ==>
              out == (Failure(MissingField("request_type")), st)
    ensures out.0.Failure? ==> out.1 == st
    ensures details.cost.Some? && details.description.Some? && details.requestType.Some?
            && ApproverData.ExceedsAll(st.table, details.cost.value) ==>
              out == (Failure(ExceedsThresholds(GetApprovalThreshold(st.table, details.cost.value))), st)
    ensures (details.cost.Some? && details.description.Some? && details.requestType.Some?
             && !ApproverData.ExceedsAll(st.table, details.cost.value)) ==> out.0.Success?
    ensures out.0.Success? ==>
              details.cost.Some? && details.description.Some? && details.requestType.Some?
              && !ApproverData.ExceedsAll(st.table, details.cost.value)
              && out.1.table == st.table && out.1.history == st.history
              && |out.1.requests| == |st.requests| + 1
              && out.1.requests[..|st.requests|] == st.requests
    ensures out.0.Success? ==>
              var r := out.1.requests[|st.requests|];
              r.requestId == freshId && r.requester == requester
              && r.cost == details.cost.value && out.0.value.requestId == freshId
              && out.0.value.status == r.status
              && (r.autoApprove ==>
                    r.status == Approved && r.approver == Some(SystemAuto)
                    && |r.comments| == 1 && r.comments[0].author == SystemAuthor)
              && (!r.autoApprove ==> r.status == Pending && r.approver.None? && r.comments == [])
    ensures out.0.Success? ==>
              var r := out.1.requests[|st.requests|];
              var t := GetApprovalThreshold(st.table, r.cost);
              r.description == details.description.value && r.requestType == details.requestType.value
              && r.thresholdCategory == t.category && r.approvalRequired == t.approvalRequired
              && r.autoApprove == t.autoApprove && r.requiresManager == t.requiresManager
              && r.requiresDirector == t.requiresDirector
              && out.0.value == Created(freshId, r.status, r.approvalRequired, r.thresholdCategory, r.autoApprove)
  {
    if details.cost.None? then (Failure(MissingField("cost")), st)
    else if details.description.None? then (Failure(MissingField("description")), st)
    else if details.requestType.None? then (Failure(MissingField("request_type")), st)
    else
      var cost := details.cost.value;
      var info := GetApprovalThreshold(st.table, cost);
      if info.exceeded then (Failure(ExceedsThresholds(info)), st)
      else
        var req := NewRequest(freshId, requester, cost, details.description.value,
                              details.requestType.value, info);
        var st' := st.(requests := st.requests + [req]);
        assert st'.requests[..|st.requests|] == st.requests;
        (Success(Created(req.requestId, req.status, req.approvalRequired, req.thresholdCategory,
                         req.autoApprove)), st')
  }

  /** Row `i` is the first stored request with this id. */
  ghost predicate FirstWithId(reqs: seq<ApprovalRequest>, id: string, i: int) {
    0 <= i < |reqs| && reqs[i].requestId == id
    && forall j :: 0 <= j < i ==> reqs[j].requestId != id
  }

  ghost predicate NoneWithId(reqs: seq<ApprovalRequest>, id: string) {
    forall j :: 0 <= j < |reqs| ==> reqs[j].requestId != id
  }

  function FindRequest(reqs: seq<ApprovalRequest>, id: string): (r: Option<nat>)
    ensures r.Some? ==> FirstWithId(reqs, id, r.value)
    ensures r.None? <==> NoneWithId(reqs, id)
  {
    FirstIndex((q: ApprovalRequest) => q.requestId == id, reqs)
  }

  predicate ValidDecision(decision: string) {
    decision == "APPROVED" || decision == "REJECTED"
  }

  predicate HasDirectorAuthority(approver: string) {
    Contains(Lower(approver), "director")
  }

  predicate HasManagerAuthority(approver: string) {
    Contains(Lower(approver), "manager") || Contains(Lower(approver), "director")
  }

  /** The approver's name carries the authority the request asks for. */
  predicate Authorized(req: ApprovalRequest, approver: string) {
    (req.requiresDirector ==> HasDirectorAuthority(approver))
    && (req.requiresManager ==> HasManagerAuthority(approver))
  }

  datatype Processed = Processed(
    requestId: string,
    decision: string,
    approver: string,
    cost: real,
    description: string)

  /** The request after a person's decision. */
  function Decide(req: ApprovalRequest, decision: string, approver: string, comments: string)
    : ApprovalRequest
    requires ValidDecision(decision)
  {
    var note := if comments != "" then comments else "Request " + Lower(decision);
    req.(status := if decision == "APPROVED" then Approved else Rejected,
         approver := Some(approver),
         comments := req.comments + [Comment(approver, note)])
  }

  /** `process_approval`: the first request with the id, checked in the
      source's order (unknown, not pending, bad decision, director
      authority, manager-or-director authority), then decided in place and
      copied to the history. */
  function ProcessApproval(st: Store, id: string, decision: string, approver: string, comments: string)
    : (out: (Result<Processed, ApprovalError>, Store))
    ensures NoneWithId(st.requests, id) ==> out == (Failure(NotFound(id)), st)
    ensures forall i :: FirstWithId(st.requests, id, i) ==>
              var req := st.requests[i];
              (req.status != Pending ==> out == (Failure(NotPending(id, req.status)), st))
              && (req.status == Pending && !ValidDecision(decision) ==>
                    out == (Failure(InvalidDecision), st))
              && (req.status == Pending && ValidDecision(decision)
                  && req.requiresDirector && !HasDirectorAuthority(approver) ==>
                    out == (Failure(DirectorRequired), st))
              && (req.status == Pending && ValidDecision(decision)
                  && !(req.requiresDirector && !HasDirectorAuthority(approver))
                  && req.requiresManager && !HasManagerAuthority(approver) ==>
                    out == (Failure(ManagerOrDirectorRequired), st))
              && (req.status == Pending && ValidDecision(decision) && Authorized(req, approver) ==>
                    out.0.Success?
                    && out.1 == Store(st.table, st.requests[i := Decide(req, decision, approver, comments)],
                                      st.history + [Decide(req, decision, approver, comments)]))
    ensures out.0.Failure? ==> out.1 == st
  {
    match FindRequest(st.requests, id)
    case None => (Failure(NotFound(id)), st)
    case Some(i) =>
      var req := st.requests[i];
      if req.status != Pending then (Failure(NotPending(id, req.status)), st)
      else if !ValidDecision(decision) then (Failure(InvalidDecision), st)
      else if req.requiresDirector && !HasDirectorAuthority(approver) then (Failure(DirectorRequired), st)
      else if req.requiresManager && !HasManagerAuthority(approver) then (Failure(ManagerOrDirectorRequired), st)
      else
        var decided := Decide(req, decision, approver, comments);
        (Success(Processed(id, decision, approver, req.cost, req.description)),
         Store(st.table, st.requests[i := decided], st.history + [decided]))
  }

  /** A decision succeeds exactly when the first request with the id is
      pending, the decision is valid and the approver has the authority. */
  lemma ProcessSucceedsIff(st: Store, id: string, decision: string, approver: string, comments: string)
    ensures ProcessApproval(st, id, decision, approver, comments).0.Success? <==>
              exists i :: FirstWithId(st.requests, id, i) && st.requests[i].status == Pending
                          && ValidDecision(decision) && Authorized(st.requests[i], approver)
  {
    var r := FindRequest(st.requests, id);
    if r.Some? {
      var i := r.value;
      assert forall k :: FirstWithId(st.requests, id, k) ==> k == i;
    }
  }

  /** Deciding keeps every id in place, so the same row is found again. */
  lemma {:induction false} FindAfterUpdate(reqs: seq<ApprovalRequest>, id: string, i: nat, x: ApprovalRequest)
    requires FirstWithId(reqs, id, i)
    requires x.requestId == id
    ensures FirstWithId(reqs[i := x], id, i)
  {
  }

  /** Once a request is decided, a second decision on the same id fails with
      "not pending", whatever the decision and approver. */
  lemma SecondDecisionFails(st: Store, id: string, d1: string, a1: string, c1: string,
                            d2: string, a2: string, c2: string)
    requires ProcessApproval(st, id, d1, a1, c1).0.Success?
    ensures var st1 := ProcessApproval(st, id, d1, a1, c1).1;
            ProcessApproval(st1, id, d2, a2, c2).0.Failure?
            && ProcessApproval(st1, id, d2, a2, c2).0.error.NotPending?
  {
    ProcessSucceedsIff(st, id, d1, a1, c1);
    var i :| FirstWithId(st.requests, id, i) && st.requests[i].status == Pending
             && ValidDecision(d1) && Authorized(st.requests[i], a1);
    var decided := Decide(st.requests[i], d1, a1, c1);
    var st1 := ProcessApproval(st, id, d1, a1, c1).1;
    assert st1.requests == st.requests[i := decided];
    FindAfterUpdate(st.requests, id, i, decided);
    assert FirstWithId(st1.requests, id, i);
  }

  /** Shape every stored request keeps: pending exactly when undecided and
      without comments; decided requests carry one approver and exactly one
      comment; auto-approval is always by the system. */
  ghost predicate WellFormed(r: ApprovalRequest) {
    (r.status == Pending <==> r.approver.None?)
    && (r.status == Pending ==> r.comments == [])
    && (r.status != Pending ==> |r.comments| == 1)
    && (r.autoApprove ==> r.status == Approved && r.approver == Some(SystemAuto))
  }

  ghost predicate Inv(st: Store) {
    (forall k :: 0 <= k < |st.requests| ==> WellFormed(st.requests[k]))
    && (forall k :: 0 <= k < |st.history| ==> WellFormed(st.history[k]) && st.history[k].status != Pending)
  }

  lemma CreatePreservesInv(st: Store, details: RequestDetails, requester: string, freshId: string)
    requires Inv(st)
    ensures Inv(CreateApprovalRequest(st, details, requester, freshId).1)
  {
  }

  lemma ProcessPreservesInv(st: Store, id: string, decision: string, approver: string, comments: string)
    requires Inv(st)
    ensures Inv(ProcessApproval(st, id, decision, approver, comments).1)
  {
    var out := ProcessApproval(st, id, decision, approver, comments);
    if out.0.Success? {
      ProcessSucceedsIff(st, id, decision, approver, comments);
      var i :| FirstWithId(st.requests, id, i) && st.requests[i].status == Pending
               && ValidDecision(decision) && Authorized(st.requests[i], approver);
      var decided := Decide(st.requests[i], decision, approver, comments);
      assert !st.requests[i].autoApprove;
      assert WellFormed(decided);
      assert out.1.requests == st.requests[i := decided];
      assert out.1.history == st.history + [decided];
    }
  }

  /** `get_approval_request`: the first match in the live list, then in the
      history. */
  function GetApprovalRequest(st: Store, id: string): (r: Result<ApprovalRequest, ApprovalError>)
    ensures r.Success? ==> r.value in st.requests + st.history && r.value.requestId == id
    ensures r.Failure? <==> NoneWithId(st.requests + st.history, id)
    ensures r.Failure? ==> r.error == NotFound(id)
    ensures forall i :: FirstWithId(st.requests, id, i) ==> r == Success(st.requests[i])
  {
    var all := st.requests + st.history;
    assert forall i :: FirstWithId(st.requests, id, i) ==> FirstWithId(all, id, i);
    match FindRequest(all, id)
    case None => Failure(NotFound(id))
    case Some(i) => Success(all[i])
  }

  /** After a successful decision, looking the id up gives the decided
      request. */
  lemma GetAfterDecision(st: Store, id: string, decision: string, approver: string, comments: string)
    requires ProcessApproval(st, id, decision, approver, comments).0.Success?
    ensures var st1 := ProcessApproval(st, id, decision, approver, comments).1;
            var r := GetApprovalRequest(st1, id);
            r.Success? && r.value.approver == Some(approver)
            && StatusName(r.value.status) == decision
  {
    ProcessSucceedsIff(st, id, decision, approver, comments);
    var i :| FirstWithId(st.requests, id, i) && st.requests[i].status == Pending
             && ValidDecision(decision) && Authorized(st.requests[i], approver);
    var decided := Decide(st.requests[i], decision, approver, comments);
    FindAfterUpdate(st.requests, id, i, decided);
  }

  /** The extra filter `get_pending_approvals` applies for an approver type. */
  predicate MatchesApproverType(approverType: Option<string>, r: ApprovalRequest) {
    if approverType.None? || approverType.value == "" then true
    else if Lower(approverType.value) == "manager" then r.requiresManager && !r.requiresDirector
    else if Lower(approverType.value) == "director" then r.requiresDirector
    else true
  }

  /** `get_pending_approvals`: live requests still pending, optionally
      narrowed to those a manager (and not a director) or a director must
      sign. */
  function GetPendingApprovals(st: Store, approverType: Option<string>): (rs: seq<ApprovalRequest>)
    ensures rs == Filter(PendingFor(approverType), st.requests)
    ensures forall r :: r in rs <==>
              r in st.requests && r.status == Pending && MatchesApproverType(approverType, r)
  {
    var isPending := (r: ApprovalRequest) => r.status == Pending;
    var pending := Filter(isPending, st.requests);
    if approverType.None? || approverType.value == "" || (Lower(approverType.value) != "manager"
                                                         && Lower(approverType.value) != "director") then
      FilterExt(isPending, PendingFor(approverType), st.requests);
      pending
    else
      var narrow := if Lower(approverType.value) == "manager"
                    then (r: ApprovalRequest) => r.requiresManager && !r.requiresDirector
                    else (r: ApprovalRequest) => r.requiresDirector;
      FilterFilter(isPending, narrow, PendingFor(approverType), st.requests);
      Filter(narrow, pending)
  }

  /** The whole test `get_pending_approvals` applies to a live request. */
  function PendingFor(approverType: Option<string>): ApprovalRequest -> bool {
    (r: ApprovalRequest) => r.status == Pending && MatchesApproverType(approverType, r)
  }

  datatype Violation = NegativeCost | InvalidRequestType(requestType: string) | DescriptionTooShort
  datatype Warning = HighCostItem(cost: real)

  datatype Compliance = Compliance(
    compliant: bool,
    violations: seq<Violation>,
    warnings: seq<Warning>,
    checksPerformed: seq<string>)

  const ValidRequestTypes: seq<string> := ["inventory_request", "fleet_dispatch", "maintenance", "procurement"]

  /** `check_compliance`: cost, request type and description rules, each
      applied only when the key is present. */
  function CheckCompliance(details: RequestDetails): (c: Compliance)
    ensures c.compliant <==> c.violations == []
    ensures c.compliant <==>
              !(details.cost.Some? && details.cost.value < 0.0)
              && !(details.requestType.Some? && details.requestType.value !in ValidRequestTypes)
              && !(details.description.Some? && |Strip(details.description.value)| < 10)
    ensures c.warnings == if details.cost.Some? && details.cost.value > 10000.0
                          then [HighCostItem(details.cost.value)] else []
    ensures |c.checksPerformed| ==
              (if details.cost.Some? then 1 else 0) + (if details.requestType.Some? then 1 else 0)
              + (if details.description.Some? then 1 else 0)
  {
    var costV: seq<Violation> :=
      if details.cost.Some? && details.cost.value < 0.0 then [NegativeCost] else [];
    var costW: seq<Warning> :=
      if details.cost.Some? && details.cost.value > 10000.0 then [HighCostItem(details.cost.value)] else [];
    var costC: seq<string> := if details.cost.Some? then ["cost_threshold_check"] else [];
    var typeV: seq<Violation> :=
      if details.requestType.Some? && details.requestType.value !in ValidRequestTypes
      then [InvalidRequestType(details.requestType.value)] else [];
    var typeC: seq<string> := if details.requestType.Some? then ["request_type_validation"] else [];
    var descV: seq<Violation> :=
      if details.description.Some? && |Strip(details.description.value)| < 10
      then [DescriptionTooShort] else [];
    var descC: seq<string> := if details.description.Some? then ["description_validation"] else [];
    var violations := costV + typeV + descV;
    Compliance(violations == [], violations, costW, costC + typeC + descC)
  }

  datatype Statistics = Statistics(
    totalRequests: nat,
    pendingRequests: nat,
    approvedRequests: nat,
    rejectedRequests: nat,
    autoApprovedRequests: nat,
    approvalRate: real,
    thresholdDistribution: seq<(string, nat)>)

  function InCategory(category: string): ApprovalRequest -> bool {
    (r: ApprovalRequest) => r.thresholdCategory == category
  }

  function HasStatus(status: Status): ApprovalRequest -> bool {
    (r: ApprovalRequest) => r.status == status
  }

  function ByAutoSystem(): ApprovalRequest -> bool {
    (r: ApprovalRequest) => r.approver == Some(SystemAuto)
  }

  /** One count per table row, in table order: how many records carry that
      row's threshold category. */
  function Distribution(table: seq<ThresholdRow>, all: seq<ApprovalRequest>): (d: seq<(string, nat)>)
    ensures |d| == |table|
    ensures forall k :: 0 <= k < |d| ==>
              d[k].0 == table[k].category && d[k].1 == |Filter(InCategory(table[k].category), all)|
  {
    forall k | 0 <= k < |table|
      ensures Count(InCategory(table[k].category), all) == |Filter(InCategory(table[k].category), all)|
    {
      CountIsFilterLength(InCategory(table[k].category), all);
    }
    seq(|table|, k requires 0 <= k < |table| =>
      (table[k].category, Count(InCategory(table[k].category), all)))
  }

  /** The counts `get_approval_statistics` computes over a list of stored
      request records. */
  function StatisticsOver(table: seq<ThresholdRow>, all: seq<ApprovalRequest>): (s: Statistics)
    ensures s.totalRequests == |all|
    ensures s.pendingRequests == |Filter(HasStatus(Pending), all)|
    ensures s.approvedRequests == |Filter(HasStatus(Approved), all)|
    ensures s.rejectedRequests == |Filter(HasStatus(Rejected), all)|
    ensures s.autoApprovedRequests == |Filter(ByAutoSystem(), all)|
    ensures s.pendingRequests + s.approvedRequests + s.rejectedRequests == |all|
    ensures |all| == 0 ==> s.approvalRate == 0.0 && s.thresholdDistribution == []
    ensures |all| > 0 ==> s.approvalRate == (s.approvedRequests as real / |all| as real) * 100.0
                          && s.thresholdDistribution == Distribution(table, all)
  {
    if |all| == 0 then Statistics(0, 0, 0, 0, 0, 0.0, [])
    else
      var pending := Count(HasStatus(Pending), all);
      var approved := Count(HasStatus(Approved), all);
      var rejected := Count(HasStatus(Rejected), all);
      StatusCountsPartition(all);
      CountIsFilterLength(HasStatus(Pending), all);
      CountIsFilterLength(HasStatus(Approved), all);
      CountIsFilterLength(HasStatus(Rejected), all);
      CountIsFilterLength(ByAutoSystem(), all);
      Statistics(|all|, pending, approved, rejected, Count(ByAutoSystem(), all),
                 (approved as real / |all| as real) * 100.0,
                 Distribution(table, all))
  }

  lemma {:induction false} StatusCountsPartition(all: seq<ApprovalRequest>)
    ensures Count(HasStatus(Pending), all) + Count(HasStatus(Approved), all)
          + Count(HasStatus(Rejected), all) == |all|
    decreases |all|
  {
    if |all| > 0 {
      StatusCountsPartition(all[1..]);
    }
  }

  /** `get_approval_statistics` as written: it counts the live list and the
      history together, so every request a person decided is counted twice. */
  function GetApprovalStatisticsAsWritten(st: Store): (s: Statistics)
    ensures s.totalRequests == |st.requests| + |st.history|
  {
    StatisticsOver(st.table, st.requests + st.history)
  }

  /** Statistics counting each request once, from the live list, which
      holds every request in its current state. */
  function GetApprovalStatistics(st: Store): (s: Statistics)
    ensures s.totalRequests == |st.requests|
  {
    StatisticsOver(st.table, st.requests)
  }

  /** With each request counted once, a decision keeps the total and
      leaves one request fewer pending. */
  lemma DecisionKeepsTotal(st: Store, id: string, decision: string, approver: string, comments: string)
    requires ProcessApproval(st, id, decision, approver, comments).0.Success?
    ensures var st1 := ProcessApproval(st, id, decision, approver, comments).1;
            GetApprovalStatistics(st1).totalRequests == GetApprovalStatistics(st).totalRequests
            && GetApprovalStatistics(st1).pendingRequests + 1 == GetApprovalStatistics(st).pendingRequests
  {
    ProcessSucceedsIff(st, id, decision, approver, comments);
    var i :| FirstWithId(st.requests, id, i) && st.requests[i].status == Pending
             && ValidDecision(decision) && Authorized(st.requests[i], approver);
    var decided := Decide(st.requests[i], decision, approver, comments);
    CountUpdate(HasStatus(Pending), st.requests, i, decided);
  }

  /** The double count, on a concrete store: one medium-value request,
      approved by a manager, is reported as two requests. */
  lemma StatisticsDoubleCount()
    ensures var st0 := Store(ApproverData.ApprovalThresholds, [], []);
            var c := CreateApprovalRequest(st0, RequestDetails(Some(3000.0), Some("Hydraulic pump restock"),
                                                                Some("procurement")), "planner", "a1b2c3d4");
            var p := ProcessApproval(c.1, "a1b2c3d4", "APPROVED", "line manager", "");
            c.0.Success? && p.0.Success? && |p.1.requests| == 1
            && GetApprovalStatisticsAsWritten(p.1).totalRequests == 2
            && GetApprovalStatistics(p.1).totalRequests == 1
  {
    var st0 := Store(ApproverData.ApprovalThresholds, [], []);
    assert ApproverData.FirstAdmitting(ApproverData.ApprovalThresholds, 3000.0, 1);
    var c := CreateApprovalRequest(st0, RequestDetails(Some(3000.0), Some("Hydraulic pump restock"),
                                                       Some("procurement")), "planner", "a1b2c3d4");
    assert c.0.Success?;
    var req := c.1.requests[0];
    assert req.requiresManager && !req.requiresDirector && req.status == Pending;
    assert FirstWithId(c.1.requests, "a1b2c3d4", 0);
    assert "manager" == Lower("line manager")[5..12];
    assert StartsWith(Lower("line manager")[5..], "manager");
    ContainsAt(Lower("line manager"), "manager");
    assert Authorized(req, "line manager");
  }

  /** Search criteria; an absent key is `None`. */
  datatype Criteria = Criteria(
    status: Option<string>,
    requester: Option<string>,
    minCost: Option<real>,
    maxCost: Option<real>,
    thresholdCategory: Option<string>)

  predicate StatusOk(c: Criteria, r: ApprovalRequest) {
    c.status.Some? ==> StatusName(r.status) == c.status.value
  }

  predicate RequesterOk(c: Criteria, r: ApprovalRequest) {
    c.requester.Some? ==> Contains(Lower(r.requester), Lower(c.requester.value))
  }

  predicate MinCostOk(c: Criteria, r: ApprovalRequest) {
    c.minCost.Some? ==> r.cost >= c.minCost.value
  }

  predicate MaxCostOk(c: Criteria, r: ApprovalRequest) {
    c.maxCost.Some? ==> r.cost <= c.maxCost.value
  }

  predicate CategoryOk(c: Criteria, r: ApprovalRequest) {
    c.thresholdCategory.Some? ==> r.thresholdCategory == c.thresholdCategory.value
  }

  predicate MatchesCriteria(c: Criteria, r: ApprovalRequest) {
    StatusOk(c, r) && RequesterOk(c, r) && MinCostOk(c, r) && MaxCostOk(c, r) && CategoryOk(c, r)
  }

  function ByStatus(c: Criteria): ApprovalRequest -> bool { (r: ApprovalRequest) => StatusOk(c, r) }
  function ByRequester(c: Criteria): ApprovalRequest -> bool { (r: ApprovalRequest) => RequesterOk(c, r) }
  function ByMinCost(c: Criteria): ApprovalRequest -> bool { (r: ApprovalRequest) => MinCostOk(c, r) }
  function ByMaxCost(c: Criteria): ApprovalRequest -> bool { (r: ApprovalRequest) => MaxCostOk(c, r) }
  function ByCategory(c: Criteria): ApprovalRequest -> bool { (r: ApprovalRequest) => CategoryOk(c, r) }
  function Matching(c: Criteria): ApprovalRequest -> bool { (r: ApprovalRequest) => MatchesCriteria(c, r) }

  /** `search_approvals`: the live list followed by the history, narrowed by
      each given criterion in turn. The result keeps list order and keeps a
      decided request twice, once from each list. */
  function SearchApprovals(st: Store, c: Criteria): (rs: seq<ApprovalRequest>)
    ensures rs == Filter(Matching(c), st.requests) + Filter(Matching(c), st.history)
    ensures forall r :: r in rs <==> r in st.requests + st.history && MatchesCriteria(c, r)
  {
    var all := st.requests + st.history;
    var s1 := NarrowIf(c.status.Some?, ByStatus(c), all);
    var s2 := NarrowIf(c.requester.Some?, ByRequester(c), s1);
    var s3 := NarrowIf(c.minCost.Some?, ByMinCost(c), s2);
    var s4 := NarrowIf(c.maxCost.Some?, ByMaxCost(c), s3);
    SearchIsOneFilter(c, all);
    FilterConcat(Matching(c), st.requests, st.history);
    NarrowIf(c.thresholdCategory.Some?, ByCategory(c), s4)
  }

  /** The five successive narrowings are one filter by all the criteria. */
  lemma SearchIsOneFilter(c: Criteria, all: seq<ApprovalRequest>)
    ensures Filter(ByCategory(c), Filter(ByMaxCost(c), Filter(ByMinCost(c),
              Filter(ByRequester(c), Filter(ByStatus(c), all))))) == Filter(Matching(c), all)
  {
    var h2 := (r: ApprovalRequest) => StatusOk(c, r) && RequesterOk(c, r);
    var h3 := (r: ApprovalRequest) => h2(r) && MinCostOk(c, r);
    var h4 := (r: ApprovalRequest) => h3(r) && MaxCostOk(c, r);
    FilterFilter(ByStatus(c), ByRequester(c), h2, all);
    FilterFilter(h2, ByMinCost(c), h3, all);
    FilterFilter(h3, ByMaxCost(c), h4, all);
    FilterFilter(h4, ByCategory(c), Matching(c), all);
  }

  /** One optional criterion: filter when it is given, else keep all (a
      criterion that is not given holds of every request). Either way the
      result is the filter by that criterion. */
  function NarrowIf(given: bool, f: ApprovalRequest -> bool, s: seq<ApprovalRequest>): (r: seq<ApprovalRequest>)
    requires !given ==> forall x :: f(x)
    ensures r == Filter(f, s)
  {
    if given then Filter(f, s)
    else
      FilterAll(f, s);
      s
  }
}

=== FILE: approver_agent.dfy ===
/** The approver agent's rules (Agents/ApproverAgent.py): the approval level
    from a priority-adjusted cost, the approver for a level, the five
    plan checks plus the language-model compliance check, the rule-based
    and model-assisted decisions, the review that records them, and the
    time, documentation and compliance lists. The recommendation text is
    an arbitrary input. */
module ApproverAgent {
  import opened Wrappers
  import opened Text
  import opened Seqs

  datatype ApprovalLevel = Auto | Manager | Director | Board

  function LevelRank(l: ApprovalLevel): nat {
    match l
    case Auto => 0
    case Manager => 1
    case Director => 2
    case Board => 3
  }

  const AutoApproveLimit := 500.0
  const ManagerApprovalLimit := 2000.0
  const DirectorApprovalLimit := 10000.0

  /** `auto_approve_multiplier` per priority; an unknown priority uses
      MEDIUM's. */
  function PriorityMultiplier(priority: string): (m: real)
    ensures m > 0.0
    ensures priority == "URGENT" ==> m == 2.0
    ensures priority == "HIGH" ==> m == 1.5
    ensures priority == "LOW" ==> m == 0.8
    ensures priority !in {"URGENT", "HIGH", "LOW"} ==> m == 1.0
  {
    if priority == "URGENT" then 2.0
    else if priority == "HIGH" then 1.5
    else if priority == "LOW" then 0.8
    else 1.0
  }

  /** `determine_approval_level` on the cost divided by the multiplier. */
  function DetermineApprovalLevel(cost: real, priority: string): (l: ApprovalLevel)
    ensures var e := cost / PriorityMultiplier(priority);
            (l == Auto <==> e <= AutoApproveLimit)
            && (l == Manager <==> AutoApproveLimit < e <= ManagerApprovalLimit)
            && (l == Director <==> ManagerApprovalLimit < e <= DirectorApprovalLimit)
            && (l == Board <==> DirectorApprovalLimit < e)
  {
    var e := cost / PriorityMultiplier(priority);
    if e <= AutoApproveLimit then Auto
    else if e <= ManagerApprovalLimit then Manager
    else if e <= DirectorApprovalLimit then Director
    else Board
  }

  /** The multiplier scales every limit: an URGENT request is automatic up
      to 1000, a HIGH one up to 750, a LOW one up to 400 and any other up
      to 500; the manager limits scale the same way. */
  lemma PriorityScalesLimits(cost: real, priority: string)
    ensures DetermineApprovalLevel(cost, priority) == Auto <==>
              cost <= AutoApproveLimit * PriorityMultiplier(priority)
    ensures LevelRank(DetermineApprovalLevel(cost, priority)) <= 1 <==>
              cost <= ManagerApprovalLimit * PriorityMultiplier(priority)
    ensures priority == "URGENT" ==> (DetermineApprovalLevel(cost, priority) == Auto <==> cost <= 1000.0)
    ensures priority == "HIGH" ==> (DetermineApprovalLevel(cost, priority) == Auto <==> cost <= 750.0)
    ensures priority == "LOW" ==> (DetermineApprovalLevel(cost, priority) == Auto <==> cost <= 400.0)
  {
    var m := PriorityMultiplier(priority);
    DivAbove(cost, m, AutoApproveLimit);
    DivAbove(cost, m, ManagerApprovalLimit);
  }

  /** Dividing by a positive number and comparing is comparing with the
      product. */
  lemma DivAbove(c: real, q: real, k: real)
    requires q > 0.0
    ensures c / q > k <==> c > k * q
  {
    var d := c / q;
    assert c == d * q;
    assert c - k * q == (d - k) * q;
    if d > k {
      assert (d - k) * q > 0.0;
    } else {
      assert (d - k) * q <= 0.0;
    }
  }

  /** For a fixed priority, a dearer request never needs a lower level. */
  lemma {:induction false} LevelMonotoneInCost(a: real, b: real, priority: string)
    requires a <= b
    ensures LevelRank(DetermineApprovalLevel(a, priority)) <= LevelRank(DetermineApprovalLevel(b, priority))
  {
    var m := PriorityMultiplier(priority);
    assert a / m <= b / m by {
      assert b / m - a / m == (b - a) / m;
    }
  }

  datatype Approver = Approver(id: string, name: string, role: string, available: bool)

  /** The agent's approver table, in insertion order. */
  const Approvers := [
    Approver("AUTO-SYSTEM", "Automated System", "system", true),
    Approver("MGR-001", "Production Manager Smith", "manager", true),
    Approver("DIR-001", "Operations Director Jones", "director", true)
  ]

  /** The first available approver with the role, in table order. */
  function FirstWithRole(approvers: seq<Approver>, role: string): (r: Option<Approver>)
    ensures r.Some? ==> r.value in approvers && r.value.role == role && r.value.available
    ensures r.Some? ==> exists i :: 0 <= i < |approvers| && approvers[i] == r.value
                          && forall j :: 0 <= j < i ==> !(approvers[j].role == role && approvers[j].available)
    ensures r.None? <==> forall a :: a in approvers ==> !(a.role == role && a.available)
  {
    match FirstIndex((a: Approver) => a.role == role && a.available, approvers)
    case None =>
      assert forall a :: a in approvers ==> exists j :: 0 <= j < |approvers| && approvers[j] == a;
      None
    case Some(i) => Some(approvers[i])
  }

  /** `get_approver_for_level`: the system for auto, the first available
      manager or director, and nobody for the board. */
  function GetApproverForLevel(approvers: seq<Approver>, level: ApprovalLevel): (r: Option<Approver>)
    ensures level == Auto ==> r == Some(Approver("AUTO-SYSTEM", "Automated System", "system", true))
    ensures level == Board ==> r.None?
    ensures level == Manager ==> r == FirstWithRole(approvers, "manager")
    ensures level == Director ==> r == FirstWithRole(approvers, "director")
  {
    match level
    case Auto => Some(Approver("AUTO-SYSTEM", "Automated System", "system", true))
    case Manager => FirstWithRole(approvers, "manager")
    case Director => FirstWithRole(approvers, "director")
    case Board => None
  }

  /** With the built-in table every level but the board has an approver. */
  lemma BuiltInApproversCoverAllButBoard(level: ApprovalLevel)
    ensures GetApproverForLevel(Approvers, level).Some? <==> level != Board
  {
    if level == Manager {
      assert Approvers[1].role == "manager" && Approvers[1].available;
    } else if level == Director {
      assert Approvers[2].role == "director" && Approvers[2].available;
    }
  }

  // ---- checks ----

  /** The fields of the original request the checks read. */
  datatype Request = Request(
    currentBinLevel: Option<int>,
    currentBinLevelAlt: Option<int>,
    quantityRequested: Option<real>,
    remainingQuantityRequired: Option<real>)

  /** The fleet plan: the empty dict (falsy), or a plan whose `scheduled`
      key may be missing. The standalone fleet check treats `None` as it
      treats the empty dict; the review below does not. */
  datatype FleetPlan = NoPlan | Plan(scheduled: Option<bool>)

  const MonthlyBudgetLimit := 50000.0

  function BudgetCheck(cost: real): bool { cost <= MonthlyBudgetLimit }

  function InventoryCheck(available: Option<bool>): bool { available.GetOr(false) }

  function FleetCheck(plan: FleetPlan): (passed: bool)
    ensures passed <==> plan.NoPlan? || plan.scheduled == Some(true)
  {
    match plan
    case NoPlan => true
    case Plan(s) => s.GetOr(false)
  }

  /** The bin level: `current_bin_level`, else `CurrentBinLevel`, else 100. */
  function BinLevel(r: Request): int {
    if r.currentBinLevel.Some? then r.currentBinLevel.value else r.currentBinLevelAlt.GetOr(100)
  }

  /** `check_priority_justification` */
  function PriorityCheck(r: Request, priority: string): (passed: bool) {
    !(priority == "URGENT" && BinLevel(r) > 10)
  }

  /** Only an URGENT request can fail the priority check: it fails when the
      first bin level given is above 10, and when none is given at all. */
  lemma PriorityCheckCases(r: Request, priority: string)
    ensures priority != "URGENT" ==> PriorityCheck(r, priority)
    ensures priority == "URGENT" && r.currentBinLevel.Some? ==>
              (PriorityCheck(r, priority) <==> r.currentBinLevel.value <= 10)
    ensures priority == "URGENT" && r.currentBinLevel.None? && r.currentBinLevelAlt.Some? ==>
              (PriorityCheck(r, priority) <==> r.currentBinLevelAlt.value <= 10)
    ensures priority == "URGENT" && r.currentBinLevel.None? && r.currentBinLevelAlt.None? ==>
              !PriorityCheck(r, priority)
  {
  }

  function Quantity(r: Request): real {
    if r.quantityRequested.Some? then r.quantityRequested.value else r.remainingQuantityRequired.GetOr(1.0)
  }

  /** Cost per unit, 0 when the quantity is not positive. */
  function CostPerUnit(r: Request, cost: real): real {
    var q := Quantity(r);
    if q > 0.0 then cost / q else 0.0
  }

  /** `check_business_rules`: at most 50 per unit. */
  function BusinessRulesCheck(r: Request, cost: real): (passed: bool)
    ensures Quantity(r) <= 0.0 ==> passed
    ensures Quantity(r) > 0.0 ==> (passed <==> cost <= 50.0 * Quantity(r))
  {
    var q := Quantity(r);
    if q > 0.0 then
      DivAbove(cost, q, 50.0);
      !(CostPerUnit(r, cost) > 50.0)
    else true
  }

  datatype CheckName =
    | BudgetCheckName | InventoryCheckName | FleetCheckName | PriorityCheckName | BusinessRulesCheckName
    | AiComplianceCheckName

  /** The outcome of each check; the model check is absent on the
      rule-based path. */
  datatype Checks = Checks(budget: bool, inventory: bool, fleet: bool, priorityOk: bool, businessRules: bool,
                           aiCompliance: Option<bool>)

  /** `names` followed by `n` when its check did not pass. */
  function AddIfFailed(names: seq<CheckName>, passed: bool, n: CheckName): (r: seq<CheckName>)
    ensures n in r <==> n in names || !passed
    ensures forall x :: x != n ==> (x in r <==> x in names)
  {
    if passed then names else names + [n]
  }

  /** The names of the failed checks, in the source's order. */
  function FailedChecks(c: Checks): (names: seq<CheckName>)
    ensures (BudgetCheckName in names <==> !c.budget) && (InventoryCheckName in names <==> !c.inventory)
    ensures (FleetCheckName in names <==> !c.fleet) && (PriorityCheckName in names <==> !c.priorityOk)
    ensures BusinessRulesCheckName in names <==> !c.businessRules
    ensures AiComplianceCheckName in names <==> c.aiCompliance == Some(false)
  {
    var n1 := AddIfFailed([], c.budget, BudgetCheckName);
    var n2 := AddIfFailed(n1, c.inventory, InventoryCheckName);
    var n3 := AddIfFailed(n2, c.fleet, FleetCheckName);
    var n4 := AddIfFailed(n3, c.priorityOk, PriorityCheckName);
    var n5 := AddIfFailed(n4, c.businessRules, BusinessRulesCheckName);
    AddIfFailed(n5, c.aiCompliance != Some(false), AiComplianceCheckName)
  }

  /** `all_passed`: no check failed. */
  function AllPassed(c: Checks): (b: bool)
    ensures b <==> c.budget && c.inventory && c.fleet && c.priorityOk && c.businessRules
                   && c.aiCompliance != Some(false)
  {
    FailedChecks(c) == []
  }

  /** `run_approval_checks` (the rule-based path). */
  function RunApprovalChecks(r: Request, inventoryAvailable: Option<bool>, fleet: FleetPlan, cost: real,
                             priority: string): (c: Checks)
  {
    Checks(BudgetCheck(cost), InventoryCheck(inventoryAvailable), FleetCheck(fleet), PriorityCheck(r, priority),
           BusinessRulesCheck(r, cost), None)
  }

  /** The language-model check passes when "APPROVE" occurs in the
      upper-cased recommendation, wherever it occurs. */
  predicate AiApproves(recommendation: string) {
    Contains(Upper(recommendation), "APPROVE")
  }

  /** The test is a bare substring search, so a recommendation to
      "DISAPPROVE" passes it. */
  lemma DisapprovePassesAiCheck()
    ensures AiApproves("DISAPPROVE")
  {
    var u := Upper("DISAPPROVE");
    assert u == "DISAPPROVE";
    assert StartsWith(u[3..], "APPROVE");
    ContainsAt(u, "APPROVE");
  }

  /** `run_approval_checks_with_ai`: the five checks and the model check. */
  function RunApprovalChecksWithAi(r: Request, inventoryAvailable: Option<bool>, fleet: FleetPlan, cost: real,
                                   priority: string, recommendation: string): (c: Checks)
  {
    RunApprovalChecks(r, inventoryAvailable, fleet, cost, priority).(aiCompliance := Some(AiApproves(recommendation)))
  }

  // ---- decisions ----

  datatype Decision = Decision(approved: bool, conditions: seq<string>)

  /** A failed budget or business-rules check. */
  predicate CriticalFailure(c: Checks) {
    !AllPassed(c) && (BudgetCheckName in FailedChecks(c) || BusinessRulesCheckName in FailedChecks(c))
  }

  /** `make_approval_decision` (rule-based): rejects on a critical failure,
      otherwise approves with a condition per failed inventory or fleet
      check. */
  function MakeApprovalDecision(c: Checks): (d: Decision)
    ensures !d.approved <==> CriticalFailure(c)
    ensures !d.approved ==> d.conditions == []
    ensures d.approved ==>
              (("Alternative inventory source must be confirmed" in d.conditions) <==> !c.inventory)
              && (("Delivery arrangement must be confirmed within 4 hours" in d.conditions) <==> !c.fleet)
  {
    var failed := FailedChecks(c);
    if CriticalFailure(c) then Decision(false, [])
    else
      Decision(true,
               (if InventoryCheckName in failed then ["Alternative inventory source must be confirmed"] else [])
               + (if FleetCheckName in failed then ["Delivery arrangement must be confirmed within 4 hours"]
                  else []))
  }

  /** On the rule-based path only the budget and the per-unit cost can
      reject a plan. */
  lemma RuleDecisionRejectsOnlyOnCriticalChecks(r: Request, inventoryAvailable: Option<bool>, fleet: FleetPlan,
                                                cost: real, priority: string)
    ensures !MakeApprovalDecision(RunApprovalChecks(r, inventoryAvailable, fleet, cost, priority)).approved
            <==> !BudgetCheck(cost) || !BusinessRulesCheck(r, cost)
  {
  }

  const AiConditions := ["AI compliance monitoring required", "Enhanced audit trail mandatory",
                         "Performance metrics tracking enabled"]

  const ExecutiveNotification := "Executive notification required within 24 hours"

  datatype RiskLevel = RiskLow | RiskMedium | RiskHigh

  datatype AiDecision = AiDecision(approved: bool, conditions: seq<string>, riskLevel: RiskLevel)

  /** The conditions attached to a model-assisted approval. */
  function AiApprovalConditions(cost: real, priority: string, recommendation: string): (cs: seq<string>)
    ensures (ExecutiveNotification in cs) <==> priority == "URGENT" && cost > 1000.0
    ensures (AiConditions[0] in cs) <==> Contains(Upper(recommendation), "CONDITION")
  {
    (if Contains(Upper(recommendation), "CONDITION") then AiConditions else [])
    + (if priority == "URGENT" && cost > 1000.0 then [ExecutiveNotification] else [])
  }

  /** `make_ai_approval_decision`: a failed model check or a critical
      failure rejects; otherwise approved, with conditions. */
  function MakeAiApprovalDecision(c: Checks, cost: real, priority: string, recommendation: string)
    : (d: AiDecision)
    ensures !d.approved <==> c.aiCompliance != Some(true) || CriticalFailure(c)
    ensures !d.approved ==> d.conditions == [] && d.riskLevel == RiskHigh
    ensures d.approved ==> d.conditions == AiApprovalConditions(cost, priority, recommendation)
  {
    var hasConditions := Contains(Upper(recommendation), "CONDITION");
    if c.aiCompliance != Some(true) then AiDecision(false, [], RiskHigh)
    else if CriticalFailure(c) then AiDecision(false, [], RiskHigh)
    else
      AiDecision(true, AiApprovalConditions(cost, priority, recommendation),
                 if AiApproves(recommendation) && !hasConditions then RiskLow else RiskMedium)
  }

  /** Through the model-assisted path a plan is approved exactly when the
      recommendation says APPROVE and neither the budget nor the per-unit
      cost check failed. */
  lemma AiDecisionCases(r: Request, inventoryAvailable: Option<bool>, fleet: FleetPlan, cost: real,
                        priority: string, recommendation: string)
    ensures var c := RunApprovalChecksWithAi(r, inventoryAvailable, fleet, cost, priority, recommendation);
            MakeAiApprovalDecision(c, cost, priority, recommendation).approved
            <==> AiApproves(recommendation) && BudgetCheck(cost) && BusinessRulesCheck(r, cost)
  {
  }

  // ---- review ----

  datatype ApprovalRecord = ApprovalRecord(
    approved: bool,
    requestId: string,
    approverId: string,
    approvalLevel: ApprovalLevel,
    estimatedCost: real,
    priority: string,
    conditions: seq<string>,
    checksPassed: bool,
    failedChecks: seq<CheckName>)

  datatype Review =
    | PlanError
    | NoApprover(level: ApprovalLevel)
    | Recorded(record: ApprovalRecord)

  /** `review_replenishment_plan`: level, approver, checks and decision; a
      decision is appended to the history, a missing approver is not.
      Each plan is `None` (Python's `None`) or a dict: the inventory dict's
      `available` key, which may be missing, and the fleet plan. Reading a
      key of a `None` plan raises before anything else, and the handler
      answers with an error and records nothing. */
  function ReviewReplenishmentPlan(history: seq<ApprovalRecord>, requestId: string, r: Request,
                                   inventoryPlan: Option<Option<bool>>, fleetPlan: Option<FleetPlan>, cost: real,
                                   priority: string, recommendation: string)
    : (out: (Review, seq<ApprovalRecord>))
    ensures out.0.PlanError? <==> inventoryPlan.None? || fleetPlan.None?
    ensures out.0.PlanError? ==> out.1 == history
    ensures inventoryPlan.Some? && fleetPlan.Some? ==>
            var level := DetermineApprovalLevel(cost, priority);
            var c := RunApprovalChecksWithAi(r, inventoryPlan.value, fleetPlan.value, cost, priority, recommendation);
            var d := MakeAiApprovalDecision(c, cost, priority, recommendation);
            (out.0.NoApprover? <==> GetApproverForLevel(Approvers, level).None?)
            && (out.0.NoApprover? ==> out.1 == history && out.0.level == level)
            && (out.0.Recorded? ==>
                  out.1 == history + [out.0.record]
                  && out.0.record.requestId == requestId
                  && out.0.record.approvalLevel == level
                  && out.0.record.approverId == GetApproverForLevel(Approvers, level).value.id
                  && out.0.record.estimatedCost == cost && out.0.record.priority == priority
                  && out.0.record.approved == d.approved
                  && out.0.record.conditions == d.conditions
                  && out.0.record.checksPassed == AllPassed(c)
                  && out.0.record.failedChecks == FailedChecks(c))
  {
    if inventoryPlan.None? || fleetPlan.None? then (PlanError, history)
    else
      var level := DetermineApprovalLevel(cost, priority);
      match GetApproverForLevel(Approvers, level)
      case None => (NoApprover(level), history)
      case Some(a) =>
        var c := RunApprovalChecksWithAi(r, inventoryPlan.value, fleetPlan.value, cost, priority, recommendation);
        var d := MakeAiApprovalDecision(c, cost, priority, recommendation);
        var rec := ApprovalRecord(d.approved, requestId, a.id, level, cost, priority, d.conditions, AllPassed(c),
                                  FailedChecks(c));
        (Recorded(rec), history + [rec])
  }

  /** A plan needing the board is never approved and leaves no record. */
  lemma BoardLevelNeverApproved(history: seq<ApprovalRecord>, requestId: string, r: Request,
                                inventoryPlan: Option<Option<bool>>, fleetPlan: Option<FleetPlan>, cost: real,
                                priority: string, recommendation: string)
    requires cost / PriorityMultiplier(priority) > DirectorApprovalLimit
    ensures var out := ReviewReplenishmentPlan(history, requestId, r, inventoryPlan, fleetPlan, cost,
                                               priority, recommendation);
            !out.0.Recorded? && out.1 == history
            && (inventoryPlan.Some? && fleetPlan.Some? ==> out.0.NoApprover?)
  {
  }

  /** A `None` plan is refused even where the standalone fleet check would
      pass it: the review records nothing. */
  lemma MissingPlanRecordsNothing(history: seq<ApprovalRecord>, requestId: string, r: Request,
                                  inventoryPlan: Option<Option<bool>>, cost: real, priority: string,
                                  recommendation: string)
    ensures FleetCheck(NoPlan)
    ensures var out := ReviewReplenishmentPlan(history, requestId, r, inventoryPlan, None, cost,
                                               priority, recommendation);
            out.0.PlanError? && out.1 == history
  {
  }

  // ---- requirements ----

  function BaseTime(level: ApprovalLevel): string {
    match level
    case Auto => "< 1 minute"
    case Manager => "15-30 minutes"
    case Director => "1-2 hours"
    case Board => "24-48 hours"
  }

  /** `estimate_approval_time` */
  function EstimateApprovalTime(level: ApprovalLevel, priority: string): (t: string)
    ensures StartsWith(t, "Expedited: ") <==> priority == "URGENT" || priority == "HIGH"
    ensures priority == "URGENT" || priority == "HIGH" ==> t == "Expedited: " + BaseTime(level)
    ensures !(priority == "URGENT" || priority == "HIGH") ==> t == BaseTime(level)
  {
    var base := BaseTime(level);
    assert base[0] != 'E';
    if priority == "URGENT" || priority == "HIGH" then "Expedited: " + base else base
  }

  /** `get_required_documentation` */
  function GetRequiredDocumentation(level: ApprovalLevel): (docs: seq<string>)
    ensures |docs| >= 1
  {
    match level
    case Auto => ["System generated request"]
    case Manager => ["Business justification", "Cost breakdown"]
    case Director => ["Business justification", "Cost breakdown", "Impact assessment"]
    case Board => ["Business justification", "Cost breakdown", "Impact assessment", "Risk analysis",
                   "Alternative analysis"]
  }

  /** From manager upwards each level's documents extend the level below;
      the automatic level's single document is not among them. */
  lemma DocumentationGrows(a: ApprovalLevel, b: ApprovalLevel)
    requires a != Auto && LevelRank(a) <= LevelRank(b)
    ensures GetRequiredDocumentation(a) <= GetRequiredDocumentation(b)
    ensures "System generated request" !in GetRequiredDocumentation(a)
  {
  }

  /** `get_compliance_requirements` */
  function GetComplianceRequirements(cost: real, priority: string): (reqs: seq<string>)
    ensures |reqs| >= 1 && reqs[0] == "Budget compliance verification"
    ensures ("Procurement policy compliance" in reqs) <==> cost > 1000.0
    ensures ("Emergency procurement justification" in reqs) <==> priority == "HIGH" || priority == "URGENT"
  {
    ["Budget compliance verification"]
    + (if cost > 1000.0 then ["Procurement policy compliance"] else [])
    + (if priority == "HIGH" || priority == "URGENT" then ["Emergency procurement justification"] else [])
  }
}

=== FILE: approver_data.dfy ===
/** The approval-threshold table (Agents/data/approver_data.py, repeated in
    Agents/data_setup.py) and the first-fit level lookup over it.

    The Python builds a pandas DataFrame from this table; a flag a row does
    not mention becomes NaN there, and NaN is truthy in Python. Here every
    row carries explicit booleans, with an unmentioned flag read as false. */
module ApproverData {
  import opened Wrappers

  datatype ThresholdRow = ThresholdRow(
    category: string,
    maxCost: real,
    autoApprove: bool,
    requiresManager: bool,
    requiresDirector: bool)

  /** The table in its declared (index) order. */
  const ApprovalThresholds: seq<ThresholdRow> := [
    ThresholdRow("low_value", 1000.0, true, false, false),
    ThresholdRow("medium_value", 5000.0, false, true, false),
    ThresholdRow("high_value", 999999.0, false, false, true)
  ]

  const ExceedsLimits := "exceeds_limits"

  /** No row of `table` admits `cost`. */
  ghost predicate ExceedsAll(table: seq<ThresholdRow>, cost: real) {
    forall j :: 0 <= j < |table| ==> cost > table[j].maxCost
  }

  /** Row `i` is the first row whose `maxCost` admits `cost`. */
  ghost predicate FirstAdmitting(table: seq<ThresholdRow>, cost: real, i: int) {
    0 <= i < |table| && cost <= table[i].maxCost
    && forall j :: 0 <= j < i ==> cost > table[j].maxCost
  }

  /** Index of the first row, in table order, with `cost <= maxCost`. */
  function FirstFit(table: seq<ThresholdRow>, cost: real): (r: Option<nat>)
    ensures r.Some? ==> FirstAdmitting(table, cost, r.value)
    ensures r.None? <==> ExceedsAll(table, cost)
    decreases |table|
  {
    if |table| == 0 then None
    else if cost <= table[0].maxCost then Some(0)
    else
      match FirstFit(table[1..], cost)
      case None => None
      case Some(i) => Some(i + 1)
  }

  /** `determine_approval_level`: the category of the first admitting row,
      or "exceeds_limits". */
  function DetermineApprovalLevel(cost: real, table: seq<ThresholdRow>): (level: string)
    ensures ExceedsAll(table, cost) ==> level == ExceedsLimits
    ensures forall i :: FirstAdmitting(table, cost, i) ==> level == table[i].category
  {
    match FirstFit(table, cost)
    case None => ExceedsLimits
    case Some(i) => table[i].category
  }

  /** At most one row is the first admitting one. */
  lemma FirstAdmittingUnique(table: seq<ThresholdRow>, cost: real, i: int, k: int)
    requires FirstAdmitting(table, cost, i) && FirstAdmitting(table, cost, k)
    ensures i == k
  {
  }

  /** The table is ascending in `maxCost` and each row asks for exactly one
      kind of sign-off. */
  lemma DefaultTableShape()
    ensures forall i, j :: 0 <= i < j < |ApprovalThresholds| ==>
      ApprovalThresholds[i].maxCost < ApprovalThresholds[j].maxCost
    ensures forall i :: 0 <= i < |ApprovalThresholds| ==>
      var t := ApprovalThresholds[i];
      (t.autoApprove && !t.requiresManager && !t.requiresDirector)
      || (!t.autoApprove && t.requiresManager && !t.requiresDirector)
      || (!t.autoApprove && !t.requiresManager && t.requiresDirector)
  {
  }

  /** With the default table: up to 1000 is low value, up to 5000 medium,
      up to 999999 high, and beyond that the cost exceeds every limit. */
  lemma DefaultLevels(cost: real)
    ensures cost <= 1000.0 ==> DetermineApprovalLevel(cost, ApprovalThresholds) == "low_value"
    ensures 1000.0 < cost <= 5000.0 ==> DetermineApprovalLevel(cost, ApprovalThresholds) == "medium_value"
    ensures 5000.0 < cost <= 999999.0 ==> DetermineApprovalLevel(cost, ApprovalThresholds) == "high_value"
    ensures DetermineApprovalLevel(cost, ApprovalThresholds) == ExceedsLimits <==> cost > 999999.0
  {
    if cost <= 1000.0 {
      assert FirstAdmitting(ApprovalThresholds, cost, 0);
    } else if cost <= 5000.0 {
      assert FirstAdmitting(ApprovalThresholds, cost, 1);
    } else if cost <= 999999.0 {
      assert FirstAdmitting(ApprovalThresholds, cost, 2);
    } else {
      assert ExceedsAll(ApprovalThresholds, cost);
    }
  }
}

=== FILE: dashboard.dfy ===
/** The dashboard's workflow state machine (flask_app.py): one global
    workflow record that a submission resets and runs through the
    analysis steps to `awaiting_approval`, that an approval moves on to
    the AGV phases, and that a rejection resets unconditionally. Only the
    step, phase, status and the step tags of the log entries are modelled:
    message texts, timestamps, pacing delays and the background thread are
    not. What the orchestrator's inventory call did is an input. */
module Dashboard {
  import opened Wrappers

  /** One log entry: the step it is tagged with and the agent it names. */
  datatype LogEntry = LogEntry(step: int, agent: string)

  /** The submitted JSON body; each field may be absent. */
  datatype Request = Request(partNumber: Option<string>, quantityRequested: Option<int>,
                             destination: Option<string>, priority: Option<string>)

  /** `results` is `{}` until an analysis completes. */
  datatype Results = NoResults | Analysis(agentLogs: seq<LogEntry>)

  datatype State = State(active: bool, step: int, phase: int, requestData: Option<Request>,
                         results: Results, status: string,
                         agentLogs: seq<LogEntry>, agvLogs: seq<LogEntry>)

  const Initial := State(false, 0, 0, None, NoResults, "idle", [], [])

  /** The step tags of a log, in order. */
  function Tags(logs: seq<LogEntry>): (t: seq<int>)
    ensures |t| == |logs|
    ensures forall i :: 0 <= i < |logs| ==> t[i] == logs[i].step
  {
    seq(|logs|, i requires 0 <= i < |logs| => logs[i].step)
  }

  predicate NonDecreasing(t: seq<int>) {
    forall i, j :: 0 <= i <= j < |t| ==> t[i] <= t[j]
  }

  lemma TagsConcat(a: seq<LogEntry>, b: seq<LogEntry>)
    ensures Tags(a + b) == Tags(a) + Tags(b)
  {
    assert forall i :: 0 <= i < |a + b| ==> Tags(a + b)[i] == (Tags(a) + Tags(b))[i];
  }

  // ---------------------------------------------------------------------
  // Analysis (run_analysis_steps)
  // ---------------------------------------------------------------------

  /** What the inventory step saw: no orchestrator at all, an answer from
      the inventory agent (part available or not), or an exception. */
  datatype InventoryPath = NoOrchestrator | Reported(available: bool) | Raised

  /** An analysis either completes with its log, or raises part-way, having
      written the entries before the failing lookup. */
  datatype AnalysisRun = Completed(logs: seq<LogEntry>) | Aborted(logs: seq<LogEntry>)

  const Orchestrator1 := LogEntry(1, "LogisticsOrchestrator")
  const Inventory2 := LogEntry(2, "InventoryAgent")
  const Fleet3 := LogEntry(3, "FleetAgent")
  const Approver4 := LogEntry(4, "ApproverAgent")
  const System5 := LogEntry(5, "System")

  /** Step 2 writes its opening entry and one result entry whenever an
      orchestrator exists: the answer, "not available", or the integration
      error. Without an orchestrator the mock data is silent. */
  function InventoryEntries(path: InventoryPath): (e: seq<LogEntry>)
    ensures path.NoOrchestrator? <==> e == []
    ensures forall x :: x in e ==> x == Inventory2
  {
    match path
    case NoOrchestrator => []
    case Reported(_) => [Inventory2, Inventory2]
    case Raised => [Inventory2, Inventory2]
  }

  /** The log an analysis writes. The step-1 message reads the part number
      and the quantity, so without them nothing is logged; the orchestrator
      request then reads the destination and the priority. The fleet and
      approver calls catch their own errors, so steps 3 and 4 always log
      twice, and a final entry tagged 5 closes the run. */
  function RunAnalysis(r: Request, path: InventoryPath): (a: AnalysisRun)
    ensures a.Aborted? <==> (r.partNumber.None? || r.quantityRequested.None? ||
                             r.destination.None? || r.priority.None?)
    ensures a.Aborted? ==> |a.logs| <= 1
    ensures a.Completed? && path.NoOrchestrator? ==> Tags(a.logs) == [1, 3, 3, 4, 4, 5]
    ensures a.Completed? && !path.NoOrchestrator? ==> Tags(a.logs) == [1, 2, 2, 3, 3, 4, 4, 5]
  {
    if r.partNumber.None? || r.quantityRequested.None? then Aborted([])
    else if r.destination.None? || r.priority.None? then Aborted([Orchestrator1])
    else Completed([Orchestrator1] + InventoryEntries(path) + [Fleet3, Fleet3, Approver4, Approver4, System5])
  }

  /** On every path the analysis log is in step order and ends with the
      completion entry, tagged 5, although the step it leaves is 0. */
  lemma AnalysisLogOrdered(r: Request, path: InventoryPath)
    requires RunAnalysis(r, path).Completed?
    ensures var t := Tags(RunAnalysis(r, path).logs);
            NonDecreasing(t) && t[0] == 1 && t[|t| - 1] == 5
    ensures Submit(Initial, Some(r), path).step == 0
  {
    var t := Tags(RunAnalysis(r, path).logs);
    if path.NoOrchestrator? {
      assert t == [1, 3, 3, 4, 4, 5];
    } else {
      assert t == [1, 2, 2, 3, 3, 4, 4, 5];
    }
  }

  // ---------------------------------------------------------------------
  // Routes
  // ---------------------------------------------------------------------

  /** `submit_request`. An unreadable body fails before the reset and only
      marks the old state as failed. Otherwise the state is reset, the
      analysis runs, and the state either awaits approval holding the
      analysis, or carries the error status at step 1. */
  function Submit(s: State, body: Option<Request>, path: InventoryPath): (s': State)
    ensures body.None? ==> s' == s.(status := "error")
    ensures body.Some? ==>
              s'.active && s'.phase == 1 && s'.requestData == body && s'.agvLogs == [] &&
              s'.agentLogs == RunAnalysis(body.value, path).logs
    ensures body.Some? && RunAnalysis(body.value, path).Completed? ==>
              s'.step == 0 && s'.status == "awaiting_approval" && s'.results == Analysis(s'.agentLogs)
    ensures body.Some? && RunAnalysis(body.value, path).Aborted? ==>
              s'.step == 1 && s'.status == "error" && s'.results == NoResults
  {
    match body
    case None => s.(status := "error")
    case Some(r) =>
      var reset := State(true, 1, 1, Some(r), NoResults, "analyzing", [], []);
      match RunAnalysis(r, path)
      case Completed(logs) =>
        reset.(results := Analysis(logs), agentLogs := logs, step := 0, status := "awaiting_approval")
      case Aborted(logs) =>
        reset.(agentLogs := logs, status := "error")
  }

  /** `approve_request`: only a state awaiting approval moves on; any other
      state is answered with an error and left as it was. */
  function Approve(s: State): (out: (bool, State))
    ensures out.0 <==> s.status == "awaiting_approval"
    ensures !out.0 ==> out.1 == s
    ensures out.0 ==> out.1 == s.(status := "agv_workflow_starting", step := 5, phase := 1)
  {
    if s.status != "awaiting_approval" then (false, s)
    else (true, s.(status := "agv_workflow_starting", step := 5, phase := 1))
  }

  /** `reject_request`: no guard; every state is replaced by the same
      inactive, rejected one. */
  function Reject(s: State): (s': State)
    ensures !s'.active && s'.step == 0 && s'.phase == 0 && s'.status == "rejected"
    ensures s'.agentLogs == [] && s'.agvLogs == [] && s'.results == NoResults && s'.requestData == None
  {
    State(false, 0, 0, None, NoResults, "rejected", [], [])
  }

  /** `workflow_status`: answers with the state and leaves it as it was. */
  function WorkflowStatus(s: State): (out: (State, State))
    ensures out.0 == s && out.1 == s
  {
    (s, s)
  }

  /** Rejection forgets everything: the state before it cannot be told
      apart afterwards. */
  lemma RejectForgetsHistory(s: State, t: State)
    ensures Reject(s) == Reject(t)
    ensures Approve(Reject(s)).0 == false
  {
  }

  /** An approval is consumed: a second one in a row is refused. */
  lemma ApproveOnlyOnce(s: State)
    requires Approve(s).0
    ensures !Approve(Approve(s).1).0
  {
  }

  /** A submission that aborted cannot be approved. */
  lemma AbortedSubmitCannotBeApproved(s: State, body: Option<Request>, path: InventoryPath)
    requires body.Some? && RunAnalysis(body.value, path).Aborted?
    ensures !Approve(Submit(s, body, path)).0
  {
  }

  // ---------------------------------------------------------------------
  // AGV phases (run_agv_workflow_background)
  // ---------------------------------------------------------------------

  const Fleet5 := LogEntry(5, "FleetAgent")
  const Inventory6 := LogEntry(6, "InventoryAgent")
  const Fleet7 := LogEntry(7, "FleetAgent")
  const Orchestrator7 := LogEntry(7, "LogisticsOrchestrator")

  predicate KnowsPart(s: State) {
    s.requestData.Some? && s.requestData.value.partNumber.Some?
  }

  predicate KnowsDestination(s: State) {
    s.requestData.Some? && s.requestData.value.destination.Some?
  }

  /** The entries the AGV phases write: three in dispatch (step 5), three
      in pickup (step 6), two in delivery (step 7). The second pickup entry
      names the part, so without one the run stops after the first pickup
      entry; the delivery reads the destination before it logs. */
  function AgvEntries(s: State): (e: seq<LogEntry>)
    ensures !KnowsPart(s) ==> Tags(e) == [5, 5, 5, 6]
    ensures KnowsPart(s) && !KnowsDestination(s) ==> Tags(e) == [5, 5, 5, 6, 6, 6]
    ensures KnowsPart(s) && KnowsDestination(s) ==> Tags(e) == [5, 5, 5, 6, 6, 6, 7, 7]
    ensures NonDecreasing(Tags(e))
  {
    var dispatch := [Fleet5, Fleet5, Fleet5];
    if !KnowsPart(s) then dispatch + [Inventory6]
    else if !KnowsDestination(s) then dispatch + [Inventory6, Inventory6, Inventory6]
    else dispatch + [Inventory6, Inventory6, Inventory6, Fleet7, Orchestrator7]
  }

  /** `run_agv_workflow_background`: dispatch (step 5), pickup (step 6) and
      delivery (step 7), each setting its status and phase, then
      completion. A missing part number raises during pickup phase 1 and a
      missing destination as delivery starts; the handler only sets the
      status to `error`, leaving step, phase and the entries written. */
  function AgvWorkflow(s: State): (s': State)
    ensures KnowsPart(s) && KnowsDestination(s) ==>
              s'.status == "completed" && !s'.active && s'.step == 7 && s'.phase == 1 &&
              Tags(s'.agvLogs) == Tags(s.agvLogs) + [5, 5, 5, 6, 6, 6, 7, 7]
    ensures !(KnowsPart(s) && KnowsDestination(s)) ==> s'.status == "error" && s'.active == s.active
    ensures s'.agvLogs == s.agvLogs + AgvEntries(s)
    ensures s'.agentLogs == s.agentLogs && s'.results == s.results && s'.requestData == s.requestData
  {
    var written := s.agvLogs + AgvEntries(s);
    TagsConcat(s.agvLogs, AgvEntries(s));
    if !KnowsPart(s) then
      s.(status := "error", step := 6, phase := 1, agvLogs := written)
    else if !KnowsDestination(s) then
      s.(status := "error", step := 7, phase := 1, agvLogs := written)
    else
      s.(status := "completed", active := false, step := 7, phase := 1, agvLogs := written)
  }

  /** The whole happy path: a completed analysis, once approved, runs the
      AGV phases to completion with exactly the eight phase entries, and
      keeps the analysis log beside them. */
  lemma ApprovedRequestCompletes(s: State, r: Request, path: InventoryPath)
    requires RunAnalysis(r, path).Completed?
    ensures var submitted := Submit(s, Some(r), path);
            var approved := Approve(submitted);
            var done := AgvWorkflow(approved.1);
            approved.0 && done.status == "completed" && !done.active &&
            Tags(done.agvLogs) == [5, 5, 5, 6, 6, 6, 7, 7] &&
            done.agentLogs == RunAnalysis(r, path).logs
  {
    var submitted := Submit(s, Some(r), path);
    assert submitted.agvLogs == [];
    assert Tags(submitted.agvLogs) == [];
  }
}

=== FILE: fleet_agent.dfy ===
/** The AGV fleet agent (Agents/FleetAgent.py): the demo-availability top-up,
    rule-based AGV choice by location/battery/capacity score, the filter
    applied to a language-model recommendation, scheduling, fleet counts
    and the time-based delivery status.

    Both choosers add a virtual AGV when nothing is ready and revive busy
    AGVs when fewer than two are ready, so they always return an AGV. */
module FleetAgent {
  import opened Wrappers
  import opened Text
  import opened Seqs
  import opened OrderedMap
  import Ranking

  datatype Vehicle = Vehicle(
    agvType: string,
    capacityPieces: int,
    currentLocation: string,
    status: string,
    batteryLevel: int,
    costPerTrip: real,
    maxSpeedMps: real,
    chargingStatus: string,
    currentAssignment: Option<string>)

  type Fleet = Dict<string, Vehicle>

  datatype RouteInfo = RouteInfo(distanceM: real, timeMinutes: real)

  const Available := "AVAILABLE"
  const Assigned := "ASSIGNED"

  /** The agent's built-in fleet. */
  function DemoFleet(): (f: Fleet)
    ensures Valid(f)
  {
    Dict(["AGV-001", "AGV-002", "AGV-003", "AGV-004"],
         map["AGV-001" := Vehicle("heavy_duty_agv", 100, "Warehouse A", Available, 85, 5.0, 1.5, "not_charging", None),
             "AGV-002" := Vehicle("standard_agv", 50, "Warehouse B", Available, 92, 3.5, 1.2, "not_charging", None),
             "AGV-003" := Vehicle("heavy_duty_agv", 100, "Production Floor", Available, 87, 5.0, 1.5, "not_charging", None),
             "AGV-004" := Vehicle("light_duty_agv", 25, "Loading Dock", Available, 82, 2.5, 1.0, "not_charging", None)])
  }

  /** AVAILABLE with more than 30% battery. */
  predicate Ready(v: Vehicle) {
    v.status == Available && v.batteryLevel > 30
  }

  predicate ReadyIn(f: Fleet, id: string) {
    id in f.values && Ready(f.values[id])
  }

  /** The ready AGVs, in fleet order. */
  function ReadyIds(f: Fleet): (ids: seq<string>)
    ensures forall id :: id in ids <==> id in f.keys && ReadyIn(f, id)
  {
    Filter((id: string) => ReadyIn(f, id), f.keys)
  }

  function Max(a: int, b: int): int {
    if a >= b then a else b
  }

  function Revive(v: Vehicle, battery: int): (v': Vehicle)
    ensures v'.status == Available
  {
    v.(status := Available, batteryLevel := battery)
  }

  /** `ensure_demo_agv_availability`: with fewer than two ready AGVs, the
      first two AGVs are made AVAILABLE with at least 85% battery. */
  function EnsureDemoAvailability(f: Fleet): (f': Fleet)
    requires Valid(f)
    ensures Valid(f') && f'.keys == f.keys
    ensures forall k :: k in f'.values <==> k in f.values
    ensures |ReadyIds(f)| >= 2 ==> f' == f
    ensures |ReadyIds(f)| < 2 ==>
              forall i :: 0 <= i < |f.keys| ==>
                f'.values[f.keys[i]]
                == if i < 2 then Revive(f.values[f.keys[i]], Max(85, f.values[f.keys[i]].batteryLevel))
                   else f.values[f.keys[i]]
  {
    if |ReadyIds(f)| >= 2 then f
    else
      var f1 := if |f.keys| >= 1 then
                  var k := f.keys[0];
                  Put(f, k, Revive(f.values[k], Max(85, f.values[k].batteryLevel)))
                else f;
      if |f.keys| >= 2 then
        var k := f.keys[1];
        Put(f1, k, Revive(f.values[k], Max(85, f.values[k].batteryLevel)))
      else f1
  }

  /** After the top-up at least two AGVs are ready, when the fleet has two. */
  lemma EnsureDemoReadiesTwo(f: Fleet)
    requires Valid(f) && |f.keys| >= 2
    ensures var f' := EnsureDemoAvailability(f);
            |ReadyIds(f')| >= 2
  {
    var f' := EnsureDemoAvailability(f);
    if |ReadyIds(f)| < 2 {
      var r := ReadyIds(f');
      assert f.keys[0] in r && f.keys[1] in r;
      assert f.keys[0] != f.keys[1];
    }
  }

  /** The built-in fleet starts with every AGV ready, so the demo top-up
      leaves it alone. */
  lemma DemoFleetNeedsNoTopUp()
    ensures EnsureDemoAvailability(DemoFleet()) == DemoFleet()
  {
    var f := DemoFleet();
    assert f.keys[0] in ReadyIds(f) && f.keys[1] in ReadyIds(f);
    assert f.keys[0] != f.keys[1];
  }

  /** Location, battery and capacity score of the rule-based choice. */
  function Score(v: Vehicle, source: string): real {
    (if v.currentLocation == source then 10.0 else 0.0)
    + v.batteryLevel as real / 10.0 + v.capacityPieces as real / 50.0
  }

  function ScoreIn(f: Fleet, source: string): string -> real {
    (id: string) => if id in f.values then Score(f.values[id], source) else 0.0
  }

  /** Every AGV named is in the fleet and AVAILABLE. */
  ghost predicate AllAvailable(f: Fleet, ids: seq<string>) {
    forall id :: id in ids ==> id in f.values && f.values[id].status == Available
  }

  function VirtualId(prefix: string, f: Fleet): string {
    prefix + ZeroPad(NatToString(|f.keys| + 1), 3)
  }

  /** A virtual AGV at the pick-up point when none is ready. */
  function AddVirtual(f: Fleet, ready: seq<string>, id: string, v: Vehicle): (out: (seq<string>, Fleet))
    requires Valid(f) && AllAvailable(f, ready) && v.status == Available
    ensures Valid(out.1) && AllAvailable(out.1, out.0) && |out.0| >= 1
    ensures ready != [] ==> out == (ready, f)
    ensures ready == [] ==> out.0 == [id] && out.1 == Put(f, id, v)
  {
    if ready != [] then (ready, f) else ([id], Put(f, id, v))
  }

  /** One step of the fallback chooser's revival of the first two AGVs. */
  function ReviveForFallback(pool: seq<string>, f: Fleet, id: string): (out: (seq<string>, Fleet))
    requires Valid(f) && AllAvailable(f, pool) && id in f.values
    ensures Valid(out.1) && AllAvailable(out.1, out.0) && |out.0| >= |pool|
    ensures out.1.keys == f.keys
  {
    if f.values[id].status != Available then
      (if id in pool then pool else pool + [id], Put(f, id, Revive(f.values[id], 88)))
    else (pool, f)
  }

  /** The AGVs the fallback chooser considers, and the fleet after its
      demo adjustments. */
  function FallbackPool(f: Fleet, source: string): (out: (seq<string>, Fleet))
    requires Valid(f)
    ensures Valid(out.1) && AllAvailable(out.1, out.0) && |out.0| >= 1
    ensures "" !in f.values ==> "" !in out.1.values
  {
    var ready := ReadyIds(f);
    var virt := Vehicle("demo_fallback_agv", 200, source, Available, 90, 3.75, 1.4, "not_charging", None);
    var (pool, f1) := AddVirtual(f, ready, VirtualId("AGV-FALLBACK-", f), virt);
    if |pool| >= 2 then (pool, f1)
    else
      var keys := f1.keys;
      var (p2, f2) := if |keys| >= 1 then ReviveForFallback(pool, f1, keys[0]) else (pool, f1);
      if |keys| >= 2 then ReviveForFallback(p2, f2, keys[1]) else (p2, f2)
  }

  /** Among `pool`, the first AGV with the greatest score that can carry the
      load, or the first of the pool when none can. */
  function ChooseFrom(f: Fleet, pool: seq<string>, source: string, quantity: int): (id: string)
    requires |pool| >= 1 && AllAvailable(f, pool)
    ensures id in pool
    ensures (exists c :: c in pool && f.values[c].capacityPieces >= quantity) ==>
              f.values[id].capacityPieces >= quantity
              && forall c :: c in pool && f.values[c].capacityPieces >= quantity ==>
                   Score(f.values[c], source) <= Score(f.values[id], source)
    ensures (forall c :: c in pool ==> f.values[c].capacityPieces < quantity) ==> id == pool[0]
  {
    var suitable := Filter((c: string) => c in f.values && f.values[c].capacityPieces >= quantity, pool);
    if suitable == [] then pool[0]
    else
      var i := Ranking.FirstMax(suitable, ScoreIn(f, source));
      assert forall c :: c in suitable ==> ScoreIn(f, source)(c) == Score(f.values[c], source);
      assert forall c :: c in pool && f.values[c].capacityPieces >= quantity ==>
               exists j :: 0 <= j < |suitable| && suitable[j] == c;
      suitable[i]
  }

  /** `find_optimal_agv`: never fails to name an AGV, and that AGV is
      AVAILABLE in the adjusted fleet. */
  function FindOptimalAgv(f: Fleet, source: string, quantity: int): (out: (string, Fleet))
    requires Valid(f)
    ensures Valid(out.1)
    ensures out.0 in out.1.values && out.1.values[out.0].status == Available
    ensures var (pool, f') := FallbackPool(f, source);
            out.1 == f' && out.0 in pool
            && ((exists c :: c in pool && f'.values[c].capacityPieces >= quantity) ==>
                  f'.values[out.0].capacityPieces >= quantity
                  && forall c :: c in pool && f'.values[c].capacityPieces >= quantity ==>
                       Score(f'.values[c], source) <= Score(f'.values[out.0], source))
  {
    var (pool, f') := FallbackPool(f, source);
    (ChooseFrom(f', pool, source, quantity), f')
  }

  /** The AI chooser's revival: busy AGVs, in fleet order, until three are
      in the pool. */
  function TopUpForAi(pool: seq<string>, f: Fleet, keys: seq<string>): (out: (seq<string>, Fleet))
    requires Valid(f) && AllAvailable(f, pool) && forall k :: k in keys ==> k in f.values
    ensures Valid(out.1) && AllAvailable(out.1, out.0) && |out.0| >= |pool|
    ensures out.1.keys == f.keys
    decreases |keys|
  {
    if |keys| == 0 then (pool, f)
    else
      var k := keys[0];
      var v := f.values[k];
      if v.status != Available && |pool| < 3 then
        TopUpForAi(pool + [k], Put(f, k, Revive(v, Max(85, v.batteryLevel))), keys[1..])
      else TopUpForAi(pool, f, keys[1..])
  }

  function AiPool(f: Fleet, source: string): (out: (seq<string>, Fleet))
    requires Valid(f)
    ensures Valid(out.1) && AllAvailable(out.1, out.0) && |out.0| >= 1
    ensures "" !in f.values ==> "" !in out.1.values
  {
    var ready := ReadyIds(f);
    var virt := Vehicle("demo_agv", 150, source, Available, 95, 4.0, 1.3, "not_charging", None);
    var (pool, f1) := AddVirtual(f, ready, VirtualId("AGV-DEMO-", f), virt);
    if |pool| >= 2 then (pool, f1) else TopUpForAi(pool, f1, f1.keys)
  }

  /** What the recommendation may pick: an AGV of the pool named in the
      text that can carry the load. */
  predicate Acceptable(f: Fleet, recommendation: string, quantity: int, id: string) {
    Contains(recommendation, id) && id in f.values && f.values[id].capacityPieces >= quantity
  }

  datatype Choice = Choice(agvId: string, fleet: Fleet, fromRecommendation: bool)

  /** `find_optimal_agv_with_ai`: the first pool AGV the recommendation
      names that can carry the load, or else the rule-based choice. */
  function FindOptimalAgvWithAi(f: Fleet, source: string, quantity: int, recommendation: string)
    : (c: Choice)
    requires Valid(f)
    ensures Valid(c.fleet)
    ensures c.agvId in c.fleet.values && c.fleet.values[c.agvId].status == Available
    ensures "" !in f.values ==> c.agvId != ""
    ensures c.fromRecommendation ==>
              Acceptable(c.fleet, recommendation, quantity, c.agvId) && c.agvId in AiPool(f, source).0
    ensures !c.fromRecommendation ==>
              (forall id :: id in AiPool(f, source).0 ==>
                 !Acceptable(AiPool(f, source).1, recommendation, quantity, id))
              && (c.agvId, c.fleet) == FindOptimalAgv(AiPool(f, source).1, source, quantity)
  {
    var (pool, f1) := AiPool(f, source);
    match FirstIndex((id: string) => Acceptable(f1, recommendation, quantity, id), pool)
    case Some(i) => Choice(pool[i], f1, true)
    case None =>
      assert forall id :: id in pool ==> exists j :: 0 <= j < |pool| && pool[j] == id;
      var (id, f2) := FindOptimalAgv(f1, source, quantity);
      Choice(id, f2, false)
  }

  datatype Schedule =
    | Scheduled(deliveryId: string, agvId: string, totalDurationMinutes: real, distanceM: real,
                deliveryCost: real, fromRecommendation: bool)
    | NotScheduled(alternativeOptions: seq<string>)

  /** The four fallback options offered when no AGV is found. */
  const AlternativeDeliveryOptions := ["manual_cart_delivery", "wait_for_agv_charging",
                                       "priority_agv_recall", "manual_pickup"]

  const DefaultRoute := RouteInfo(250.0, 8.0)

  /** Loading takes one minute per ten pieces, at least two minutes. */
  function LoadingMinutes(quantity: int): (m: int)
    ensures m >= 2 && m >= quantity / 10
    ensures m == 2 || m == quantity / 10
  {
    Max(2, quantity / 10)
  }

  /** The timing and status part of `schedule_delivery`; the language-model
      text and the clock reading in the id are inputs. */
  function ScheduleDelivery(f: Fleet, routes: map<(string, string), RouteInfo>, quantity: int,
                            source: string, destination: string, requestId: Option<string>,
                            recommendation: string, stamp: string)
    : (out: (Schedule, Fleet))
    requires Valid(f)
    ensures Valid(out.1)
    ensures out.0.NotScheduled? ==> out.0.alternativeOptions == AlternativeDeliveryOptions
    ensures out.0.Scheduled? ==>
              var route := if (source, destination) in routes then routes[(source, destination)]
                           else DefaultRoute;
              out.0.agvId in out.1.values
              && out.1.values[out.0.agvId].status == Assigned
              && out.1.values[out.0.agvId].currentAssignment == requestId
              && out.0.totalDurationMinutes == route.timeMinutes + LoadingMinutes(quantity) as real
              && out.0.distanceM == route.distanceM
              && out.0.deliveryId
                 == "AGV-DEL-" + (if requestId.Some? && requestId.value != "" then requestId.value
                                  else "DIRECT") + "-" + stamp
    ensures var c := FindOptimalAgvWithAi(EnsureDemoAvailability(f), source, quantity, recommendation);
            (out.0.Scheduled? <==> c.agvId != "")
            && (out.0.NotScheduled? ==> out.1 == c.fleet)
            && (out.0.Scheduled? ==>
                  out.0.agvId == c.agvId
                  && out.0.fromRecommendation == c.fromRecommendation
                  && out.0.deliveryCost == c.fleet.values[c.agvId].costPerTrip
                  && out.1.keys == c.fleet.keys
                  && forall a :: a in c.fleet.values && a != c.agvId ==>
                       a in out.1.values && out.1.values[a] == c.fleet.values[a])
    ensures "" !in f.values ==> out.0.Scheduled?
  {
    var f1 := EnsureDemoAvailability(f);
    var c := FindOptimalAgvWithAi(f1, source, quantity, recommendation);
    if c.agvId == "" then (NotScheduled(AlternativeDeliveryOptions), c.fleet)
    else
      var route := if (source, destination) in routes then routes[(source, destination)] else DefaultRoute;
      var v := c.fleet.values[c.agvId];
      var total := route.timeMinutes + LoadingMinutes(quantity) as real;
      var id := "AGV-DEL-" + (if requestId.Some? && requestId.value != "" then requestId.value
                              else "DIRECT") + "-" + stamp;
      (Scheduled(id, c.agvId, total, route.distanceM, v.costPerTrip, c.fromRecommendation),
       Put(c.fleet, c.agvId, v.(status := Assigned, currentAssignment := requestId)))
  }

  datatype Availability = Availability(
    totalAgvs: nat,
    availableAgvs: nat,
    inTransitAgvs: nat,
    chargingAgvs: nat,
    maintenanceAgvs: nat)

  predicate InTransit(v: Vehicle) {
    v.status == "IN_TRANSIT" || v.status == Assigned
  }

  predicate IsCharging(v: Vehicle) { v.status == "CHARGING" }
  predicate InMaintenance(v: Vehicle) { v.status == "MAINTENANCE" }

  function CountStatus(vs: seq<Vehicle>, p: Vehicle -> bool): (n: nat)
    ensures n <= |vs|
  {
    Count(p, vs)
  }

  /** The four counted groups are disjoint, so together they never exceed
      the fleet. */
  lemma {:induction false} GroupsDisjoint(vs: seq<Vehicle>)
    ensures CountStatus(vs, (v: Vehicle) => v.status == Available)
            + CountStatus(vs, InTransit)
            + CountStatus(vs, IsCharging)
            + CountStatus(vs, InMaintenance) <= |vs|
    decreases |vs|
  {
    if |vs| > 0 {
      GroupsDisjoint(vs[1..]);
    }
  }

  /** `get_fleet_availability` (the counts). */
  function GetFleetAvailability(f: Fleet): (r: Availability)
    requires Valid(f)
    ensures r.totalAgvs == |f.keys|
    ensures r.availableAgvs + r.inTransitAgvs + r.chargingAgvs + r.maintenanceAgvs <= r.totalAgvs
    ensures r.availableAgvs == Count((v: Vehicle) => v.status == Available, Values(f))
    ensures r.inTransitAgvs == Count(InTransit, Values(f))
    ensures r.chargingAgvs == Count(IsCharging, Values(f))
    ensures r.maintenanceAgvs == Count(InMaintenance, Values(f))
  {
    var vs := Values(f);
    GroupsDisjoint(vs);
    Availability(|vs|, CountStatus(vs, (v: Vehicle) => v.status == Available), CountStatus(vs, InTransit),
                 CountStatus(vs, IsCharging), CountStatus(vs, InMaintenance))
  }

  datatype DeliveryStatus = DeliveryScheduled | DeliveryInTransit | DeliveryDelivered

  function StatusRank(s: DeliveryStatus): nat {
    match s
    case DeliveryScheduled => 0
    case DeliveryInTransit => 1
    case DeliveryDelivered => 2
  }

  /** `get_delivery_status`: from the minutes elapsed since scheduling,
      which the source reads from the clock. */
  function GetDeliveryStatus(elapsedMinutes: real): (s: DeliveryStatus)
    ensures s == DeliveryScheduled <==> elapsedMinutes < 5.0
    ensures s == DeliveryInTransit <==> 5.0 <= elapsedMinutes < 30.0
    ensures s == DeliveryDelivered <==> elapsedMinutes >= 30.0
  {
    if elapsedMinutes < 5.0 then DeliveryScheduled
    else if elapsedMinutes < 30.0 then DeliveryInTransit
    else DeliveryDelivered
  }

  /** A delivery's status never moves backwards as time passes. */
  lemma DeliveryStatusMonotone(a: real, b: real)
    requires a <= b
    ensures StatusRank(GetDeliveryStatus(a)) <= StatusRank(GetDeliveryStatus(b))
  {
  }
}

=== FILE: fleet_manager.dfy ===
/** The AGV fleet data manager (Agents/fleet_manager.py): the AGV table,
    the route table, the dispatch log and the current assignments.

    `current_assignments` holds the very record that was appended to the
    dispatch log, so completing a task also marks that log record
    COMPLETED. Here an assignment is the position of its record in the
    log, which keeps that sharing explicit. */
module FleetManager {
  import opened Wrappers
  import opened Seqs
  import opened OrderedMap
  import Ranking

  datatype Agv = Agv(
    agvType: string,
    capacityPieces: int,
    currentLocation: string,
    status: string,
    batteryLevel: int,
    costPerTrip: real,
    maxSpeedMps: real)

  datatype Route = Route(distanceM: real, timeMinutes: real)

  datatype DispatchStatus = Dispatched | Completed

  /** The task a dispatch is asked to do; absent keys are None. */
  datatype TaskDetails = TaskDetails(fromLocation: Option<string>, toLocation: Option<string>,
                                     quantity: Option<int>)

  datatype DispatchRecord = DispatchRecord(
    dispatchId: nat,
    agvId: string,
    task: TaskDetails,
    requester: string,
    status: DispatchStatus,
    completionDetails: Option<string>)

  datatype Manager = Manager(
    agvs: Dict<string, Agv>,
    routes: map<string, Route>,
    dispatchLog: seq<DispatchRecord>,
    assignments: Dict<string, nat>)

  const Available := "AVAILABLE"
  const DispatchedStatus := "DISPATCHED"
  const Maintenance := "MAINTENANCE"

  function Init(agvs: Dict<string, Agv>, routes: map<string, Route>): (m: Manager)
    ensures m.dispatchLog == [] && m.assignments.values == map[]
    ensures Valid(agvs) ==> Inv(m)
  {
    Manager(agvs, routes, [], Empty())
  }

  /** Every assignment points at a log record for the same AGV that is
      still DISPATCHED (so no two assignments share a record). */
  ghost predicate Inv(m: Manager) {
    Valid(m.agvs) && Valid(m.assignments)
    && (forall a :: a in m.assignments.values ==>
          m.assignments.values[a] < |m.dispatchLog|
          && m.dispatchLog[m.assignments.values[a]].agvId == a
          && m.dispatchLog[m.assignments.values[a]].status == Dispatched)
  }

  datatype FleetError =
    | AgvNotFound(agvId: string)
    | NotAvailable(agvId: string, status: string)
    | MissingField(field: string)
    | ExceedsCapacity(quantity: int, capacity: int)
    | NoActiveAssignment(agvId: string)
    | RouteNotFound(routeKey: string)
    | NoSuitableAgv
    | DivisionByZero

  datatype AgvInfo = AgvInfo(agvId: string, agv: Agv, isAvailable: bool,
                             currentAssignment: Option<DispatchRecord>)

  /** `get_agv_info` */
  function GetAgvInfo(m: Manager, agvId: string): (r: Result<AgvInfo, FleetError>)
    requires Inv(m)
    ensures r.Failure? <==> agvId !in m.agvs.values
    ensures r.Failure? ==> r.error == AgvNotFound(agvId)
    ensures r.Success? ==>
              r.value.agv == m.agvs.values[agvId]
              && (r.value.isAvailable <==> r.value.agv.status == Available)
              && (r.value.currentAssignment.Some? <==> agvId in m.assignments.values)
  {
    match Get(m.agvs, agvId)
    case None => Failure(AgvNotFound(agvId))
    case Some(agv) =>
      var assignment := match Get(m.assignments, agvId)
                        case None => None
                        case Some(i) => Some(m.dispatchLog[i]);
      Success(AgvInfo(agvId, agv, agv.status == Available, assignment))
  }

  datatype AgvSummary = AgvSummary(agvId: string, agv: Agv)

  /** The filter of `get_available_agvs`. */
  predicate Suitable(agv: Agv, minCapacity: int, agvType: Option<string>) {
    agv.status == Available
    && (minCapacity > 0 ==> agv.capacityPieces >= minCapacity)
    && (agvType.Some? && agvType.value != "" ==> agv.agvType == agvType.value)
  }

  /** Whether the AGV under key `k` passes the filter. */
  function SuitableIn(agvs: Dict<string, Agv>, minCapacity: int, agvType: Option<string>): string -> bool {
    (k: string) => k in agvs.values && Suitable(agvs.values[k], minCapacity, agvType)
  }

  /** One summary per suitable id, in the order of `ids`. */
  function AvailableFrom(agvs: Dict<string, Agv>, ids: seq<string>, minCapacity: int, agvType: Option<string>)
    : (r: seq<AgvSummary>)
    requires forall k :: k in ids ==> k in agvs.values
    ensures var ks := Filter(SuitableIn(agvs, minCapacity, agvType), ids);
            |r| == |ks| && forall i :: 0 <= i < |r| ==> r[i] == AgvSummary(ks[i], agvs.values[ks[i]])
    ensures forall s :: s in r ==>
              s.agvId in ids && s.agv == agvs.values[s.agvId] && Suitable(s.agv, minCapacity, agvType)
    ensures forall k :: k in ids && Suitable(agvs.values[k], minCapacity, agvType) ==>
              AgvSummary(k, agvs.values[k]) in r
  {
    var ks := Filter(SuitableIn(agvs, minCapacity, agvType), ids);
    var r := seq(|ks|, i requires 0 <= i < |ks| => AgvSummary(ks[i], agvs.values[ks[i]]));
    assert forall k :: k in ids && Suitable(agvs.values[k], minCapacity, agvType) ==> AgvSummary(k, agvs.values[k]) in r by {
      forall k | k in ids && Suitable(agvs.values[k], minCapacity, agvType)
        ensures AgvSummary(k, agvs.values[k]) in r
      {
        assert k in ks;
        var i :| 0 <= i < |ks| && ks[i] == k;
        assert r[i] == AgvSummary(k, agvs.values[k]);
      }
    }
    r
  }

  /** `get_available_agvs`: the AVAILABLE AGVs, in table order, with at
      least `minCapacity` pieces when that is positive, and of the given
      type when one is given. */
  function GetAvailableAgvs(m: Manager, minCapacity: int, agvType: Option<string>): (r: seq<AgvSummary>)
    requires Inv(m)
    ensures forall s :: s in r ==>
              s.agvId in m.agvs.values && s.agv == m.agvs.values[s.agvId]
              && s.agv.status == Available
              && (minCapacity > 0 ==> s.agv.capacityPieces >= minCapacity)
              && (agvType.Some? && agvType.value != "" ==> s.agv.agvType == agvType.value)
    ensures forall k :: k in m.agvs.values && Suitable(m.agvs.values[k], minCapacity, agvType) ==>
              AgvSummary(k, m.agvs.values[k]) in r
    ensures var ks := Filter(SuitableIn(m.agvs, minCapacity, agvType), m.agvs.keys);
            |r| == |ks| && forall i :: 0 <= i < |r| ==> r[i] == AgvSummary(ks[i], m.agvs.values[ks[i]])
  {
    AvailableFrom(m.agvs, m.agvs.keys, minCapacity, agvType)
  }

  datatype Scored = Scored(agv: AgvSummary, efficiencyScore: real, capacityUtilization: real)

  function ScoreOf(s: Scored): real {
    s.efficiencyScore
  }

  /** Efficiency: 40% battery fraction, 30% inverse trip cost, 30% share of
      the capacity the load uses. */
  function Efficiency(agv: Agv, quantity: int): real
    requires agv.costPerTrip != 0.0 && agv.capacityPieces != 0
  {
    (agv.batteryLevel as real / 100.0) * 0.4 + (1.0 / agv.costPerTrip) * 0.3
    + (quantity as real / agv.capacityPieces as real) * 0.3
  }

  /** The scoring divides by the trip cost and by the capacity. */
  predicate Scorable(s: AgvSummary) {
    s.agv.costPerTrip != 0.0 && s.agv.capacityPieces != 0
  }

  function ScoreAll(cands: seq<AgvSummary>, quantity: int): (r: seq<Scored>)
    requires forall c :: c in cands ==> c.agv.costPerTrip != 0.0 && c.agv.capacityPieces != 0
    ensures |r| == |cands|
    ensures forall i :: 0 <= i < |r| ==>
              r[i].agv == cands[i] && r[i].efficiencyScore == Efficiency(cands[i].agv, quantity)
  {
    seq(|cands|, i requires 0 <= i < |cands| && (forall c :: c in cands ==> c.agv.costPerTrip != 0.0 && c.agv.capacityPieces != 0) =>
      Scored(cands[i], Efficiency(cands[i].agv, quantity),
             quantity as real / cands[i].agv.capacityPieces as real))
  }

  /** The scored candidates, best first; the head is maximal. */
  function Rank(cands: seq<AgvSummary>, quantity: int): (ranked: seq<Scored>)
    requires |cands| > 0
    requires forall c :: c in cands ==> c.agv.costPerTrip != 0.0 && c.agv.capacityPieces != 0
    ensures 1 <= |ranked| <= 3
    ensures forall a :: a in ranked ==>
              a.agv in cands && a.agv.agv.costPerTrip != 0.0 && a.agv.agv.capacityPieces != 0 && a.efficiencyScore == Efficiency(a.agv.agv, quantity)
    ensures forall c :: c in cands ==> Efficiency(c.agv, quantity) <= ranked[0].efficiencyScore
    ensures forall a :: a in ranked ==> a.efficiencyScore <= ranked[0].efficiencyScore
    ensures |ranked| == if |cands| < 3 then |cands| else 3
    ensures Ranking.Descending(ranked, ScoreOf)
  {
    var scored := ScoreAll(cands, quantity);
    var ranked := Ranking.Top(scored, ScoreOf, 3);
    assert forall a :: a in ranked ==>
             a.agv in cands && a.agv.agv.costPerTrip != 0.0 && a.agv.agv.capacityPieces != 0
             && a.efficiencyScore == Efficiency(a.agv.agv, quantity) by {
      forall a | a in ranked
        ensures a.agv in cands && a.agv.agv.costPerTrip != 0.0 && a.agv.agv.capacityPieces != 0
        ensures a.efficiencyScore == Efficiency(a.agv.agv, quantity)
      {
        var i :| 0 <= i < |scored| && scored[i] == a;
      }
    }
    assert forall c :: c in cands ==> Efficiency(c.agv, quantity) <= ranked[0].efficiencyScore by {
      forall c | c in cands
        ensures Efficiency(c.agv, quantity) <= ranked[0].efficiencyScore
      {
        var i :| 0 <= i < |cands| && cands[i] == c;
        assert scored[i] in scored;
      }
    }
    ranked
  }

  datatype Recommendation = Recommendation(optimal: Scored, alternatives: seq<Scored>, route: Route)

  /** `find_optimal_agv`: the route `from|to` must exist and some AVAILABLE
      AGV must carry the load; the AGVs are ranked by efficiency, best
      first, keeping table order among equals. A zero trip cost or
      capacity makes the scoring raise, which the source reports as an
      error. */
  function FindOptimalAgv(m: Manager, quantity: int, fromLocation: string, toLocation: string)
    : (r: Result<Recommendation, FleetError>)
    requires Inv(m)
    ensures fromLocation + "|" + toLocation !in m.routes ==>
              r == Failure(RouteNotFound(fromLocation + "|" + toLocation))
    ensures fromLocation + "|" + toLocation in m.routes && GetAvailableAgvs(m, quantity, None) == [] ==>
              r == Failure(NoSuitableAgv)
    ensures r.Success? ==>
              var cands := GetAvailableAgvs(m, quantity, None);
              r.value.route == m.routes[fromLocation + "|" + toLocation]
              && r.value.optimal.agv in cands
              && r.value.optimal.agv.agv.status == Available
              && (quantity > 0 ==> r.value.optimal.agv.agv.capacityPieces >= quantity)
              && r.value.optimal.agv.agv.costPerTrip != 0.0 && r.value.optimal.agv.agv.capacityPieces != 0
              && r.value.optimal.efficiencyScore == Efficiency(r.value.optimal.agv.agv, quantity)
              && (forall c :: c in cands ==>
                    c.agv.costPerTrip != 0.0 && c.agv.capacityPieces != 0
                    && Efficiency(c.agv, quantity) <= r.value.optimal.efficiencyScore)
              && |r.value.alternatives| <= 2
              && (forall a :: a in r.value.alternatives ==>
                    a.agv in cands && a.efficiencyScore <= r.value.optimal.efficiencyScore)
    ensures var cands := GetAvailableAgvs(m, quantity, None);
            r.Success? <==> fromLocation + "|" + toLocation in m.routes && cands != []
                            && forall c :: c in cands ==> Scorable(c)
    ensures var cands := GetAvailableAgvs(m, quantity, None);
            (fromLocation + "|" + toLocation in m.routes && cands != [] && exists c :: c in cands && !Scorable(c))
              ==> r == Failure(DivisionByZero)
    ensures r.Success? ==>
              var cands := GetAvailableAgvs(m, quantity, None);
              [r.value.optimal] + r.value.alternatives == Rank(cands, quantity)
              && |r.value.alternatives| == (if |cands| < 3 then |cands| - 1 else 2)
              && Ranking.Descending([r.value.optimal] + r.value.alternatives, ScoreOf)
  {
    var key := fromLocation + "|" + toLocation;
    if key !in m.routes then Failure(RouteNotFound(key))
    else
      var cands := GetAvailableAgvs(m, quantity, None);
      if cands == [] then Failure(NoSuitableAgv)
      else if exists c :: c in cands && !Scorable(c) then Failure(DivisionByZero)
      else
        var ranked := Rank(cands, quantity);
        assert forall a :: a in ranked[1..] ==> a in ranked;
        assert [ranked[0]] + ranked[1..] == ranked;
        Success(Recommendation(ranked[0], ranked[1..], m.routes[key]))
  }

  datatype Dispatch = Dispatch(dispatchId: nat, agvId: string, estimatedCost: real, task: TaskDetails)

  /** `dispatch_agv`: errors, in order, for an unknown AGV, one that is not
      AVAILABLE, a missing from/to/quantity, and a load above capacity.
      Otherwise the AGV becomes DISPATCHED at the pick-up location and a
      record numbered one past the log length is logged and assigned. */
  function DispatchAgv(m: Manager, agvId: string, task: TaskDetails, requester: string)
    : (out: (Result<Dispatch, FleetError>, Manager))
    requires Inv(m)
    ensures Inv(out.1)
    ensures out.0.Failure? ==> out.1 == m
    ensures agvId !in m.agvs.values ==> out.0 == Failure(AgvNotFound(agvId))
    ensures agvId in m.agvs.values ==>
              var agv := m.agvs.values[agvId];
              (agv.status != Available ==> out.0 == Failure(NotAvailable(agvId, agv.status)))
              && (agv.status == Available && task.fromLocation.None? ==>
                    out.0 == Failure(MissingField("from_location")))
              && (agv.status == Available && task.fromLocation.Some? && task.toLocation.None? ==>
                    out.0 == Failure(MissingField("to_location")))
              && ((agv.status == Available && task.fromLocation.Some? && task.toLocation.Some?
                   && task.quantity.None?) ==> out.0 == Failure(MissingField("quantity")))
              && ((agv.status == Available && task.fromLocation.Some? && task.toLocation.Some?
                   && task.quantity.Some?) ==>
                    (out.0.Success? <==> task.quantity.value <= agv.capacityPieces))
    ensures out.0.Success? ==>
              agvId in m.agvs.values && task.fromLocation.Some? &&
              var agv := m.agvs.values[agvId];
              out.1.agvs.values == m.agvs.values[agvId := agv.(status := DispatchedStatus,
                                                               currentLocation := task.fromLocation.value)]
              && out.1.agvs.keys == m.agvs.keys
              && out.1.dispatchLog == m.dispatchLog + [DispatchRecord(|m.dispatchLog| + 1, agvId, task,
                                                                       requester, Dispatched, None)]
              && out.1.assignments.values == m.assignments.values[agvId := |m.dispatchLog|]
              && out.0.value.dispatchId == |m.dispatchLog| + 1
              && out.0.value.estimatedCost == agv.costPerTrip
  {
    var info := GetAgvInfo(m, agvId);
    if info.Failure? then (Failure(info.error), m)
    else if !info.value.isAvailable then (Failure(NotAvailable(agvId, info.value.agv.status)), m)
    else if task.fromLocation.None? then (Failure(MissingField("from_location")), m)
    else if task.toLocation.None? then (Failure(MissingField("to_location")), m)
    else if task.quantity.None? then (Failure(MissingField("quantity")), m)
    else if task.quantity.value > info.value.agv.capacityPieces then
      (Failure(ExceedsCapacity(task.quantity.value, info.value.agv.capacityPieces)), m)
    else
      var agv := info.value.agv;
      var rec := DispatchRecord(|m.dispatchLog| + 1, agvId, task, requester, Dispatched, None);
      var m' := Manager(Put(m.agvs, agvId, agv.(status := DispatchedStatus,
                                               currentLocation := task.fromLocation.value)),
                        m.routes, m.dispatchLog + [rec], Put(m.assignments, agvId, |m.dispatchLog|));
      assert forall a :: a in m.assignments.values ==> m'.dispatchLog[m.assignments.values[a]] == m.dispatchLog[m.assignments.values[a]];
      (Success(Dispatch(rec.dispatchId, agvId, agv.costPerTrip, task)), m')
  }

  datatype Completion = Completion(agvId: string, dispatchId: nat)

  /** `complete_task`: fails without an active assignment; otherwise the
      AGV is AVAILABLE again, its log record is marked COMPLETED (with the
      details when given) and the assignment is dropped. */
  function CompleteTask(m: Manager, agvId: string, details: Option<string>)
    : (out: (Result<Completion, FleetError>, Manager))
    requires Inv(m)
    ensures Inv(out.1)
    ensures out.0.Failure? <==> agvId !in m.assignments.values
    ensures out.0.Failure? ==> out.1 == m && out.0.error == NoActiveAssignment(agvId)
    ensures out.0.Success? ==>
              var i := m.assignments.values[agvId];
              out.0.value.dispatchId == m.dispatchLog[i].dispatchId
              && agvId in out.1.agvs.values && out.1.agvs.values[agvId].status == Available
              && |out.1.dispatchLog| == |m.dispatchLog|
              && out.1.dispatchLog[i].status == Completed
              && (forall j :: 0 <= j < |m.dispatchLog| && j != i ==> out.1.dispatchLog[j] == m.dispatchLog[j])
              && out.1.assignments.values == m.assignments.values - {agvId}
    ensures out.0.Success? ==>
              var i := m.assignments.values[agvId];
              out.1.routes == m.routes
              && (forall a :: a in m.agvs.values && a != agvId ==>
                    a in out.1.agvs.values && out.1.agvs.values[a] == m.agvs.values[a])
              && (agvId in m.agvs.values ==>
                    out.1.agvs.keys == m.agvs.keys
                    && out.1.agvs.values[agvId] == m.agvs.values[agvId].(status := Available))
              && out.1.dispatchLog[i].dispatchId == m.dispatchLog[i].dispatchId
              && out.1.dispatchLog[i].agvId == m.dispatchLog[i].agvId
              && out.1.dispatchLog[i].task == m.dispatchLog[i].task
              && out.1.dispatchLog[i].requester == m.dispatchLog[i].requester
              && (details.Some? && details.value != "" ==> out.1.dispatchLog[i].completionDetails == details)
              && (details.None? || details.value == "" ==>
                    out.1.dispatchLog[i].completionDetails == m.dispatchLog[i].completionDetails)
  {
    match Get(m.assignments, agvId)
    case None => (Failure(NoActiveAssignment(agvId)), m)
    case Some(i) =>
      var rec := m.dispatchLog[i];
      var rec' := rec.(status := Completed,
                       completionDetails := if details.Some? && details.value != "" then details
                                            else rec.completionDetails);
      // Setting a column of a missing row through `.loc` adds the row; its
      // other columns are left as placeholders here.
      var agvs' := match Get(m.agvs, agvId)
                   case Some(agv) => Put(m.agvs, agvId, agv.(status := Available))
                   case None => Put(m.agvs, agvId, Agv("", 0, "", Available, 0, 0.0, 0.0));
      (Success(Completion(agvId, rec.dispatchId)),
       Manager(agvs', m.routes, m.dispatchLog[i := rec'], Remove(m.assignments, agvId)))
  }

  function CompletedCount(log: seq<DispatchRecord>): nat {
    Count((r: DispatchRecord) => r.status == Completed, log)
  }

  datatype FleetStatus = FleetStatus(
    totalAgvs: nat,
    availableAgvs: nat,
    dispatchedAgvs: nat,
    maintenanceAgvs: nat,
    averageBatteryLevel: Option<real>,
    totalCapacity: int,
    activeDispatches: nat,
    totalCompletedTasks: nat)

  function CapacitySum(agvs: seq<Agv>): int {
    if |agvs| == 0 then 0 else agvs[0].capacityPieces + CapacitySum(agvs[1..])
  }

  function BatterySum(agvs: seq<Agv>): int {
    if |agvs| == 0 then 0 else agvs[0].batteryLevel + BatterySum(agvs[1..])
  }

  /** The mean battery level; none for an empty fleet. */
  function AverageBattery(agvs: seq<Agv>): (r: Option<real>)
    ensures r.Some? <==> |agvs| > 0
    ensures r.Some? ==> r.value * (|agvs| as real) == BatterySum(agvs) as real
  {
    if |agvs| == 0 then None else Some(BatterySum(agvs) as real / |agvs| as real)
  }

  /** Whether an AGV is in the status. */
  function InStatus(status: string): Agv -> bool {
    (a: Agv) => a.status == status
  }

  function StatusCount(agvs: seq<Agv>, status: string): (n: nat)
    ensures n <= |agvs|
    ensures n == |Filter(InStatus(status), agvs)|
  {
    CountIsFilterLength(InStatus(status), agvs);
    Count(InStatus(status), agvs)
  }

  /** With no capacity or type filter, the AGVs `get_available_agvs` lists
      are as many as the AVAILABLE ones among `vs`, the records of `ids`. */
  lemma {:induction false} AvailableCount(agvs: Dict<string, Agv>, ids: seq<string>, vs: seq<Agv>)
    requires forall k :: k in ids ==> k in agvs.values
    requires |vs| == |ids| && forall i :: 0 <= i < |ids| ==> vs[i] == agvs.values[ids[i]]
    ensures |AvailableFrom(agvs, ids, 0, None)| == StatusCount(vs, Available)
  {
    AvailableFilterCount(agvs, ids, vs);
  }

  lemma {:induction false} AvailableFilterCount(agvs: Dict<string, Agv>, ids: seq<string>, vs: seq<Agv>)
    requires forall k :: k in ids ==> k in agvs.values
    requires |vs| == |ids| && forall i :: 0 <= i < |ids| ==> vs[i] == agvs.values[ids[i]]
    ensures |Filter(SuitableIn(agvs, 0, None), ids)| == Count(InStatus(Available), vs)
    decreases |ids|
  {
    if |ids| > 0 {
      AvailableFilterCount(agvs, ids[1..], vs[1..]);
    }
  }

  /** `get_fleet_status`: the status counts, the mean battery level (absent
      for an empty fleet, where the source's mean is not a number), the
      summed capacity and the assignment and completion counts. */
  function GetFleetStatus(m: Manager): (r: FleetStatus)
    requires Inv(m)
    ensures r.totalAgvs == |m.agvs.keys|
    ensures r.availableAgvs == |GetAvailableAgvs(m, 0, None)|
    ensures r.availableAgvs == |Filter(InStatus(Available), Values(m.agvs))|
    ensures r.dispatchedAgvs == |Filter(InStatus(DispatchedStatus), Values(m.agvs))|
    ensures r.maintenanceAgvs == |Filter(InStatus(Maintenance), Values(m.agvs))|
    ensures r.totalCapacity == CapacitySum(Values(m.agvs))
    ensures r.averageBatteryLevel.Some? <==> r.totalAgvs > 0
    ensures r.averageBatteryLevel == AverageBattery(Values(m.agvs))
    ensures r.availableAgvs + r.dispatchedAgvs + r.maintenanceAgvs <= r.totalAgvs
    ensures r.activeDispatches == |m.assignments.keys|
    ensures r.totalCompletedTasks == CompletedCount(m.dispatchLog)
  {
    var agvs := Values(m.agvs);
    var avail := StatusCount(agvs, Available);
    var disp := StatusCount(agvs, DispatchedStatus);
    var maint := StatusCount(agvs, Maintenance);
    StatusesDisjoint(agvs);
    AvailableCount(m.agvs, m.agvs.keys, agvs);
    var average := AverageBattery(agvs);
    FleetStatus(|agvs|, avail, disp, maint, average, CapacitySum(agvs), |m.assignments.keys|,
                CompletedCount(m.dispatchLog))
  }

  /** Counts of three different statuses never exceed the fleet size. */
  lemma {:induction false} StatusesDisjoint(agvs: seq<Agv>)
    ensures StatusCount(agvs, Available) + StatusCount(agvs, DispatchedStatus)
            + StatusCount(agvs, Maintenance) <= |agvs|
    decreases |agvs|
  {
    if |agvs| > 0 {
      StatusesDisjoint(agvs[1..]);
    }
  }

  /** `get_route_info`: the route stored under `from|to`, with its key. */
  function GetRouteInfo(m: Manager, fromLocation: string, toLocation: string)
    : (r: Result<(string, Route), FleetError>)
    ensures r.Failure? <==> fromLocation + "|" + toLocation !in m.routes
    ensures r.Failure? ==> r.error == RouteNotFound(fromLocation + "|" + toLocation)
    ensures r.Success? ==> r.value.0 == fromLocation + "|" + toLocation && r.value.1 == m.routes[r.value.0]
  {
    var key := fromLocation + "|" + toLocation;
    if key in m.routes then Success((key, m.routes[key])) else Failure(RouteNotFound(key))
  }

  /** The route a recommendation carries is the one `get_route_info`
      reports, and a recommendation never names a route it does not know. */
  lemma RecommendationUsesRouteInfo(m: Manager, quantity: int, fromLocation: string, toLocation: string)
    requires Inv(m)
    ensures var info := GetRouteInfo(m, fromLocation, toLocation);
            var rec := FindOptimalAgv(m, quantity, fromLocation, toLocation);
            (info.Failure? ==> rec == Failure(info.error))
            && (rec.Success? ==> info.Success? && rec.value.route == info.value.1)
  {
  }

  /** Whether a dispatch record belongs to the AGV. */
  function ForAgv(agvId: string): DispatchRecord -> bool {
    (r: DispatchRecord) => r.agvId == agvId
  }

  /** `get_dispatch_history`: one AGV's records in log order, or the whole
      log. */
  function GetDispatchHistory(m: Manager, agvId: Option<string>): (rs: seq<DispatchRecord>)
    ensures agvId.None? || agvId.value == "" ==> rs == m.dispatchLog
    ensures agvId.Some? && agvId.value != "" ==>
              forall r :: r in rs <==> r in m.dispatchLog && r.agvId == agvId.value
    ensures agvId.Some? && agvId.value != "" ==> rs == Filter(ForAgv(agvId.value), m.dispatchLog)
  {
    if agvId.None? || agvId.value == "" then m.dispatchLog
    else Filter(ForAgv(agvId.value), m.dispatchLog)
  }

  /** Completing a task raises the completed-task count by exactly one. */
  lemma CompleteCountsOne(m: Manager, agvId: string, details: Option<string>)
    requires Inv(m) && agvId in m.assignments.values
    ensures CompletedCount(CompleteTask(m, agvId, details).1.dispatchLog) == CompletedCount(m.dispatchLog) + 1
  {
    var i := m.assignments.values[agvId];
    var m' := CompleteTask(m, agvId, details).1;
    assert m'.dispatchLog == m.dispatchLog[i := m'.dispatchLog[i]];
    CountUpdate((r: DispatchRecord) => r.status == Completed, m.dispatchLog, i, m'.dispatchLog[i]);
  }

  /** Dispatching an AVAILABLE AGV and completing its task makes it
      AVAILABLE again with no assignment, and leaves exactly one more
      record, COMPLETED, in the log. */
  lemma DispatchThenComplete(m: Manager, agvId: string, task: TaskDetails, requester: string,
                             details: Option<string>)
    requires Inv(m) && agvId !in m.assignments.values
    requires DispatchAgv(m, agvId, task, requester).0.Success?
    ensures var m1 := DispatchAgv(m, agvId, task, requester).1;
            var out := CompleteTask(m1, agvId, details);
            out.0.Success?
            && out.1.agvs.values[agvId].status == Available
            && out.1.assignments.values == m.assignments.values
            && |out.1.dispatchLog| == |m.dispatchLog| + 1
            && out.1.dispatchLog[|m.dispatchLog|].status == Completed
            && out.1.dispatchLog[..|m.dispatchLog|] == m.dispatchLog
            && CompletedCount(out.1.dispatchLog) == CompletedCount(m.dispatchLog) + 1
  {
    var m1 := DispatchAgv(m, agvId, task, requester).1;
    CompleteAfterDispatch(m, m1, agvId, m1.dispatchLog[|m.dispatchLog|], details);
  }

  /** The completion half: `m1` is `m` with one DISPATCHED record appended
      and the AGV assigned to it. */
  lemma CompleteAfterDispatch(m: Manager, m1: Manager, agvId: string, rec: DispatchRecord,
                              details: Option<string>)
    requires Inv(m) && Inv(m1) && agvId !in m.assignments.values
    requires m1.dispatchLog == m.dispatchLog + [rec]
    requires m1.assignments.values == m.assignments.values[agvId := |m.dispatchLog|]
    ensures var out := CompleteTask(m1, agvId, details);
            out.0.Success?
            && out.1.agvs.values[agvId].status == Available
            && out.1.assignments.values == m.assignments.values
            && |out.1.dispatchLog| == |m.dispatchLog| + 1
            && out.1.dispatchLog[|m.dispatchLog|].status == Completed
            && out.1.dispatchLog[..|m.dispatchLog|] == m.dispatchLog
            && CompletedCount(out.1.dispatchLog) == CompletedCount(m.dispatchLog) + 1
  {
    var out := CompleteTask(m1, agvId, details);
    assert m.assignments.values[agvId := |m.dispatchLog|] - {agvId} == m.assignments.values;
    assert out.1.dispatchLog[..|m.dispatchLog|] == m.dispatchLog;
    CompleteCountsOne(m1, agvId, details);
    CountConcat((r: DispatchRecord) => r.status == Completed, m.dispatchLog, [rec]);
  }
}

=== FILE: fleet_service.dfy ===
/** The fleet service (src/logistics_system/core/fleet_service.py): AGV
    records loaded from the configuration, selection of the available AGV
    with the best battery, scheduling, availability counts and the lookup
    of a delivery by the task an AGV carries.

    Python's `hash` of a string is randomised per process; it enters the
    model as a function parameter, so the tie-break among equal batteries
    is whatever that function makes it. */
module FleetService {
  import opened Wrappers
  import opened Text
  import opened Seqs
  import opened OrderedMap
  import Ranking

  datatype Vehicle = Vehicle(
    agvType: string,
    capacityKg: real,
    batteryLevel: int,
    currentLocation: string,
    status: string,
    maxSpeedMps: real,
    chargingTimeMinutes: int,
    maintenanceDue: bool,
    costPerTrip: real,
    currentTask: Option<string>)

  type Fleet = Dict<string, Vehicle>

  /** One `agv_fleet` entry of the configuration; absent keys are `None`. */
  datatype ConfigEntry = ConfigEntry(
    agvType: Option<string>,
    capacityPieces: Option<real>,
    batteryLevel: Option<int>,
    currentLocation: Option<string>,
    status: Option<string>,
    maxSpeedMps: Option<real>,
    chargingTimeMinutes: Option<int>,
    maintenanceDue: Option<bool>,
    costPerTrip: Option<real>)

  /** One AGV record with the loader's defaults; the status is lowercased. */
  function LoadVehicle(e: ConfigEntry): (v: Vehicle)
    ensures v.status == Lower(e.status.GetOr("AVAILABLE"))
    ensures v.capacityKg == e.capacityPieces.GetOr(100.0)
    ensures v.batteryLevel == e.batteryLevel.GetOr(100)
    ensures v.currentTask.None?
  {
    Vehicle(e.agvType.GetOr("Standard AGV"), e.capacityPieces.GetOr(100.0), e.batteryLevel.GetOr(100),
            e.currentLocation.GetOr("Dock-01"), Lower(e.status.GetOr("AVAILABLE")),
            e.maxSpeedMps.GetOr(2.0), e.chargingTimeMinutes.GetOr(60), e.maintenanceDue.GetOr(false),
            e.costPerTrip.GetOr(5.0), None)
  }

  function LoadEntries(entries: seq<(string, ConfigEntry)>): (f: Fleet)
    ensures Valid(f)
    ensures forall i :: 0 <= i < |entries| ==> entries[i].0 in f.values
    ensures forall k :: k in f.values ==> exists i :: 0 <= i < |entries| && entries[i].0 == k
                                                      && f.values[k] == LoadVehicle(entries[i].1)
  {
    var pairs := seq(|entries|, i requires 0 <= i < |entries| => (entries[i].0, LoadVehicle(entries[i].1)));
    var f := FromPairs(pairs);
    assert forall i :: 0 <= i < |entries| ==> pairs[i].0 == entries[i].0;
    assert forall k :: k in f.values ==> exists i :: 0 <= i < |entries| && entries[i].0 == k
                                                     && f.values[k] == LoadVehicle(entries[i].1) by {
      forall k | k in f.values
        ensures exists i :: 0 <= i < |entries| && entries[i].0 == k && f.values[k] == LoadVehicle(entries[i].1)
      {
        var i :| 0 <= i < |pairs| && pairs[i] == (k, f.values[k]);
        assert entries[i].0 == k && f.values[k] == LoadVehicle(entries[i].1);
      }
    }
    f
  }

  /** The single AGV used when the configuration cannot be read. */
  const FallbackVehicle := Vehicle("Heavy Duty AGV", 500.0, 85, "Warehouse-Central", "available", 2.5, 45,
                                   false, 5.0, None)

  /** `_load_fleet_configuration`: `None` is a configuration that failed to load. */
  function LoadFleet(config: Option<seq<(string, ConfigEntry)>>): (f: Fleet)
    ensures Valid(f)
    ensures config.None? ==> f.keys == ["AGV-001"] && f.values == map["AGV-001" := FallbackVehicle]
    ensures config.Some? ==>
              forall k :: k in f.values ==> exists e :: f.values[k] == LoadVehicle(e)
    ensures config.Some? ==> f == LoadEntries(config.value)
    ensures config.Some? ==>
              forall k :: k in f.values <==> exists i :: 0 <= i < |config.value| && config.value[i].0 == k
  {
    match config
    case None => Put(Empty(), "AGV-001", FallbackVehicle)
    case Some(entries) => LoadEntries(entries)
  }

  /** Every loaded status is lower case, so a configured "AVAILABLE"
      matches the service's "available". */
  lemma LoadedStatusLower(e: ConfigEntry)
    ensures Lower(LoadVehicle(e).status) == LoadVehicle(e).status
    ensures e.status == Some("AVAILABLE") ==> LoadVehicle(e).status == "available"
  {
    var s := LoadVehicle(e).status;
    assert Lower(s) == s;
  }

  /** The candidates: "available" with room for the weight. */
  predicate Candidate(v: Vehicle, weight: real) {
    v.status == "available" && v.capacityKg >= weight
  }

  /** The selection key (battery, -(|hash(location) % 100|)) as one number;
      the second part lies in [-99, 0], so battery dominates. */
  function SelectionKey(v: Vehicle, hash: string -> int): real {
    (v.batteryLevel * 100 - hash(v.currentLocation) % 100) as real
  }

  lemma {:induction false} KeyOrdersBattery(a: Vehicle, b: Vehicle, hash: string -> int)
    requires SelectionKey(a, hash) <= SelectionKey(b, hash)
    ensures a.batteryLevel <= b.batteryLevel
  {
    var ha := hash(a.currentLocation) % 100;
    var hb := hash(b.currentLocation) % 100;
    assert 0 <= ha < 100 && 0 <= hb < 100;
    assert a.batteryLevel * 100 - ha <= b.batteryLevel * 100 - hb;
  }

  datatype Selection = Selection(selected: string, availableOptions: nat)

  /** `find_optimal_agv_with_ai` without the language-model text, which does
      not affect the choice: the candidate with the greatest key. */
  function FindOptimalAgv(f: Fleet, weight: real, hash: string -> int): (r: Option<Selection>)
    requires Valid(f)
    ensures r.None? <==> forall k :: k in f.values ==> !Candidate(f.values[k], weight)
    ensures r.Some? ==>
              r.value.selected in f.values && Candidate(f.values[r.value.selected], weight)
              && r.value.availableOptions >= 1
              && forall k :: k in f.values && Candidate(f.values[k], weight) ==>
                   f.values[k].batteryLevel <= f.values[r.value.selected].batteryLevel
  {
    var cands := Filter((k: string) => k in f.values && Candidate(f.values[k], weight), f.keys);
    if cands == [] then None
    else
      var key := (k: string) => if k in f.values then SelectionKey(f.values[k], hash) else 0.0;
      var i := Ranking.FirstMax(cands, key);
      var best := cands[i];
      assert forall k :: k in f.values && Candidate(f.values[k], weight) ==>
               f.values[k].batteryLevel <= f.values[best].batteryLevel by {
        forall k | k in f.values && Candidate(f.values[k], weight)
          ensures f.values[k].batteryLevel <= f.values[best].batteryLevel
        {
          assert k in cands;
          var j :| 0 <= j < |cands| && cands[j] == k;
          KeyOrdersBattery(f.values[k], f.values[best], hash);
        }
      }
      Some(Selection(best, |cands|))
  }

  /** The two options offered when scheduling fails. */
  const AlternativeDeliveryOptions := ["delayed_delivery", "manual_transport"]

  datatype Schedule =
    | Scheduled(deliveryId: string, agvId: string)
    | NotScheduled(alternatives: seq<string>)

  /** `schedule_delivery` (status update only); `stamp` is the clock text of
      the delivery id. */
  function ScheduleDelivery(f: Fleet, weight: real, hash: string -> int, stamp: string)
    : (out: (Schedule, Fleet))
    requires Valid(f)
    ensures Valid(out.1)
    ensures out.0.NotScheduled? <==> FindOptimalAgv(f, weight, hash).None?
    ensures out.0.NotScheduled? ==> out.0.alternatives == AlternativeDeliveryOptions && out.1 == f
    ensures out.0.Scheduled? ==>
              out.0.agvId == FindOptimalAgv(f, weight, hash).value.selected
              && out.0.deliveryId == "DEL-" + stamp + "-" + out.0.agvId
              && out.1.keys == f.keys
              && out.1.values[out.0.agvId].status == "assigned"
              && out.1.values[out.0.agvId].currentTask == Some(out.0.deliveryId)
              && forall k :: k in f.values && k != out.0.agvId ==> out.1.values[k] == f.values[k]
  {
    match FindOptimalAgv(f, weight, hash)
    case None => (NotScheduled(AlternativeDeliveryOptions), f)
    case Some(sel) =>
      var id := "DEL-" + stamp + "-" + sel.selected;
      var v := f.values[sel.selected];
      (Scheduled(id, sel.selected), Put(f, sel.selected, v.(status := "assigned", currentTask := Some(id))))
  }

  /** A scheduled AGV leaves the candidate pool. */
  lemma ScheduledAgvNoLongerCandidate(f: Fleet, weight: real, hash: string -> int, stamp: string,
                                      weight2: real)
    requires Valid(f)
    ensures var (s, f') := ScheduleDelivery(f, weight, hash, stamp);
            s.Scheduled? ==> !Candidate(f'.values[s.agvId], weight2)
  {
  }

  datatype FleetAvailability = FleetAvailability(
    totalAgvs: nat,
    available: nat,
    busy: nat,
    charging: nat,
    maintenance: nat,
    totalCapacityKg: real,
    availableCapacityKg: real,
    utilizationPercent: real)

  predicate IsAvailable(v: Vehicle) { v.status == "available" }
  predicate IsBusy(v: Vehicle) { v.status == "assigned" || v.status == "busy" }
  predicate IsCharging(v: Vehicle) { v.status == "charging" }
  predicate IsMaintenanceDue(v: Vehicle) { v.maintenanceDue }

  predicate AnyVehicle(v: Vehicle) { true }

  /** Total capacity of the vehicles that satisfy `p`. */
  function CapacityOf(vs: seq<Vehicle>, p: Vehicle -> bool): real
    decreases |vs|
  {
    if |vs| == 0 then 0.0
    else (if p(vs[0]) then vs[0].capacityKg else 0.0) + CapacityOf(vs[1..], p)
  }

  /** The capacity of the whole fleet splits into that of the vehicles
      meeting `p` and that of the others. */
  lemma {:induction false} CapacitySplits(vs: seq<Vehicle>, p: Vehicle -> bool)
    ensures CapacityOf(vs, AnyVehicle) == CapacityOf(vs, p) + CapacityOf(vs, (v: Vehicle) => !p(v))
    decreases |vs|
  {
    if |vs| > 0 {
      CapacitySplits(vs[1..], p);
    }
  }

  lemma {:induction false} CapacityNonNegative(vs: seq<Vehicle>)
    requires forall i :: 0 <= i < |vs| ==> vs[i].capacityKg >= 0.0
    ensures forall p :: CapacityOf(vs, p) >= 0.0
    decreases |vs|
  {
    if |vs| > 0 {
      CapacityNonNegative(vs[1..]);
    }
  }

  /** Utilisation is the busy share of the fleet in percent, 0 for an
      empty fleet; rounding to one decimal is not modelled. */
  function Utilization(total: nat, available: nat): (u: real)
    requires available <= total
    ensures 0.0 <= u <= 100.0
    ensures u == 0.0 <==> total == 0 || available == total
    ensures total > 0 && available == 0 ==> u == 100.0
  {
    if total > 0 then (1.0 - available as real / total as real) * 100.0 else 0.0
  }

  lemma {:induction false} AvailableBusyChargingDisjoint(vs: seq<Vehicle>)
    ensures Count(IsAvailable, vs) + Count(IsBusy, vs) + Count(IsCharging, vs) <= |vs|
    decreases |vs|
  {
    if |vs| > 0 {
      AvailableBusyChargingDisjoint(vs[1..]);
    }
  }

  /** `get_fleet_availability` (counts and capacities). The maintenance
      count comes from a separate flag and may overlap the others. */
  function GetFleetAvailability(f: Fleet): (r: FleetAvailability)
    requires Valid(f)
    ensures r.totalAgvs == |f.keys|
    ensures r.available == Count(IsAvailable, Values(f)) && r.busy == Count(IsBusy, Values(f))
    ensures r.available + r.busy + r.charging <= r.totalAgvs
    ensures r.maintenance <= r.totalAgvs
    ensures r.charging == Count(IsCharging, Values(f)) && r.maintenance == Count(IsMaintenanceDue, Values(f))
    ensures r.totalCapacityKg == CapacityOf(Values(f), AnyVehicle)
    ensures r.availableCapacityKg == CapacityOf(Values(f), IsAvailable)
    ensures r.available <= r.totalAgvs && r.utilizationPercent == Utilization(r.totalAgvs, r.available)
    ensures r.utilizationPercent == 0.0 <==> r.available == r.totalAgvs
  {
    var vs := Values(f);
    AvailableBusyChargingDisjoint(vs);
    var avail := Count(IsAvailable, vs);
    FleetAvailability(|vs|, avail, Count(IsBusy, vs), Count(IsCharging, vs), Count(IsMaintenanceDue, vs),
                      CapacityOf(vs, AnyVehicle), CapacityOf(vs, IsAvailable),
                      Utilization(|vs|, avail))
  }

  /** With no negative capacity configured, the available capacity never
      exceeds the fleet's total. */
  lemma AvailableCapacityWithinTotal(f: Fleet)
    requires Valid(f)
    requires forall k :: k in f.values ==> f.values[k].capacityKg >= 0.0
    ensures GetFleetAvailability(f).availableCapacityKg <= GetFleetAvailability(f).totalCapacityKg
  {
    var vs := Values(f);
    var r := GetFleetAvailability(f);
    forall i | 0 <= i < |vs| ensures vs[i].capacityKg >= 0.0 {
      assert f.keys[i] in f.values;
    }
    CapacitySplits(vs, IsAvailable);
    CapacityNonNegative(vs);
    assert r.totalCapacityKg == CapacityOf(vs, AnyVehicle) && r.availableCapacityKg == CapacityOf(vs, IsAvailable);
  }

  /** The first AGV, in fleet order, whose current task is the delivery. */
  function AssignedTo(f: Fleet, deliveryId: string): (r: Option<string>)
    requires Valid(f)
    ensures r.None? <==> forall k :: k in f.values ==> f.values[k].currentTask != Some(deliveryId)
    ensures r.Some? ==> r.value in f.values && f.values[r.value].currentTask == Some(deliveryId)
  {
    match FirstIndex((k: string) => k in f.values && f.values[k].currentTask == Some(deliveryId), f.keys)
    case None =>
      assert forall k :: k in f.values ==> exists j :: 0 <= j < |f.keys| && f.keys[j] == k;
      None
    case Some(i) => Some(f.keys[i])
  }

  datatype DeliveryPhase = PickupInProgress | PickupComplete | InTransit | DeliveryInProgress | PhaseScheduled

  /** The simulated progress: `min(90, hash(id) % 100)`. */
  function Progress(deliveryIdHash: int): (p: int)
    ensures 0 <= p <= 90
  {
    var h := deliveryIdHash % 100;
    if h < 90 then h else 90
  }

  /** The phase for a progress value, first matching band of 25. */
  function PhaseOf(progress: int): (ph: DeliveryPhase)
    ensures ph == PhaseScheduled <==> progress < 0 || progress >= 100
    ensures ph == PickupInProgress <==> 0 <= progress < 25
    ensures ph == DeliveryInProgress <==> 75 <= progress < 100
  {
    if 0 <= progress < 25 then PickupInProgress
    else if 25 <= progress < 50 then PickupComplete
    else if 50 <= progress < 75 then InTransit
    else if 75 <= progress < 100 then DeliveryInProgress
    else PhaseScheduled
  }

  datatype DeliveryStatus = DeliveryStatus(agvId: string, progressPercent: int, phase: DeliveryPhase)

  /** `get_delivery_status`: unknown deliveries fail; the hash of the id is
      an input. */
  function GetDeliveryStatus(f: Fleet, deliveryId: string, deliveryIdHash: int): (r: Option<DeliveryStatus>)
    requires Valid(f)
    ensures r.None? <==> forall k :: k in f.values ==> f.values[k].currentTask != Some(deliveryId)
    ensures r.Some? ==> r.value.agvId in f.values
                        && f.values[r.value.agvId].currentTask == Some(deliveryId)
                        && r.value.phase == PhaseOf(r.value.progressPercent)
  {
    match AssignedTo(f, deliveryId)
    case None => None
    case Some(k) =>
      var p := Progress(deliveryIdHash);
      Some(DeliveryStatus(k, p, PhaseOf(p)))
  }

  /** Since progress is capped at 90, the "scheduled" fallback phase is
      never reported. */
  lemma NeverReportsScheduled(f: Fleet, deliveryId: string, deliveryIdHash: int)
    requires Valid(f)
    ensures var r := GetDeliveryStatus(f, deliveryId, deliveryIdHash);
            r.Some? ==> r.value.phase != PhaseScheduled
  {
  }

  /** A delivery just scheduled can be looked up by its id. */
  lemma ScheduledDeliveryIsFound(f: Fleet, weight: real, hash: string -> int, stamp: string, h: int)
    requires Valid(f)
    ensures var (s, f') := ScheduleDelivery(f, weight, hash, stamp);
            s.Scheduled? ==> GetDeliveryStatus(f', s.deliveryId, h).Some?
  {
  }
}

=== FILE: hooks.dfy ===
/** The orchestrator's progress hook (orchestrator_hooks.py): the text
    cleaning used for display, the phase tracking done around tool calls,
    the part-name extraction from tool inputs and the UI message record.
    The hook runs in raw mode and captures every agent, so each tool call
    produces its raw message. Message texts other than the phase titles,
    timings, the UI queue and the tracing calls are not modelled. */
module Hooks {
  import opened Wrappers
  import opened Text
  import opened Seqs

  // ---------------------------------------------------------------------
  // clean_text_for_display
  // ---------------------------------------------------------------------

  const Completed := "Operation completed successfully."

  /** A stripped line worth showing: not empty, not tool bookkeeping, not
      a JSON dump, not a log line. */
  predicate Meaningful(line: string) {
    line != "" && !Contains(line, "toolUseId") && !Contains(line, "status") &&
    !StartsWith(line, "{") && !StartsWith(line, "INFO:")
  }

  /** A character missing from a string is missing from every substring. */
  lemma NotInSubstring(s: string, sub: string, c: char)
    requires Contains(s, sub) && c !in s
    ensures c !in sub
  {
    ContainsAt(s, sub);
    var i :| 0 <= i <= |s| && StartsWith(s[i..], sub);
    assert forall k :: 0 <= k < |sub| ==> sub[k] == s[i + k];
  }

  /** Every line of `text`, stripped; none holds a newline. */
  function StrippedLines(text: string): (stripped: seq<string>)
    ensures |stripped| == |Split(text, '\n')|
    ensures forall i :: 0 <= i < |stripped| ==> stripped[i] == Strip(Split(text, '\n')[i])
    ensures forall i :: 0 <= i < |stripped| ==> '\n' !in stripped[i]
  {
    var lines := Split(text, '\n');
    var stripped := seq(|lines|, i requires 0 <= i < |lines| => Strip(lines[i]));
    assert forall i :: 0 <= i < |stripped| ==> '\n' !in stripped[i] by {
      forall i | 0 <= i < |stripped|
        ensures '\n' !in stripped[i]
      {
        NotInSubstring(lines[i], stripped[i], '\n');
      }
    }
    stripped
  }

  /** The stripped lines of `text` kept for display, in order. */
  function KeptLines(text: string): (kept: seq<string>)
    ensures forall l :: l in kept ==> Meaningful(l) && '\n' !in l
    ensures forall l :: l in kept <==> l in StrippedLines(text) && Meaningful(l)
  {
    Filter(Meaningful, StrippedLines(text))
  }

  /** `clean_text_for_display`: the first three kept lines joined by
      newlines, or a fixed sentence when no line is kept. The result is
      never empty, and splitting it at newlines gives back those lines. */
  function CleanText(text: string): (r: string)
    ensures r != ""
    ensures KeptLines(text) == [] ==> r == Completed
    ensures KeptLines(text) != [] ==>
              var kept := KeptLines(text);
              Split(r, '\n') == kept[..if |kept| < 3 then |kept| else 3]
  {
    var kept := KeptLines(text);
    var first := kept[..if |kept| < 3 then |kept| else 3];
    var joined := Join(first, '\n');
    if kept == [] then
      Completed
    else
      assert first[0] in kept;
      JoinNonEmpty(first, '\n');
      assert forall i :: 0 <= i < |first| ==> '\n' !in first[i] by {
        assert forall i :: 0 <= i < |first| ==> first[i] in kept;
      }
      SplitJoin(first, '\n');
      joined
  }

  /** A cleaned text has one to three lines: the fallback sentence alone,
      or kept lines only. */
  lemma CleanTextLines(text: string)
    ensures var lines := Split(CleanText(text), '\n');
            1 <= |lines| <= 3 &&
            (KeptLines(text) == [] ==> lines == [Completed]) &&
            (KeptLines(text) != [] ==> forall l :: l in lines ==> Meaningful(l))
  {
    var kept := KeptLines(text);
    if kept == [] {
      SplitJoin([Completed], '\n');
      assert Join([Completed], '\n') == Completed;
    } else {
      var first := kept[..if |kept| < 3 then |kept| else 3];
      assert forall l :: l in first ==> l in kept;
    }
  }

  // ---------------------------------------------------------------------
  // Phase tracking (before_tool_call / after_tool_call)
  // ---------------------------------------------------------------------

  /** A message put on the UI queue: its type, the phase it reports, the
      tool it concerns and, for phase headers, the title. */
  datatype Msg = Msg(kind: string, phase: string, tool: Option<string>, title: string)

  datatype Hook = Hook(currentPhase: string, toolsCalled: set<string>,
                       phasesCompleted: set<string>, sent: seq<Msg>)

  const Start := Hook("planning", {}, {}, [])

  /** The tool name read from the event; a missing tool-use record or name
      reads as `unknown_tool`. */
  function ToolName(name: Option<string>): string {
    name.GetOr("unknown_tool")
  }

  /** The header title `send_phase_header` shows for a phase. */
  function PhaseTitle(phase: string): (t: string)
    ensures phase !in {"planning", "approval", "execution"} ==> t == "PHASE: " + Upper(phase)
    ensures phase == "planning" || phase == "approval" || phase == "execution" ==> StartsWith(t, "PHASE ")
    ensures phase == "planning" ==> t == "PHASE 1: PLANNING & ANALYSIS"
    ensures phase == "approval" ==> t == "PHASE 2: APPROVAL PROCESS"
    ensures phase == "execution" ==> t == "PHASE 3: EXECUTION"
  {
    if phase == "planning" then "PHASE 1: PLANNING & ANALYSIS"
    else if phase == "approval" then "PHASE 2: APPROVAL PROCESS"
    else if phase == "execution" then "PHASE 3: EXECUTION"
    else "PHASE: " + Upper(phase)
  }

  /** `send_phase_header`: exactly one header message for `phase`, and no
      other change. */
  function SendPhaseHeader(h: Hook, phase: string): (h': Hook)
    ensures h'.sent == h.sent + [Msg("phase_header", phase, None, PhaseTitle(phase))]
    ensures h'.currentPhase == h.currentPhase && h'.toolsCalled == h.toolsCalled
    ensures h'.phasesCompleted == h.phasesCompleted
  {
    h.(sent := h.sent + [Msg("phase_header", phase, None, PhaseTitle(phase))])
  }

  /** `send_phase_complete` followed by recording the phase as done. */
  function CompletePhase(h: Hook, phase: string): (h': Hook)
    ensures h'.sent == h.sent + [Msg("phase_complete", phase, None, "")]
    ensures h'.phasesCompleted == h.phasesCompleted + {phase}
    ensures h'.currentPhase == h.currentPhase && h'.toolsCalled == h.toolsCalled
  {
    h.(sent := h.sent + [Msg("phase_complete", phase, None, "")], phasesCompleted := h.phasesCompleted + {phase})
  }

  /** `any(word in t for t in tools)` */
  predicate AnyWith(tools: set<string>, word: string) {
    exists t :: t in tools && Contains(t, word)
  }

  lemma AnyWithAdd(tools: set<string>, t: string, word: string)
    ensures AnyWith(tools + {t}, word) <==> AnyWith(tools, word) || Contains(t, word)
  {
    if AnyWith(tools + {t}, word) && !Contains(t, word) {
      var u :| u in tools + {t} && Contains(u, word);
      assert u in tools;
    }
  }

  /** The distinct called tools whose name contains `word`; its size is
      `sum(1 for t in tools if word in t)`. */
  function ToolsWith(tools: set<string>, word: string): (r: set<string>)
    ensures r <= tools
    ensures forall t :: t in r <==> t in tools && Contains(t, word)
  {
    set t | t in tools && Contains(t, word)
  }

  /** `before_tool_call`: records the tool, switches to the approval phase
      (with its header) on the first approval tool, then reports the call
      in the phase now current. */
  function BeforeToolCall(h: Hook, name: Option<string>): (h': Hook)
    ensures h'.toolsCalled == h.toolsCalled + {ToolName(name)}
    ensures h'.phasesCompleted == h.phasesCompleted
    ensures h'.currentPhase == (if Contains(ToolName(name), "approval") then "approval" else h.currentPhase)
    ensures var switching := Contains(ToolName(name), "approval") && h.currentPhase != "approval";
            h'.sent == h.sent + (if switching then [Msg("phase_header", "approval", None, PhaseTitle("approval"))] else [])
                              + [Msg("raw_tool_call", h'.currentPhase, Some(ToolName(name)), "")]
  {
    var tool := ToolName(name);
    var recorded := h.(toolsCalled := h.toolsCalled + {tool});
    var switched :=
      if Contains(tool, "approval") && recorded.currentPhase != "approval"
      then SendPhaseHeader(recorded, "approval").(currentPhase := "approval")
      else recorded;
    switched.(sent := switched.sent + [Msg("raw_tool_call", switched.currentPhase, Some(tool), "")])
  }

  /** `after_tool_call`: reports the result, then completes the planning
      phase once inventory and fleet tools have both been called but no
      approval tool, or the approval phase once an approval tool and a
      second distinct inventory or fleet tool have been called. Each phase
      completes at most once. */
  function AfterToolCall(h: Hook, name: Option<string>): (h': Hook)
    ensures h'.toolsCalled == h.toolsCalled && h'.currentPhase == h.currentPhase
    ensures h.phasesCompleted <= h'.phasesCompleted
    ensures |h'.sent| >= |h.sent| + 1 && h'.sent[..|h.sent| + 1] == h.sent + [Msg("raw_result", h.currentPhase, Some(ToolName(name)), "")]
    ensures ("planning" in h'.phasesCompleted - h.phasesCompleted) <==>
              (h.currentPhase == "planning" && "planning" !in h.phasesCompleted &&
               AnyWith(h.toolsCalled, "inventory") && AnyWith(h.toolsCalled, "fleet") &&
               !AnyWith(h.toolsCalled, "approval"))
    ensures ("approval" in h'.phasesCompleted - h.phasesCompleted) ==>
              AnyWith(h.toolsCalled, "approval") &&
              (|ToolsWith(h.toolsCalled, "inventory")| > 1 || |ToolsWith(h.toolsCalled, "fleet")| > 1)
    ensures ("approval" in h'.phasesCompleted - h.phasesCompleted) <==>
              ("approval" !in h.phasesCompleted && AnyWith(h.toolsCalled, "approval") &&
               (|ToolsWith(h.toolsCalled, "inventory")| > 1 || |ToolsWith(h.toolsCalled, "fleet")| > 1))
  {
    var tool := ToolName(name);
    var reported := h.(sent := h.sent + [Msg("raw_result", h.currentPhase, Some(tool), "")]);
    var hasInventory := AnyWith(h.toolsCalled, "inventory");
    var hasFleet := AnyWith(h.toolsCalled, "fleet");
    var hasApproval := AnyWith(h.toolsCalled, "approval");
    var inventoryCalls := |ToolsWith(h.toolsCalled, "inventory")|;
    var fleetCalls := |ToolsWith(h.toolsCalled, "fleet")|;
    if h.currentPhase == "planning" && hasInventory && hasFleet && !hasApproval && "planning" !in h.phasesCompleted then
      CompletePhase(reported, "planning")
    else if hasApproval && (inventoryCalls > 1 || fleetCalls > 1) && "approval" !in h.phasesCompleted then
      CompletePhase(reported, "approval")
    else
      reported
  }

  /** A tool-call event as the hook sees it. */
  datatype Event = Before(name: Option<string>) | After(name: Option<string>)

  function Step(h: Hook, e: Event): Hook {
    match e
    case Before(n) => BeforeToolCall(h, n)
    case After(n) => AfterToolCall(h, n)
  }

  /** The hook after a run of events. */
  function Run(h: Hook, events: seq<Event>): Hook
    decreases |events|
  {
    if events == [] then h else Step(Run(h, events[..|events| - 1]), events[|events| - 1])
  }

  /** How many phase headers were sent. */
  function Headers(sent: seq<Msg>): nat
    decreases |sent|
  {
    if sent == [] then 0
    else Headers(sent[..|sent| - 1]) + (if sent[|sent| - 1].kind == "phase_header" then 1 else 0)
  }

  /** How many completion messages were sent for `phase`. */
  function Completions(sent: seq<Msg>, phase: string): nat
    decreases |sent|
  {
    if sent == [] then 0
    else Completions(sent[..|sent| - 1], phase) +
         (if sent[|sent| - 1].kind == "phase_complete" && sent[|sent| - 1].phase == phase then 1 else 0)
  }

  lemma HeadersAppend(a: seq<Msg>, m: Msg)
    ensures Headers(a + [m]) == Headers(a) + (if m.kind == "phase_header" then 1 else 0)
    ensures forall p :: Completions(a + [m], p) ==
                          Completions(a, p) + (if m.kind == "phase_complete" && m.phase == p then 1 else 0)
  {
    assert (a + [m])[..|a|] == a;
  }

  /** What the hook keeps true: it is in the planning or the approval
      phase, and in approval exactly when an approval tool was called;
      one header was sent exactly when it is in approval; each phase was
      reported complete once if it is recorded as completed, else never. */
  ghost predicate Inv(h: Hook) {
    PhaseInv(h) && CountInv(h)
  }

  ghost predicate PhaseInv(h: Hook) {
    (h.currentPhase == "planning" || h.currentPhase == "approval") &&
    (h.currentPhase == "approval" <==> AnyWith(h.toolsCalled, "approval"))
  }

  ghost predicate CountInv(h: Hook) {
    Headers(h.sent) == (if h.currentPhase == "approval" then 1 else 0) &&
    (forall p :: Completions(h.sent, p) == if p in h.phasesCompleted then 1 else 0)
  }

  lemma BeforeKeepsPhaseInv(h: Hook, n: Option<string>)
    requires PhaseInv(h)
    ensures PhaseInv(BeforeToolCall(h, n))
  {
    AnyWithAdd(h.toolsCalled, ToolName(n), "approval");
  }

  lemma BeforeKeepsCountInv(h: Hook, n: Option<string>)
    requires CountInv(h)
    ensures CountInv(BeforeToolCall(h, n))
  {
    var tool := ToolName(n);
    var h' := BeforeToolCall(h, n);
    var call := Msg("raw_tool_call", h'.currentPhase, Some(tool), "");
    if Contains(tool, "approval") && h.currentPhase != "approval" {
      var header := Msg("phase_header", "approval", None, PhaseTitle("approval"));
      HeadersAppend(h.sent, header);
      HeadersAppend(h.sent + [header], call);
    } else {
      HeadersAppend(h.sent, call);
    }
  }

  lemma BeforeKeepsInv(h: Hook, n: Option<string>)
    requires Inv(h)
    ensures Inv(BeforeToolCall(h, n))
  {
    BeforeKeepsPhaseInv(h, n);
    BeforeKeepsCountInv(h, n);
  }

  lemma AfterKeepsInv(h: Hook, n: Option<string>)
    requires Inv(h)
    ensures Inv(AfterToolCall(h, n))
  {
    var result := Msg("raw_result", h.currentPhase, Some(ToolName(n)), "");
    var reported := h.sent + [result];
    HeadersAppend(h.sent, result);
    var h' := AfterToolCall(h, n);
    if h'.sent != reported {
      var p :| p in h'.phasesCompleted - h.phasesCompleted;
      HeadersAppend(reported, Msg("phase_complete", p, None, ""));
    }
  }

  lemma {:induction false} RunKeepsInv(events: seq<Event>)
    ensures Inv(Run(Start, events))
    decreases |events|
  {
    if events == [] {
      forall p
        ensures Completions(Start.sent, p) == if p in Start.phasesCompleted then 1 else 0
      {
      }
    } else {
      var h := Run(Start, events[..|events| - 1]);
      RunKeepsInv(events[..|events| - 1]);
      match events[|events| - 1]
      case Before(n) => BeforeKeepsInv(h, n);
      case After(n) => AfterKeepsInv(h, n);
    }
  }

  /** The tools named by a run's before-call events. */
  function CalledTools(events: seq<Event>): set<string>
    decreases |events|
  {
    if events == [] then {}
    else
      var last := events[|events| - 1];
      CalledTools(events[..|events| - 1]) + (if last.Before? then {ToolName(last.name)} else {})
  }

  /** A tool is among the called tools exactly when some before-call event
      names it. */
  lemma {:induction false} CalledToolsMembers(events: seq<Event>, t: string)
    ensures t in CalledTools(events) <==>
            exists i :: 0 <= i < |events| && events[i].Before? && ToolName(events[i].name) == t
    decreases |events|
  {
    if events != [] {
      var init := events[..|events| - 1];
      CalledToolsMembers(init, t);
      if exists i :: 0 <= i < |init| && init[i].Before? && ToolName(init[i].name) == t {
        var i :| 0 <= i < |init| && init[i].Before? && ToolName(init[i].name) == t;
        assert events[i] == init[i];
      }
      if exists i :: 0 <= i < |events| && events[i].Before? && ToolName(events[i].name) == t {
        var i :| 0 <= i < |events| && events[i].Before? && ToolName(events[i].name) == t;
        if i < |init| {
          assert init[i] == events[i];
        }
      }
    }
  }

  /** The hook records exactly the tools named by the run's before-call
      events. */
  lemma {:induction false} RunTools(events: seq<Event>)
    ensures Run(Start, events).toolsCalled == CalledTools(events)
    decreases |events|
  {
    if events != [] {
      RunTools(events[..|events| - 1]);
    }
  }

  /** Over any run of tool calls the approval header is sent at most once,
      and exactly when some approval tool was called; each phase is
      reported complete at most once. */
  lemma PhaseMessagesAtMostOnce(events: seq<Event>, phase: string)
    ensures Headers(Run(Start, events).sent) <= 1
    ensures Headers(Run(Start, events).sent) == 1 <==>
              exists i :: 0 <= i < |events| && events[i].Before? && Contains(ToolName(events[i].name), "approval")
    ensures Completions(Run(Start, events).sent, phase) <= 1
  {
    RunKeepsInv(events);
    RunTools(events);
    var h := Run(Start, events);
    if exists i :: 0 <= i < |events| && events[i].Before? && Contains(ToolName(events[i].name), "approval") {
      var i :| 0 <= i < |events| && events[i].Before? && Contains(ToolName(events[i].name), "approval");
      CalledToolsMembers(events, ToolName(events[i].name));
      assert ToolName(events[i].name) in h.toolsCalled;
    }
    if AnyWith(h.toolsCalled, "approval") {
      var t :| t in h.toolsCalled && Contains(t, "approval");
      CalledToolsMembers(events, t);
    }
  }

  /** Once in the approval phase the hook never goes back to planning. */
  lemma ApprovalPhaseSticks(h: Hook, e: Event)
    requires h.currentPhase == "approval"
    ensures Step(h, e).currentPhase == "approval"
  {
  }

  // ---------------------------------------------------------------------
  // extract_part_from_input
  // ---------------------------------------------------------------------

  /** A value in a tool input: its `str()` text and its truthiness. */
  datatype Value = Value(text: string, truthy: bool)

  const PartKeys := ["query", "part", "item", "product", "component"]

  const HydraulicPump := "HYDRAULIC-PUMP-HP450"

  predicate Usable(input: map<string, Value>, key: string) {
    key in input && input[key].truthy
  }

  /** A part value mentioning a hydraulic pump in any case is normalised
      to the catalogue part number. */
  function NormalisePart(v: string): string {
    if Contains(Upper(v), "HYDRAULIC") || Contains(Upper(v), "PUMP") then HydraulicPump else v
  }

  /** Index of the first key whose value is present and truthy. */
  function UsableKeyIndex(input: map<string, Value>, keys: seq<string>): (r: Option<nat>)
    ensures r.Some? ==> r.value < |keys| && Usable(input, keys[r.value]) &&
                        forall j :: 0 <= j < r.value ==> !Usable(input, keys[j])
    ensures r.None? <==> forall j :: 0 <= j < |keys| ==> !Usable(input, keys[j])
    decreases |keys|
  {
    if keys == [] then None
    else if Usable(input, keys[0]) then Some(0)
    else
      match UsableKeyIndex(input, keys[1..])
      case None => None
      case Some(i) => Some(i + 1)
  }

  /** `extract_part_from_input`: the first key among query, part, item,
      product, component whose value is present and truthy decides; a
      value naming a hydraulic pump becomes the catalogue part number.
      A non-dictionary input or no usable key gives `None`. */
  function ExtractPart(input: Option<map<string, Value>>): (r: Option<string>)
    ensures r.None? <==> input.None? || forall k :: k in PartKeys ==> !Usable(input.value, k)
    ensures r.Some? ==> input.Some? && UsableKeyIndex(input.value, PartKeys).Some? &&
                        r.value == NormalisePart(input.value[PartKeys[UsableKeyIndex(input.value, PartKeys).value]].text)
  {
    match input
    case None => None
    case Some(m) =>
      match UsableKeyIndex(m, PartKeys)
      case None => None
      case Some(i) => Some(NormalisePart(m[PartKeys[i]].text))
  }

  /** A query naming a pump wins over every later key. */
  lemma PumpQueryWins(m: map<string, Value>, q: string)
    requires "query" in m && m["query"] == Value(q, true)
    requires Contains(Upper(q), "PUMP")
    ensures ExtractPart(Some(m)) == Some(HydraulicPump)
  {
    assert Usable(m, PartKeys[0]);
  }

  // ---------------------------------------------------------------------
  // log_message
  // ---------------------------------------------------------------------

  /** A JSON value in a UI message. */
  datatype Json = Str(s: string) | Bool(b: bool) | Num(n: real) | Null

  /** `log_message`'s UI record: type, content, timestamp and source
      "orchestrator", then the metadata merged in, overriding any
      same-named field. */
  function LogMessage(kind: string, content: string, timestamp: string,
                      metadata: Option<map<string, Json>>): (r: map<string, Json>)
    ensures r.Keys == {"type", "content", "timestamp", "source"} + (if metadata.Some? then metadata.value.Keys else {})
    ensures metadata.Some? ==> forall k :: k in metadata.value ==> r[k] == metadata.value[k]
    ensures "source" !in (if metadata.Some? then metadata.value.Keys else {}) ==> r["source"] == Str("orchestrator")
    ensures "type" !in (if metadata.Some? then metadata.value.Keys else {}) ==> r["type"] == Str(kind)
    ensures "content" !in (if metadata.Some? then metadata.value.Keys else {}) ==> r["content"] == Str(content)
  {
    var base := map["type" := Str(kind), "content" := Str(content),
                    "timestamp" := Str(timestamp), "source" := Str("orchestrator")];
    match metadata
    case None => base
    case Some(m) => base + m
  }

  /** Metadata only adds and overrides: it never removes a field. */
  lemma LogMessageKeepsFields(kind: string, content: string, timestamp: string, m: map<string, Json>)
    ensures LogMessage(kind, content, timestamp, None).Keys <= LogMessage(kind, content, timestamp, Some(m)).Keys
    ensures forall k :: k in LogMessage(kind, content, timestamp, None) && k !in m ==>
              LogMessage(kind, content, timestamp, Some(m))[k] == LogMessage(kind, content, timestamp, None)[k]
  {
  }
}

=== FILE: inventory_agent.dfy ===
/** The inventory agent's own rule logic (Agents/InventoryAgent.py), which
    Agents/InventoryAgent_Backup.py repeats as its legacy path: availability
    against available stock, reservation that moves units from available to
    reserved, the status table, and fixed alternative-part suggestions. */
module InventoryAgent {
  import opened Wrappers
  import opened Text
  import opened OrderedMap

  datatype AgentPart = AgentPart(
    availableQuantity: int,
    reservedQuantity: int,
    warehouseLocation: string,
    costPerUnit: real,
    leadTimeDays: int,
    supplier: string)

  type Stock = Dict<string, AgentPart>

  /** The agent's built-in inventory, in declaration order. */
  function MockInventory(): (s: Stock)
    ensures Valid(s)
  {
    Dict(["HYDRAULIC-PUMP-HP450", "PART-ABC123", "PART-XYZ789", "PART-DEF456"],
         map["HYDRAULIC-PUMP-HP450" := AgentPart(24, 2, "Central Warehouse", 245.0, 1, "HydroTech Systems"),
             "PART-ABC123" := AgentPart(85, 15, "Warehouse A", 12.5, 2, "Supplier Corp"),
             "PART-XYZ789" := AgentPart(42, 8, "Warehouse B", 18.75, 1, "Parts Inc"),
             "PART-DEF456" := AgentPart(120, 25, "Warehouse A", 8.25, 3, "FastParts Ltd")])
  }

  /** In the built-in table the pump can serve up to its 24 available
      units, and a reservation of more is refused without changing it. */
  lemma MockInventoryServesPump(needed: int, requestId: string, stamp: string)
    ensures var s := MockInventory();
            var r := CheckAvailability(s, "HYDRAULIC-PUMP-HP450", needed);
            var out := ReserveInventory(s, "HYDRAULIC-PUMP-HP450", needed, requestId, stamp);
            r.Checked? && (r.available <==> needed <= 24)
            && (needed > 24 ==> out.0 == Failure(InsufficientInventory(24)) && out.1 == s)
  {
  }

  /** `get_alternative_parts`: a fixed pair chosen by the first of ABC, XYZ,
      DEF the part number contains. */
  function GetAlternativeParts(partNumber: string): (alts: seq<string>)
    ensures Contains(partNumber, "ABC") ==> alts == ["PART-ABC124", "PART-ABC125"]
    ensures !Contains(partNumber, "ABC") && Contains(partNumber, "XYZ") ==>
              alts == ["PART-XYZ790", "PART-XYZ791"]
    ensures !Contains(partNumber, "ABC") && !Contains(partNumber, "XYZ") && Contains(partNumber, "DEF") ==>
              alts == ["PART-DEF457", "PART-DEF458"]
    ensures alts == [] <==>
              !Contains(partNumber, "ABC") && !Contains(partNumber, "XYZ") && !Contains(partNumber, "DEF")
  {
    if Contains(partNumber, "ABC") then ["PART-ABC124", "PART-ABC125"]
    else if Contains(partNumber, "XYZ") then ["PART-XYZ790", "PART-XYZ791"]
    else if Contains(partNumber, "DEF") then ["PART-DEF457", "PART-DEF458"]
    else []
  }

  datatype Shortage = Shortage(shortageQuantity: int, partialFulfillment: bool)

  datatype Availability =
    | NotInInventory(partNumber: string, suggestions: seq<string>)
    | Checked(
        available: bool,
        partNumber: string,
        requestedQuantity: int,
        availableQuantity: int,
        reservedQuantity: int,
        totalCost: real,
        shortage: Option<Shortage>)

  /** `check_availability` without the language-model advice. */
  function CheckAvailability(stock: Stock, partNumber: string, needed: int): (r: Availability)
    ensures r.NotInInventory? <==> partNumber !in stock.values
    ensures r.NotInInventory? ==> r.suggestions == GetAlternativeParts(partNumber)
    ensures r.Checked? ==>
              var p := stock.values[partNumber];
              (r.available <==> p.availableQuantity >= needed)
              && r.totalCost == p.costPerUnit * needed as real
              && (r.shortage.Some? <==> !r.available)
              && (r.shortage.Some? ==>
                    r.shortage.value.shortageQuantity == needed - p.availableQuantity
                    && r.shortage.value.shortageQuantity > 0
                    && (r.shortage.value.partialFulfillment <==> p.availableQuantity > 0))
  {
    match Get(stock, partNumber)
    case None => NotInInventory(partNumber, GetAlternativeParts(partNumber))
    case Some(p) =>
      var ok := p.availableQuantity >= needed;
      Checked(ok, partNumber, needed, p.availableQuantity, p.reservedQuantity,
              p.costPerUnit * needed as real,
              if ok then None
              else Some(Shortage(needed - p.availableQuantity, p.availableQuantity > 0)))
  }

  datatype ReserveError = PartMissing(partNumber: string) | InsufficientInventory(availableQuantity: int)

  datatype Reservation = Reservation(reservationId: string, partNumber: string, quantity: int,
                                     requestId: string)

  /** `reserve_inventory`; `stamp` is the clock reading in the id. */
  function ReserveInventory(stock: Stock, partNumber: string, quantity: int, requestId: string,
                            stamp: string)
    : (out: (Result<Reservation, ReserveError>, Stock))
    requires Valid(stock)
    ensures Valid(out.1)
    ensures out.0.Failure? ==> out.1 == stock
    ensures partNumber !in stock.values ==> out.0 == Failure(PartMissing(partNumber))
    ensures partNumber in stock.values ==>
              (out.0.Success? <==> stock.values[partNumber].availableQuantity >= quantity)
    ensures out.0.Success? ==>
              partNumber in stock.values && partNumber in out.1.values &&
              var p := stock.values[partNumber];
              var p' := out.1.values[partNumber];
              out.1.keys == stock.keys
              && (forall k :: k in stock.values && k != partNumber ==> out.1.values[k] == stock.values[k])
              && p'.availableQuantity == p.availableQuantity - quantity
              && p'.reservedQuantity == p.reservedQuantity + quantity
              && p'.availableQuantity + p'.reservedQuantity == p.availableQuantity + p.reservedQuantity
              && out.0.value.reservationId == "RES-" + requestId + "-" + stamp
  {
    match Get(stock, partNumber)
    case None => (Failure(PartMissing(partNumber)), stock)
    case Some(p) =>
      if p.availableQuantity < quantity then
        (Failure(InsufficientInventory(p.availableQuantity)), stock)
      else
        var p' := p.(availableQuantity := p.availableQuantity - quantity,
                     reservedQuantity := p.reservedQuantity + quantity);
        (Success(Reservation("RES-" + requestId + "-" + stamp, partNumber, quantity, requestId)),
         Put(stock, partNumber, p'))
  }

  /** A reservation succeeds exactly when the availability check for the
      same part and quantity says available. */
  lemma ReserveAgreesWithCheck(stock: Stock, partNumber: string, quantity: int, requestId: string,
                               stamp: string)
    requires Valid(stock)
    ensures var c := CheckAvailability(stock, partNumber, quantity);
            var ok := ReserveInventory(stock, partNumber, quantity, requestId, stamp).0.Success?;
            ok <==> c.Checked? && c.available
  {
  }

  /** Sum of available and reserved units over the named parts. */
  function Units(stock: Stock, keys: seq<string>): int
    requires forall k :: k in keys ==> k in stock.values
    decreases |keys|
  {
    if |keys| == 0 then 0
    else stock.values[keys[0]].availableQuantity + stock.values[keys[0]].reservedQuantity
         + Units(stock, keys[1..])
  }

  lemma {:induction false} UnitsFrame(s1: Stock, s2: Stock, keys: seq<string>)
    requires forall k :: k in keys ==> k in s1.values && k in s2.values
    requires forall k :: k in keys ==>
               s1.values[k].availableQuantity + s1.values[k].reservedQuantity
               == s2.values[k].availableQuantity + s2.values[k].reservedQuantity
    ensures Units(s1, keys) == Units(s2, keys)
    decreases |keys|
  {
    if |keys| > 0 {
      UnitsFrame(s1, s2, keys[1..]);
    }
  }

  /** Reservations only move units between available and reserved: the
      total held across the whole table never changes. */
  lemma ReserveConservesUnits(stock: Stock, partNumber: string, quantity: int, requestId: string,
                              stamp: string)
    requires Valid(stock)
    ensures var s' := ReserveInventory(stock, partNumber, quantity, requestId, stamp).1;
            s'.keys == stock.keys && Units(s', s'.keys) == Units(stock, stock.keys)
  {
    var s' := ReserveInventory(stock, partNumber, quantity, requestId, stamp).1;
    UnitsFrame(s', stock, stock.keys);
  }

  datatype PartEntry =
    | Listed(available: int, reserved: int, location: string, costPerUnit: real, inStock: bool)
    | NotFound

  datatype InventoryStatus = InventoryStatus(partsCount: nat, parts: Dict<string, PartEntry>)

  function EntryFor(stock: Stock, partNumber: string): (e: PartEntry)
    ensures e.NotFound? <==> partNumber !in stock.values
    ensures e.Listed? ==> e.available == stock.values[partNumber].availableQuantity
                          && e.reserved == stock.values[partNumber].reservedQuantity
                          && (e.inStock <==> e.available > 0)
  {
    match Get(stock, partNumber)
    case None => NotFound
    case Some(p) => Listed(p.availableQuantity, p.reservedQuantity, p.warehouseLocation,
                           p.costPerUnit, p.availableQuantity > 0)
  }

  function Entries(stock: Stock, pns: seq<string>): (d: Dict<string, PartEntry>)
    ensures Valid(d)
    ensures forall k :: k in d.values <==> k in pns
    ensures forall k :: k in d.values ==> d.values[k] == EntryFor(stock, k)
    decreases |pns|
  {
    if |pns| == 0 then Empty()
    else
      var init := pns[..|pns| - 1];
      assert pns == init + [pns[|pns| - 1]];
      Put(Entries(stock, init), pns[|pns| - 1], EntryFor(stock, pns[|pns| - 1]))
  }

  /** `get_inventory_status`: no list or an empty list means every part;
      the count is the length of the list checked, unknown and repeated
      numbers included. */
  function GetInventoryStatus(stock: Stock, partNumbers: Option<seq<string>>): (r: InventoryStatus)
    ensures var pns := if partNumbers.None? || partNumbers.value == [] then stock.keys
                       else partNumbers.value;
            r.partsCount == |pns|
            && (forall k :: k in r.parts.values <==> k in pns)
            && (forall k :: k in r.parts.values ==>
                  (r.parts.values[k].NotFound? <==> k !in stock.values)
                  && (r.parts.values[k].Listed? ==>
                        (r.parts.values[k].inStock <==> stock.values[k].availableQuantity > 0)))
  {
    var pns := if partNumbers.None? || partNumbers.value == [] then stock.keys else partNumbers.value;
    InventoryStatus(|pns|, Entries(stock, pns))
  }
}

=== FILE: inventory_backup.dfy ===
/** The refactored inventory agent (Agents/InventoryAgent_Backup.py): each
    operation goes to the inventory service when one was constructed and
    otherwise to the legacy rules, which are those of InventoryAgent over a
    table read from the configuration, or a single default part when that
    read fails. */
module InventoryBackup {
  import opened Wrappers
  import opened OrderedMap
  import Svc = InventoryService
  import Legacy = InventoryAgent

  /** Which implementation the agent was built with. */
  datatype Backend =
    | ServiceBackend(inv: Svc.Inventory)
    | LegacyBackend(stock: Legacy.Stock)

  ghost predicate BackendValid(b: Backend) {
    match b
    case ServiceBackend(inv) => Valid(inv)
    case LegacyBackend(stock) => Valid(stock)
  }

  const DefaultPart := Legacy.AgentPart(10, 0, "Central Warehouse", 10.0, 1, "Default Supplier")

  /** `_load_inventory_configuration`: the catalogue copied as it is, or,
      when it cannot be read (`None`), exactly one PART-DEFAULT entry. */
  function LoadLegacy(catalog: Option<seq<(string, Legacy.AgentPart)>>): (stock: Legacy.Stock)
    ensures Valid(stock)
    ensures catalog.None? ==> stock.keys == ["PART-DEFAULT"] && stock.values == map["PART-DEFAULT" := DefaultPart]
    ensures catalog.Some? ==>
              forall k :: k in stock.values <==> exists i :: 0 <= i < |catalog.value| && catalog.value[i].0 == k
    ensures catalog.Some? ==>
              forall k :: k in stock.values ==> exists i :: 0 <= i < |catalog.value| && catalog.value[i] == (k, stock.values[k])
    ensures catalog.Some? ==>
              forall i :: LastOfKey(catalog.value, i) ==> stock.values[catalog.value[i].0] == catalog.value[i].1
  {
    match catalog
    case None => Put(Empty(), "PART-DEFAULT", DefaultPart)
    case Some(c) =>
      var stock := FromPairs(c);
      assert forall i :: LastOfKey(c, i) ==> stock.values[c[i].0] == c[i].1 by {
        forall i | LastOfKey(c, i) ensures stock.values[c[i].0] == c[i].1 {
          FromPairsLastWins(c, i);
        }
      }
      stock
  }

  /** Construction: with the service importable the agent wraps it,
      otherwise it loads the legacy table. */
  function Init(serviceAvailable: bool, serviceInventory: Svc.Inventory,
                catalog: Option<seq<(string, Legacy.AgentPart)>>): (b: Backend)
    ensures serviceAvailable <==> b.ServiceBackend?
    ensures b.ServiceBackend? ==> b.inv == serviceInventory
    ensures b.LegacyBackend? ==> b.stock == LoadLegacy(catalog)
  {
    if serviceAvailable then ServiceBackend(serviceInventory) else LegacyBackend(LoadLegacy(catalog))
  }

  datatype Availability =
    | ServiceAvailability(service: Svc.Availability)
    | LegacyAvailability(legacy: Legacy.Availability)

  /** `check_availability` */
  function CheckAvailability(b: Backend, partNumber: string, needed: int, priority: string)
    : (r: Availability)
    ensures b.ServiceBackend? <==> r.ServiceAvailability?
    ensures b.ServiceBackend? ==>
              r.service == Svc.CheckAvailability(b.inv, partNumber, needed, priority)
    ensures b.LegacyBackend? ==> r.legacy == Legacy.CheckAvailability(b.stock, partNumber, needed)
  {
    match b
    case ServiceBackend(inv) => ServiceAvailability(Svc.CheckAvailability(inv, partNumber, needed, priority))
    case LegacyBackend(stock) => LegacyAvailability(Legacy.CheckAvailability(stock, partNumber, needed))
  }

  /** Whether the part is reported available, whichever path answered. */
  predicate Available(r: Availability) {
    match r
    case ServiceAvailability(a) => a.Checked? && a.available
    case LegacyAvailability(a) => a.Checked? && a.available
  }

  datatype Reserved =
    | ServiceReserved(service: Result<Svc.Reserved, Svc.ReserveError>)
    | LegacyReserved(legacy: Result<Legacy.Reservation, Legacy.ReserveError>)

  predicate ReservedOk(r: Reserved) {
    match r
    case ServiceReserved(x) => x.Success?
    case LegacyReserved(x) => x.Success?
  }

  /** `reserve_inventory`: the service path passes the request id as the
      requester and "Request: <id>" as the reason. */
  function ReserveInventory(b: Backend, partNumber: string, quantity: int, requestId: string,
                            stamp: string)
    : (out: (Reserved, Backend))
    requires BackendValid(b)
    ensures BackendValid(out.1)
    ensures b.ServiceBackend? <==> out.1.ServiceBackend?
    ensures b.ServiceBackend? ==>
              var s := Svc.ReserveInventory(b.inv, partNumber, quantity, requestId,
                                            "Request: " + requestId, stamp);
              out.0 == ServiceReserved(s.0) && out.1.inv == s.1
    ensures b.LegacyBackend? ==>
              var s := Legacy.ReserveInventory(b.stock, partNumber, quantity, requestId, stamp);
              out.0 == LegacyReserved(s.0) && out.1.stock == s.1
    ensures !ReservedOk(out.0) ==> out.1 == b
  {
    match b
    case ServiceBackend(inv) =>
      var s := Svc.ReserveInventory(inv, partNumber, quantity, requestId, "Request: " + requestId, stamp);
      (ServiceReserved(s.0), ServiceBackend(s.1))
    case LegacyBackend(stock) =>
      var s := Legacy.ReserveInventory(stock, partNumber, quantity, requestId, stamp);
      (LegacyReserved(s.0), LegacyBackend(s.1))
  }

  /** On either path a reservation goes through exactly when the
      availability check for the same part and quantity says available. */
  lemma ReserveAgreesWithCheck(b: Backend, partNumber: string, quantity: int, requestId: string,
                               stamp: string, priority: string)
    requires BackendValid(b)
    ensures ReservedOk(ReserveInventory(b, partNumber, quantity, requestId, stamp).0)
            == Available(CheckAvailability(b, partNumber, quantity, priority))
  {
    if b.LegacyBackend? {
      Legacy.ReserveAgreesWithCheck(b.stock, partNumber, quantity, requestId, stamp);
    }
  }

  datatype Status =
    | ServiceStatus(service: Svc.StatusReport)
    | LegacyStatus(legacy: Legacy.InventoryStatus)

  /** `get_inventory_status` */
  function GetInventoryStatus(b: Backend, partNumbers: Option<seq<string>>): (r: Status)
    requires BackendValid(b)
    ensures b.ServiceBackend? <==> r.ServiceStatus?
    ensures b.ServiceBackend? ==> r.service == Svc.GetInventoryStatus(b.inv, partNumbers)
    ensures b.LegacyBackend? ==> r.legacy == Legacy.GetInventoryStatus(b.stock, partNumbers)
  {
    match b
    case ServiceBackend(inv) => ServiceStatus(Svc.GetInventoryStatus(inv, partNumbers))
    case LegacyBackend(stock) => LegacyStatus(Legacy.GetInventoryStatus(stock, partNumbers))
  }

  /** With the configuration unreadable, the legacy agent knows exactly one
      part: PART-DEFAULT with 10 units, and it can serve up to 10 of them. */
  lemma DefaultStockServesTen(needed: int)
    ensures var b := Init(false, Empty(), None);
            var r := CheckAvailability(b, "PART-DEFAULT", needed, "MEDIUM");
            (Available(r) <==> needed <= 10)
            && forall pn :: pn != "PART-DEFAULT" ==> !Available(CheckAvailability(b, pn, needed, "MEDIUM"))
  {
  }
}

=== FILE: inventory_provider.dfy ===
/** The inventory data provider (Agents/data_providers/inventory_data_provider.py):
    part lookup, availability against stock net of reservations,
    reservation and release with a shared log, low-stock listing, history
    and field search. The DataFrame becomes an insertion-ordered dict from
    part number to a part record. */
module InventoryProvider {
  import opened Wrappers
  import opened Text
  import opened Seqs
  import opened OrderedMap

  datatype Part = Part(
    availableQuantity: int,
    reservedQuantity: int,
    warehouseLocation: string,
    costPerUnit: real,
    leadTimeDays: int,
    supplier: string,
    description: string,
    category: string,
    reorderPoint: int,
    maximumStock: int)

  function NetAvailable(p: Part): int {
    p.availableQuantity - p.reservedQuantity
  }

  /** One entry of `reservation_log`: reservations and releases share it. */
  datatype LogRecord =
    | ReserveRecord(partNumber: string, quantityReserved: int, requester: string,
                    totalReserved: int, remainingAvailable: int)
    | ReleaseRecord(partNumber: string, quantityReleased: int, requester: string,
                    totalReserved: int, totalAvailable: int)

  datatype Provider = Provider(inventory: Dict<string, Part>, log: seq<LogRecord>)

  datatype InventoryError =
    | PartNotFound(partNumber: string)
    | Insufficient(requested: int, netAvailable: int, shortage: int)
    | ExceedsReserved(requested: int, reserved: int)
    | InvalidSearchField

  datatype PartInfo = PartInfo(partNumber: string, part: Part, netAvailable: int)

  /** `get_part_info` */
  function GetPartInfo(pv: Provider, partNumber: string): (r: Result<PartInfo, InventoryError>)
    ensures r.Failure? <==> partNumber !in pv.inventory.values
    ensures r.Failure? ==> r.error == PartNotFound(partNumber)
    ensures r.Success? ==>
              r.value.part == pv.inventory.values[partNumber]
              && r.value.netAvailable == r.value.part.availableQuantity - r.value.part.reservedQuantity
  {
    match Get(pv.inventory, partNumber)
    case None => Failure(PartNotFound(partNumber))
    case Some(p) => Success(PartInfo(partNumber, p, NetAvailable(p)))
  }

  datatype Availability = Availability(
    partNumber: string,
    requestedQuantity: int,
    availableQuantity: int,
    reservedQuantity: int,
    netAvailable: int,
    canFulfill: bool,
    shortage: int,
    leadTimeDays: int,
    costPerUnit: real,
    totalCost: real)

  /** `check_availability` */
  function CheckAvailability(pv: Provider, partNumber: string, quantity: int)
    : (r: Result<Availability, InventoryError>)
    ensures r.Failure? <==> partNumber !in pv.inventory.values
    ensures r.Failure? ==> r.error == PartNotFound(partNumber)
    ensures r.Success? ==>
              var p := pv.inventory.values[partNumber];
              var a := r.value;
              a.netAvailable == p.availableQuantity - p.reservedQuantity
              && (a.canFulfill <==> quantity <= a.netAvailable)
              && a.shortage >= 0
              && (a.canFulfill <==> a.shortage == 0)
              && (!a.canFulfill ==> quantity == a.netAvailable + a.shortage)
              && a.totalCost == quantity as real * p.costPerUnit
  {
    var info :- GetPartInfo(pv, partNumber);
    var net := info.netAvailable;
    Success(Availability(partNumber, quantity, info.part.availableQuantity, info.part.reservedQuantity,
                         net, quantity <= net, if quantity - net > 0 then quantity - net else 0,
                         info.part.leadTimeDays, info.part.costPerUnit,
                         quantity as real * info.part.costPerUnit))
  }

  datatype Reservation = Reservation(
    reservationId: nat,
    partNumber: string,
    quantityReserved: int,
    totalCost: real,
    remainingAvailable: int)

  /** `reserve_quantity`: fails, changing nothing, for an unknown part or a
      quantity above the net available stock; otherwise adds the quantity
      to the part's reservations and logs one record. */
  function ReserveQuantity(pv: Provider, partNumber: string, quantity: int, requester: string)
    : (out: (Result<Reservation, InventoryError>, Provider))
    requires Valid(pv.inventory)
    ensures Valid(out.1.inventory)
    ensures out.0.Failure? ==> out.1 == pv
    ensures partNumber !in pv.inventory.values ==> out.0 == Failure(PartNotFound(partNumber))
    ensures partNumber in pv.inventory.values ==>
              var p := pv.inventory.values[partNumber];
              (out.0.Success? <==> quantity <= NetAvailable(p))
              && (out.0.Failure? ==>
                    out.0.error == Insufficient(quantity, NetAvailable(p), quantity - NetAvailable(p)))
    ensures out.0.Success? ==>
              var p := pv.inventory.values[partNumber];
              var p' := p.(reservedQuantity := p.reservedQuantity + quantity);
              out.1.inventory == Put(pv.inventory, partNumber, p')
              && out.1.log == pv.log + [ReserveRecord(partNumber, quantity, requester,
                                                      p'.reservedQuantity, NetAvailable(p'))]
              && |out.1.log| == |pv.log| + 1
              && out.1.log[..|pv.log|] == pv.log
              && out.1.log[|pv.log|].partNumber == partNumber
              && out.0.value.reservationId == |out.1.log|
              && out.0.value.totalCost == quantity as real * p.costPerUnit
              && out.0.value.remainingAvailable == NetAvailable(p')
  {
    match CheckAvailability(pv, partNumber, quantity)
    case Failure(e) => (Failure(e), pv)
    case Success(a) =>
      if !a.canFulfill then
        (Failure(Insufficient(quantity, a.netAvailable, a.shortage)), pv)
      else
        var p := pv.inventory.values[partNumber];
        var p' := p.(reservedQuantity := p.reservedQuantity + quantity);
        var rec := ReserveRecord(partNumber, quantity, requester, p'.reservedQuantity, NetAvailable(p'));
        var log' := pv.log + [rec];
        assert log'[..|pv.log|] == pv.log;
        (Success(Reservation(|log'|, partNumber, quantity, quantity as real * a.costPerUnit,
                             NetAvailable(p'))),
         Provider(Put(pv.inventory, partNumber, p'), log'))
  }

  datatype Release = Release(partNumber: string, quantityReleased: int, remainingReserved: int,
                             netAvailable: int)

  /** `release_reservation`: fails, changing nothing, for an unknown part or
      a quantity above what is reserved; otherwise takes the quantity off
      the reservations and logs one record. */
  function ReleaseReservation(pv: Provider, partNumber: string, quantity: int, requester: string)
    : (out: (Result<Release, InventoryError>, Provider))
    requires Valid(pv.inventory)
    ensures Valid(out.1.inventory)
    ensures out.0.Failure? ==> out.1 == pv
    ensures partNumber !in pv.inventory.values ==> out.0 == Failure(PartNotFound(partNumber))
    ensures partNumber in pv.inventory.values ==>
              var p := pv.inventory.values[partNumber];
              (out.0.Success? <==> quantity <= p.reservedQuantity)
              && (out.0.Failure? ==> out.0.error == ExceedsReserved(quantity, p.reservedQuantity))
    ensures out.0.Success? ==>
              var p := pv.inventory.values[partNumber];
              var p' := p.(reservedQuantity := p.reservedQuantity - quantity);
              out.1.inventory == Put(pv.inventory, partNumber, p')
              && out.1.log == pv.log + [ReleaseRecord(partNumber, quantity, requester,
                                                      p'.reservedQuantity, NetAvailable(p'))]
  {
    match Get(pv.inventory, partNumber)
    case None => (Failure(PartNotFound(partNumber)), pv)
    case Some(p) =>
      if quantity > p.reservedQuantity then
        (Failure(ExceedsReserved(quantity, p.reservedQuantity)), pv)
      else
        var p' := p.(reservedQuantity := p.reservedQuantity - quantity);
        (Success(Release(partNumber, quantity, p'.reservedQuantity, NetAvailable(p'))),
         Provider(Put(pv.inventory, partNumber, p'),
                  pv.log + [ReleaseRecord(partNumber, quantity, requester, p'.reservedQuantity,
                                          NetAvailable(p'))]))
  }

  /** Stock bounds every part keeps when quantities are non-negative: the
      source never checks the sign of a quantity. */
  ghost predicate StockBounded(inv: Dict<string, Part>) {
    forall k :: k in inv.values ==>
      0 <= inv.values[k].reservedQuantity <= inv.values[k].availableQuantity
  }

  /** A successful reservation of a non-negative quantity keeps reserved
      stock within available stock, and never changes available stock. */
  lemma ReserveKeepsBounds(pv: Provider, partNumber: string, quantity: int, requester: string)
    requires Valid(pv.inventory) && StockBounded(pv.inventory) && quantity >= 0
    ensures var out := ReserveQuantity(pv, partNumber, quantity, requester);
            StockBounded(out.1.inventory)
            && forall k :: k in pv.inventory.values ==>
                 k in out.1.inventory.values
                 && out.1.inventory.values[k].availableQuantity == pv.inventory.values[k].availableQuantity
  {
  }

  /** The same for releases. */
  lemma ReleaseKeepsBounds(pv: Provider, partNumber: string, quantity: int, requester: string)
    requires Valid(pv.inventory) && StockBounded(pv.inventory) && quantity >= 0
    ensures var out := ReleaseReservation(pv, partNumber, quantity, requester);
            StockBounded(out.1.inventory)
            && forall k :: k in pv.inventory.values ==>
                 k in out.1.inventory.values
                 && out.1.inventory.values[k].availableQuantity == pv.inventory.values[k].availableQuantity
  {
  }

  /** Reserving a quantity and releasing the same quantity restores the
      stock table exactly and leaves two more log records (given that no
      reservation count is negative, else the release check can refuse). */
  lemma ReserveReleaseRoundTrip(pv: Provider, partNumber: string, quantity: int, requester: string)
    requires Valid(pv.inventory) && StockBounded(pv.inventory)
    requires ReserveQuantity(pv, partNumber, quantity, requester).0.Success?
    ensures var pv1 := ReserveQuantity(pv, partNumber, quantity, requester).1;
            var out := ReleaseReservation(pv1, partNumber, quantity, requester);
            out.0.Success? && out.1.inventory == pv.inventory && |out.1.log| == |pv.log| + 2
  {
    var pv1 := ReserveQuantity(pv, partNumber, quantity, requester).1;
    assert partNumber in pv.inventory.values;
    var p := pv.inventory.values[partNumber];
    ReleaseUndoes(pv, pv1, partNumber, p.(reservedQuantity := p.reservedQuantity + quantity),
                  quantity, requester);
  }

  /** The release half of the round trip: releasing `quantity` from a table
      where exactly that much was added to one part's reservations. */
  lemma ReleaseUndoes(pv: Provider, pv1: Provider, partNumber: string, p1: Part, quantity: int,
                      requester: string)
    requires Valid(pv.inventory) && StockBounded(pv.inventory) && partNumber in pv.inventory.values
    requires p1 == pv.inventory.values[partNumber].(reservedQuantity :=
                     pv.inventory.values[partNumber].reservedQuantity + quantity)
    requires pv1.inventory == Put(pv.inventory, partNumber, p1) && |pv1.log| == |pv.log| + 1
    ensures Valid(pv1.inventory)
    ensures var out := ReleaseReservation(pv1, partNumber, quantity, requester);
            out.0.Success? && out.1.inventory == pv.inventory && |out.1.log| == |pv.log| + 2
  {
    var p := pv.inventory.values[partNumber];
    assert pv1.inventory.values[partNumber] == p1;
    var out := ReleaseReservation(pv1, partNumber, quantity, requester);
    assert p1.(reservedQuantity := p1.reservedQuantity - quantity) == p;
    PutRestore(pv.inventory, partNumber, p1);
  }

  datatype LowStockItem = LowStockItem(
    partNumber: string,
    netAvailable: int,
    reorderPoint: int,
    supplier: string,
    leadTimeDays: int)

  /** Whether the part under key `k` is at or below its reorder point. */
  function IsLowIn(inv: Dict<string, Part>): string -> bool {
    (k: string) => k in inv.values && NetAvailable(inv.values[k]) <= inv.values[k].reorderPoint
  }

  /** The low-stock row reported for the part under key `k`. */
  function LowItem(inv: Dict<string, Part>, k: string): LowStockItem
    requires k in inv.values
  {
    var p := inv.values[k];
    LowStockItem(k, NetAvailable(p), p.reorderPoint, p.supplier, p.leadTimeDays)
  }

  /** One row per low key, in the order of `keys`. */
  function LowStockFrom(inv: Dict<string, Part>, keys: seq<string>): (items: seq<LowStockItem>)
    requires forall k :: k in keys ==> k in inv.values
    ensures var ks := Filter(IsLowIn(inv), keys);
            |items| == |ks| && forall i :: 0 <= i < |items| ==> items[i] == LowItem(inv, ks[i])
    ensures forall it :: it in items ==>
              it.partNumber in keys && it.netAvailable == NetAvailable(inv.values[it.partNumber])
              && it.netAvailable <= inv.values[it.partNumber].reorderPoint
    ensures forall k :: k in keys && NetAvailable(inv.values[k]) <= inv.values[k].reorderPoint ==>
              exists it :: it in items && it.partNumber == k
    decreases |keys|
  {
    if |keys| == 0 then []
    else
      var p := inv.values[keys[0]];
      var rest := LowStockFrom(inv, keys[1..]);
      if NetAvailable(p) <= p.reorderPoint then
        [LowItem(inv, keys[0])] + rest
      else rest
  }

  /** `get_low_stock_items`: exactly the parts whose net available stock is
      at or below their reorder point, in table order. */
  function GetLowStockItems(pv: Provider): (items: seq<LowStockItem>)
    requires Valid(pv.inventory)
    ensures var ks := Filter(IsLowIn(pv.inventory), pv.inventory.keys);
            |items| == |ks| && forall i :: 0 <= i < |items| ==> items[i] == LowItem(pv.inventory, ks[i])
    ensures forall it :: it in items ==>
              it.partNumber in pv.inventory.values
              && it.netAvailable == NetAvailable(pv.inventory.values[it.partNumber])
              && it.netAvailable <= pv.inventory.values[it.partNumber].reorderPoint
    ensures forall k :: (k in pv.inventory.values
                         && NetAvailable(pv.inventory.values[k]) <= pv.inventory.values[k].reorderPoint) ==>
              exists it :: it in items && it.partNumber == k
  {
    LowStockFrom(pv.inventory, pv.inventory.keys)
  }

  function RecordPart(r: LogRecord): string {
    r.partNumber
  }

  /** Whether a log record concerns the part. */
  function ForPart(partNumber: string): LogRecord -> bool {
    (r: LogRecord) => r.partNumber == partNumber
  }

  /** `get_reservation_history`: with a non-empty part number, that part's
      records in log order; otherwise the whole log. */
  function GetReservationHistory(pv: Provider, partNumber: Option<string>): (rs: seq<LogRecord>)
    ensures partNumber.None? || partNumber.value == "" ==> rs == pv.log
    ensures partNumber.Some? && partNumber.value != "" ==>
              forall r :: r in rs <==> r in pv.log && r.partNumber == partNumber.value
    ensures partNumber.Some? && partNumber.value != "" ==> rs == Filter(ForPart(partNumber.value), pv.log)
  {
    if partNumber.None? || partNumber.value == "" then pv.log
    else Filter(ForPart(partNumber.value), pv.log)
  }

  /** A successful reservation adds its record to the end of that part's
      history and leaves every other part's history as it was. */
  lemma ReserveExtendsHistory(pv: Provider, partNumber: string, quantity: int, requester: string, other: string)
    requires Valid(pv.inventory) && other != ""
    requires ReserveQuantity(pv, partNumber, quantity, requester).0.Success?
    ensures var pv1 := ReserveQuantity(pv, partNumber, quantity, requester).1;
            var before := GetReservationHistory(pv, Some(other));
            var after := GetReservationHistory(pv1, Some(other));
            (other == partNumber ==> after == before + [pv1.log[|pv.log|]])
            && (other != partNumber ==> after == before)
  {
    var pv1 := ReserveQuantity(pv, partNumber, quantity, requester).1;
    assert pv1.log == pv.log + [pv1.log[|pv.log|]];
    FilterConcat(ForPart(other), pv.log, [pv1.log[|pv.log|]]);
  }

  datatype SearchField = DescriptionField | CategoryField | SupplierField

  datatype SearchHit = SearchHit(
    partNumber: string,
    description: string,
    category: string,
    supplier: string,
    netAvailable: int,
    costPerUnit: real)

  function FieldNamed(name: string): Option<SearchField> {
    if name == "description" then Some(DescriptionField)
    else if name == "category" then Some(CategoryField)
    else if name == "supplier" then Some(SupplierField)
    else None
  }

  function FieldValue(p: Part, f: SearchField): string {
    match f
    case DescriptionField => p.description
    case CategoryField => p.category
    case SupplierField => p.supplier
  }

  predicate FieldMatches(p: Part, f: SearchField, term: string) {
    Contains(Lower(FieldValue(p, f)), Lower(term))
  }

  /** Whether the part under key `k` matches the search. */
  function MatchesIn(inv: Dict<string, Part>, f: SearchField, term: string): string -> bool {
    (k: string) => k in inv.values && FieldMatches(inv.values[k], f, term)
  }

  /** The search row reported for the part under key `k`. */
  function HitFor(inv: Dict<string, Part>, k: string): SearchHit
    requires k in inv.values
  {
    var p := inv.values[k];
    SearchHit(k, p.description, p.category, p.supplier, NetAvailable(p), p.costPerUnit)
  }

  /** One row per matching key, in the order of `keys`. */
  function SearchFrom(inv: Dict<string, Part>, keys: seq<string>, f: SearchField, term: string)
    : (hits: seq<SearchHit>)
    requires forall k :: k in keys ==> k in inv.values
    ensures var ks := Filter(MatchesIn(inv, f, term), keys);
            |hits| == |ks| && forall i :: 0 <= i < |hits| ==> hits[i] == HitFor(inv, ks[i])
    ensures forall h :: h in hits ==> h.partNumber in keys && FieldMatches(inv.values[h.partNumber], f, term)
    ensures forall k :: k in keys && FieldMatches(inv.values[k], f, term) ==>
              exists h :: h in hits && h.partNumber == k
    decreases |keys|
  {
    if |keys| == 0 then []
    else
      var p := inv.values[keys[0]];
      var rest := SearchFrom(inv, keys[1..], f, term);
      if FieldMatches(p, f, term) then
        [HitFor(inv, keys[0])] + rest
      else rest
  }

  /** `search_parts`: an unknown field is an error; otherwise the parts whose
      field contains the term, ignoring case, in table order. */
  function SearchParts(pv: Provider, term: string, field: string): (r: Result<seq<SearchHit>, InventoryError>)
    requires Valid(pv.inventory)
    ensures r.Failure? <==> field !in ["description", "category", "supplier"]
    ensures r.Success? ==>
              var f := FieldNamed(field).value;
              (forall h :: h in r.value ==>
                 h.partNumber in pv.inventory.values && FieldMatches(pv.inventory.values[h.partNumber], f, term))
              && (forall k :: k in pv.inventory.values && FieldMatches(pv.inventory.values[k], f, term) ==>
                    exists h :: h in r.value && h.partNumber == k)
    ensures r.Success? ==>
              var ks := Filter(MatchesIn(pv.inventory, FieldNamed(field).value, term), pv.inventory.keys);
              |r.value| == |ks| && forall i :: 0 <= i < |r.value| ==> r.value[i] == HitFor(pv.inventory, ks[i])
  {
    match FieldNamed(field)
    case None => Failure(InvalidSearchField)
    case Some(f) => Success(SearchFrom(pv.inventory, pv.inventory.keys, f, term))
  }
}

=== FILE: inventory_service.dfy ===
/** The inventory service (src/logistics_system/core/inventory_service.py):
    parts loaded from the configured catalogue with defaults, availability
    with an action recommendation, same-family alternatives, reservation
    that moves units from available to reserved, and a status report. */
module InventoryService {
  import opened Wrappers
  import opened Text
  import opened Seqs
  import opened OrderedMap

  /** One `parts_catalog` entry of the configuration; absent keys are None. */
  datatype CatalogEntry = CatalogEntry(
    description: Option<string>,
    availableQuantity: Option<int>,
    reservedQuantity: Option<int>,
    reorderPoint: Option<int>,
    maximumStock: Option<int>,
    warehouseLocation: Option<string>,
    costPerUnit: Option<real>,
    supplier: Option<string>,
    leadTimeDays: Option<int>)

  datatype ServicePart = ServicePart(
    name: string,
    currentStock: int,
    reservedQuantity: int,
    availableQuantity: int,
    minimumStock: int,
    maximumStock: int,
    location: string,
    costPerUnit: real,
    supplier: string,
    leadTimeDays: int)

  type Inventory = Dict<string, ServicePart>

  /** The record built for one catalogue entry, with the loader's defaults. */
  function LoadPart(partNumber: string, e: CatalogEntry): (p: ServicePart)
    ensures p.currentStock == p.availableQuantity + p.reservedQuantity
    ensures p.availableQuantity == e.availableQuantity.GetOr(0)
    ensures p.reservedQuantity == e.reservedQuantity.GetOr(0)
    ensures p.name == e.description.GetOr("Part " + partNumber)
    ensures p.minimumStock == e.reorderPoint.GetOr(10) && p.maximumStock == e.maximumStock.GetOr(100)
    ensures p.costPerUnit == e.costPerUnit.GetOr(100.0) && p.leadTimeDays == e.leadTimeDays.GetOr(7)
  {
    var avail := e.availableQuantity.GetOr(0);
    var reserved := e.reservedQuantity.GetOr(0);
    ServicePart(e.description.GetOr("Part " + partNumber), avail + reserved, reserved, avail,
                e.reorderPoint.GetOr(10), e.maximumStock.GetOr(100),
                e.warehouseLocation.GetOr("Unknown Location"), e.costPerUnit.GetOr(100.0),
                e.supplier.GetOr("Unknown Supplier"), e.leadTimeDays.GetOr(7))
  }

  function LoadAll(catalog: seq<(string, CatalogEntry)>): (inv: Inventory)
    ensures Valid(inv)
    ensures forall k :: k in inv.values <==> exists i :: 0 <= i < |catalog| && catalog[i].0 == k
    ensures forall k :: k in inv.values ==>
              inv.values[k].currentStock == inv.values[k].availableQuantity + inv.values[k].reservedQuantity
    ensures forall k :: k in inv.values ==>
              exists i :: 0 <= i < |catalog| && catalog[i].0 == k && inv.values[k] == LoadPart(k, catalog[i].1)
    ensures forall i :: LastOfKey(catalog, i) ==>
              inv.values[catalog[i].0] == LoadPart(catalog[i].0, catalog[i].1)
  {
    var pairs := seq(|catalog|, i requires 0 <= i < |catalog| => (catalog[i].0, LoadPart(catalog[i].0, catalog[i].1)));
    var inv := FromPairs(pairs);
    LoadAllTies(catalog, pairs, inv);
    inv
  }

  /** What FromPairs promises, restated over the catalogue the pairs come from. */
  lemma LoadAllTies(catalog: seq<(string, CatalogEntry)>, pairs: seq<(string, ServicePart)>,
                    inv: Inventory)
    requires |pairs| == |catalog|
    requires forall i :: 0 <= i < |catalog| ==> pairs[i].0 == catalog[i].0
    requires forall i :: 0 <= i < |catalog| ==> pairs[i].1 == LoadPart(catalog[i].0, catalog[i].1)
    requires inv == FromPairs(pairs)
    ensures forall k :: k in inv.values <==> exists i :: 0 <= i < |catalog| && catalog[i].0 == k
    ensures forall k :: k in inv.values ==>
              exists i :: 0 <= i < |catalog| && catalog[i].0 == k && inv.values[k] == LoadPart(k, catalog[i].1)
    ensures forall i :: LastOfKey(catalog, i) ==>
              inv.values[catalog[i].0] == LoadPart(catalog[i].0, catalog[i].1)
  {
    forall k | k in inv.values
      ensures exists i :: 0 <= i < |catalog| && catalog[i].0 == k && inv.values[k] == LoadPart(k, catalog[i].1)
    {
      var i :| 0 <= i < |pairs| && pairs[i] == (k, inv.values[k]);
      assert pairs[i].0 == catalog[i].0 && pairs[i].1 == inv.values[k];
    }
    forall i | LastOfKey(catalog, i)
      ensures inv.values[catalog[i].0] == LoadPart(catalog[i].0, catalog[i].1)
    {
      assert LastOfKey(pairs, i) by {
        forall j | i < j < |pairs| ensures pairs[j].0 != pairs[i].0 {
          assert pairs[j].0 == catalog[j].0;
        }
      }
      FromPairsLastWins(pairs, i);
    }
  }

  /** The single part kept when the configuration cannot be read. */
  const FallbackPart := ServicePart("Hydraulic Pump HP450", 24, 2, 22, 5, 50, "Central Warehouse",
                                    245.0, "HydroTech Systems", 1)

  /** `_load_inventory_configuration`: `None` stands for a failed read. */
  function LoadConfiguration(catalog: Option<seq<(string, CatalogEntry)>>): (inv: Inventory)
    ensures Valid(inv)
    ensures catalog.None? ==> inv.keys == ["HYDRAULIC-PUMP-HP450"]
                              && inv.values == map["HYDRAULIC-PUMP-HP450" := FallbackPart]
    ensures catalog.Some? ==> inv == LoadAll(catalog.value)
    ensures catalog.Some? ==> forall k :: k in inv.values <==> exists i :: 0 <= i < |catalog.value| && catalog.value[i].0 == k
    ensures catalog.Some? ==> forall i :: LastOfKey(catalog.value, i) ==>
              inv.values[catalog.value[i].0] == LoadPart(catalog.value[i].0, catalog.value[i].1)
    ensures forall k :: k in inv.values ==>
              inv.values[k].currentStock == inv.values[k].availableQuantity + inv.values[k].reservedQuantity
  {
    match catalog
    case None => Put(Empty(), "HYDRAULIC-PUMP-HP450", FallbackPart)
    case Some(c) => LoadAll(c)
  }

  /** `get_inventory_info`: the record (a value, so a copy) or None. */
  function GetInventoryInfo(inv: Inventory, partNumber: string): (r: Option<ServicePart>)
    ensures r.Some? <==> partNumber in inv.values
    ensures r.Some? ==> r.value == inv.values[partNumber]
  {
    Get(inv, partNumber)
  }

  /** The keyword the alternatives of a part number must contain, if any:
      the first of the three patterns the part number contains. */
  function FamilyKeyword(partNumber: string): (kw: Option<string>)
    ensures kw.Some? ==> kw.value in ["HYDRAULIC", "MOTOR", "VALVE"]
    ensures kw.None? <==>
              !Contains(partNumber, "HYDRAULIC-PUMP") && !Contains(partNumber, "MOTOR")
              && !Contains(partNumber, "VALVE")
  {
    if Contains(partNumber, "HYDRAULIC-PUMP") then Some("HYDRAULIC")
    else if Contains(partNumber, "MOTOR") then Some("MOTOR")
    else if Contains(partNumber, "VALVE") then Some("VALVE")
    else None
  }

  /** `get_alternative_parts`: the first three other parts, in table order,
      whose number contains the family keyword. */
  function GetAlternativeParts(inv: Inventory, partNumber: string): (alts: seq<string>)
    ensures |alts| <= 3
    ensures partNumber !in alts
    ensures FamilyKeyword(partNumber).None? ==> alts == []
    ensures FamilyKeyword(partNumber).Some? ==>
              var kw := FamilyKeyword(partNumber).value;
              var all := Filter((p: string) => Contains(p, kw) && p != partNumber, inv.keys);
              alts == all[..if |all| < 3 then |all| else 3]
              && forall a :: a in alts ==> a in inv.keys && Contains(a, kw)
  {
    match FamilyKeyword(partNumber)
    case None => []
    case Some(kw) =>
      var all := Filter((p: string) => Contains(p, kw) && p != partNumber, inv.keys);
      var alts := all[..if |all| < 3 then |all| else 3];
      assert forall a :: a in alts ==> a in all;
      alts
  }

  datatype Action = Approve | Backorder | Expedite

  datatype Availability =
    | PartUnknown(partNumber: string, alternatives: seq<string>)
    | Checked(
        available: bool,
        partNumber: string,
        quantityNeeded: int,
        quantityAvailable: int,
        currentStock: int,
        totalCost: real,
        action: Action,
        shortage: Option<int>,
        alternativeParts: Option<seq<string>>)

  /** `check_availability` without the language-model commentary. */
  function CheckAvailability(inv: Inventory, partNumber: string, needed: int, priority: string)
    : (r: Availability)
    ensures r.PartUnknown? <==> partNumber !in inv.values
    ensures r.PartUnknown? ==> r.alternatives == GetAlternativeParts(inv, partNumber)
    ensures r.Checked? ==>
              var p := inv.values[partNumber];
              (r.available <==> p.availableQuantity >= needed)
              && r.totalCost == p.costPerUnit * needed as real
              && (r.available ==> r.action == Approve && r.shortage.None? && r.alternativeParts.None?)
              && (!r.available ==>
                    r.shortage == Some(needed - p.availableQuantity) && r.shortage.value > 0
                    && (r.action == Backorder <==> priority in ["LOW", "MEDIUM"])
                    && (r.action == Expedite <==> priority !in ["LOW", "MEDIUM"])
                    && r.alternativeParts == Some(GetAlternativeParts(inv, partNumber)))
  {
    match GetInventoryInfo(inv, partNumber)
    case None => PartUnknown(partNumber, GetAlternativeParts(inv, partNumber))
    case Some(p) =>
      var ok := p.availableQuantity >= needed;
      var cost := p.costPerUnit * needed as real;
      if ok then
        Checked(true, partNumber, needed, p.availableQuantity, p.currentStock, cost, Approve, None, None)
      else
        Checked(false, partNumber, needed, p.availableQuantity, p.currentStock, cost,
                if priority in ["LOW", "MEDIUM"] then Backorder else Expedite,
                Some(needed - p.availableQuantity), Some(GetAlternativeParts(inv, partNumber)))
  }

  datatype ReserveError = UnknownPart(partNumber: string) | InsufficientStock(needed: int, available: int)

  datatype Reserved = Reserved(reservationId: string, partNumber: string, quantityReserved: int,
                               requester: string, reason: string)

  /** `reserve_inventory`; `stamp` is the clock reading in the reservation id. */
  function ReserveInventory(inv: Inventory, partNumber: string, quantity: int, requester: string,
                            reason: string, stamp: string)
    : (out: (Result<Reserved, ReserveError>, Inventory))
    requires Valid(inv)
    ensures Valid(out.1)
    ensures out.0.Failure? ==> out.1 == inv
    ensures partNumber !in inv.values ==> out.0 == Failure(UnknownPart(partNumber))
    ensures partNumber in inv.values ==>
              (out.0.Success? <==> inv.values[partNumber].availableQuantity >= quantity)
    ensures out.0.Success? ==>
              partNumber in inv.values && partNumber in out.1.values &&
              var p := inv.values[partNumber];
              var p' := out.1.values[partNumber];
              out.1.keys == inv.keys
              && (forall k :: k in inv.values && k != partNumber ==> out.1.values[k] == inv.values[k])
              && p'.availableQuantity == p.availableQuantity - quantity
              && p'.reservedQuantity == p.reservedQuantity + quantity
              && p'.availableQuantity + p'.reservedQuantity == p.availableQuantity + p.reservedQuantity
              && p'.currentStock == p.currentStock
              && out.0.value.reservationId == "RES-" + partNumber + "-" + stamp
  {
    match GetInventoryInfo(inv, partNumber)
    case None => (Failure(UnknownPart(partNumber)), inv)
    case Some(p) =>
      if p.availableQuantity < quantity then
        (Failure(InsufficientStock(quantity, p.availableQuantity)), inv)
      else
        var p' := p.(reservedQuantity := p.reservedQuantity + quantity,
                     availableQuantity := p.availableQuantity - quantity);
        (Success(Reserved("RES-" + partNumber + "-" + stamp, partNumber, quantity, requester, reason)),
         Put(inv, partNumber, p'))
  }

  /** Stock is consistent: current stock is available plus reserved. */
  ghost predicate Consistent(inv: Inventory) {
    forall k :: k in inv.values ==>
      inv.values[k].currentStock == inv.values[k].availableQuantity + inv.values[k].reservedQuantity
  }

  /** Loading makes the stock consistent, and reserving keeps it so. */
  lemma ReservePreservesConsistency(inv: Inventory, partNumber: string, quantity: int,
                                    requester: string, reason: string, stamp: string)
    requires Valid(inv) && Consistent(inv)
    ensures Consistent(ReserveInventory(inv, partNumber, quantity, requester, reason, stamp).1)
  {
  }

  datatype StockLevel = Ok | Low

  datatype PartStatus = PartStatus(
    name: string,
    currentStock: int,
    availableQuantity: int,
    reservedQuantity: int,
    minimumStock: int,
    stockLevel: StockLevel,
    location: string,
    value: real)

  datatype StatusReport = StatusReport(
    totalParts: nat,
    totalInventoryValue: real,
    lowStockCount: nat,
    lowStockItems: seq<string>,
    partsStatus: Dict<string, PartStatus>)

  function StatusOf(p: ServicePart): (s: PartStatus)
    ensures s.stockLevel == Ok <==> p.currentStock >= p.minimumStock
    ensures s.value == p.currentStock as real * p.costPerUnit
  {
    PartStatus(p.name, p.currentStock, p.availableQuantity, p.reservedQuantity, p.minimumStock,
               if p.currentStock >= p.minimumStock then Ok else Low, p.location,
               p.currentStock as real * p.costPerUnit)
  }

  predicate IsLowStock(p: ServicePart) {
    p.currentStock <= p.minimumStock
  }

  /** Sum of the stock values of the known parts named, each time it is named. */
  function TotalValue(inv: Inventory, pns: seq<string>): real
    decreases |pns|
  {
    if |pns| == 0 then 0.0
    else
      var rest := TotalValue(inv, pns[..|pns| - 1]);
      var pn := pns[|pns| - 1];
      if pn in inv.values then rest + inv.values[pn].currentStock as real * inv.values[pn].costPerUnit
      else rest
  }

  /** Value adds up over consecutive lists of part numbers, so a number
      named twice is counted twice. */
  lemma {:induction false} TotalValueConcat(inv: Inventory, a: seq<string>, b: seq<string>)
    ensures TotalValue(inv, a + b) == TotalValue(inv, a) + TotalValue(inv, b)
    decreases |b|
  {
    if |b| == 0 {
      assert a + b == a;
    } else {
      assert (a + b)[..|a + b| - 1] == a + b[..|b| - 1];
      TotalValueConcat(inv, a, b[..|b| - 1]);
    }
  }

  /** The per-part status table: one entry per distinct known part named,
      in first-mention order. */
  function PartsStatus(inv: Inventory, pns: seq<string>): (d: Dict<string, PartStatus>)
    requires Valid(inv)
    ensures Valid(d)
    ensures forall k :: k in d.values <==> k in pns && k in inv.values
    ensures forall k :: k in d.values ==> d.values[k] == StatusOf(inv.values[k])
    decreases |pns|
  {
    if |pns| == 0 then Empty()
    else
      var init := pns[..|pns| - 1];
      var pn := pns[|pns| - 1];
      assert pns == init + [pn];
      var d := PartsStatus(inv, init);
      match GetInventoryInfo(inv, pn)
      case None => d
      case Some(p) => Put(d, pn, StatusOf(p))
  }

  /** Whether a part number names a known part at or below its minimum. */
  function LowIn(inv: Inventory): string -> bool {
    (k: string) => k in inv.values && IsLowStock(inv.values[k])
  }

  /** `get_inventory_status`: `None` means every part; an empty list
      reports nothing. */
  function GetInventoryStatus(inv: Inventory, partNumbers: Option<seq<string>>): (r: StatusReport)
    requires Valid(inv)
    ensures var pns := if partNumbers.None? then inv.keys else partNumbers.value;
            (forall k :: k in r.partsStatus.values <==> k in pns && k in inv.values)
            && (forall k :: k in r.partsStatus.values ==>
                  (r.partsStatus.values[k].stockLevel == Ok <==>
                     inv.values[k].currentStock >= inv.values[k].minimumStock))
            && (forall k :: k in r.lowStockItems <==>
                  k in pns && k in inv.values && inv.values[k].currentStock <= inv.values[k].minimumStock)
            && r.lowStockItems == Filter(LowIn(inv), pns)
            && r.lowStockCount == |r.lowStockItems|
            && r.totalParts == |r.partsStatus.keys|
            && r.totalInventoryValue == TotalValue(inv, pns)
  {
    var pns := if partNumbers.None? then inv.keys else partNumbers.value;
    var d := PartsStatus(inv, pns);
    var low := Filter(LowIn(inv), pns);
    StatusReport(|d.keys|, TotalValue(inv, pns), |low|, low, d)
  }

  /** The low-stock list follows the part numbers as named: the report for
      two lists joined lists the low parts of each in turn, repeats kept. */
  lemma LowStockListsJoin(inv: Inventory, a: seq<string>, b: seq<string>)
    requires Valid(inv)
    ensures GetInventoryStatus(inv, Some(a + b)).lowStockItems
            == GetInventoryStatus(inv, Some(a)).lowStockItems + GetInventoryStatus(inv, Some(b)).lowStockItems
    ensures GetInventoryStatus(inv, Some(a + b)).lowStockCount
            == GetInventoryStatus(inv, Some(a)).lowStockCount + GetInventoryStatus(inv, Some(b)).lowStockCount
  {
    FilterConcat(LowIn(inv), a, b);
  }

  /** A part whose stock equals its minimum is reported with level OK and is
      also listed as low on stock. */
  lemma AtMinimumBothOkAndLow(inv: Inventory, partNumber: string)
    requires Valid(inv) && partNumber in inv.values
    requires inv.values[partNumber].currentStock == inv.values[partNumber].minimumStock
    ensures var r := GetInventoryStatus(inv, Some([partNumber]));
            r.partsStatus.values[partNumber].stockLevel == Ok && partNumber in r.lowStockItems
  {
  }
}

=== FILE: observability.dfy ===
/** The observability capture (strands_observability.py): the message
    record and its UI form, the append-only capture log with its tool-call
    table, and the agent wrapper that numbers its calls. Clock readings
    are parameters; `str()` and `json.dumps` renderings of parameters and
    results are given as text. Subscriber callbacks, the file log and the
    lock are not modelled. */
module Observability {
  import opened Wrappers
  import opened Text

  datatype ObsMessage = ObsMessage(timestamp: string, agentName: string, messageType: string,
                                   content: string, level: string, step: int,
                                   progress: Option<real>, metadata: Option<map<string, string>>)

  /** The dictionary `to_ui_format` builds, field by field. */
  datatype UiMessage = UiMessage(step: int, agent: string, message: string, timestamp: string,
                                 level: string, progress: Option<real>, messageType: string,
                                 metadata: map<string, string>)

  /** The agent name as shown: upper case, underscores as spaces. */
  function DisplayName(name: string): (r: string)
    ensures |r| == |name|
    ensures forall i :: 0 <= i < |name| ==> r[i] == (if name[i] == '_' then ' ' else UpperChar(name[i]))
  {
    var up := Upper(name);
    seq(|up|, i requires 0 <= i < |up| => if up[i] == '_' then ' ' else up[i])
  }

  /** `to_ui_format`: the same step, content, timestamp, level, progress
      and type; a missing metadata map becomes empty. */
  function ToUiFormat(m: ObsMessage): (u: UiMessage)
    ensures u.step == m.step && u.message == m.content && u.messageType == m.messageType
    ensures u.timestamp == m.timestamp && u.level == m.level && u.progress == m.progress
    ensures u.agent == DisplayName(m.agentName)
    ensures u.metadata == m.metadata.GetOr(map[])
  {
    UiMessage(m.step, DisplayName(m.agentName), m.content, m.timestamp, m.level, m.progress,
              m.messageType, m.metadata.GetOr(map[]))
  }

  /** Displayed names hold no underscore and no lower-case ASCII letter,
      so showing a displayed name again changes nothing. */
  lemma DisplayNameNormalised(name: string)
    ensures '_' !in DisplayName(name)
    ensures DisplayName(DisplayName(name)) == DisplayName(name)
  {
    var d := DisplayName(name);
    assert forall i :: 0 <= i < |d| ==> d[i] != '_';
    assert forall i :: 0 <= i < |d| ==> DisplayName(d)[i] == d[i];
  }

  /** One stored tool call. */
  datatype ToolCall = ToolCall(agent: string, tool: string, parameters: string, result: string,
                               timestamp: string, step: int)

  datatype Capture = Capture(messages: seq<ObsMessage>, toolCalls: map<string, ToolCall>,
                             agentCommunications: seq<map<string, string>>)

  const Fresh := Capture([], map[], [])

  function Prefix(s: string, n: nat): (r: string)
    ensures |r| <= n && |r| <= |s| && r == s[..|r|]
    ensures |s| <= n ==> r == s
  {
    if |s| <= n then s else s[..n]
  }

  /** `capture_log_message`: appends exactly one `log` message with the
      given level and step; nothing else changes. */
  function CaptureLog(c: Capture, agent: string, level: string, message: string, step: int,
                      now: string): (c': Capture)
    ensures |c'.messages| == |c.messages| + 1 && c'.messages[..|c.messages|] == c.messages
    ensures var m := c'.messages[|c.messages|];
            m.messageType == "log" && m.agentName == agent && m.content == message &&
            m.level == level && m.step == step && m.progress.None? && m.metadata.None?
    ensures c'.toolCalls == c.toolCalls && c'.agentCommunications == c.agentCommunications
  {
    c.(messages := c.messages + [ObsMessage(now, agent, "log", message, level, step, None, None)])
  }

  /** `capture_progress_update`: appends exactly one `progress` message at
      level `info` carrying the progress value and the step. */
  function CaptureProgress(c: Capture, agent: string, progress: real, message: string, step: int,
                           now: string): (c': Capture)
    ensures |c'.messages| == |c.messages| + 1 && c'.messages[..|c.messages|] == c.messages
    ensures var m := c'.messages[|c.messages|];
            m.messageType == "progress" && m.agentName == agent && m.content == message &&
            m.level == "info" && m.step == step && m.progress == Some(progress)
    ensures c'.toolCalls == c.toolCalls && c'.agentCommunications == c.agentCommunications
  {
    c.(messages := c.messages + [ObsMessage(now, agent, "progress", message, "info", step, Some(progress), None)])
  }

  /** The tool-call id: the tool name and the clock in whole seconds. */
  function ToolId(tool: string, seconds: int): string {
    tool + "_" + IntToString(seconds)
  }

  /** `capture_tool_call`: stores the call under its id (a call of the same
      tool in the same second replaces the stored one) and appends one
      `tool_call` message whose metadata names that id and the first 100
      characters of the result. */
  function CaptureToolCall(c: Capture, agent: string, tool: string, parameters: string, result: string,
                           step: int, seconds: int, now: string, isoNow: string): (c': Capture)
    ensures var id := ToolId(tool, seconds);
            id in c'.toolCalls && c'.toolCalls[id].tool == tool && c'.toolCalls[id].result == result &&
            c'.toolCalls[id].step == step &&
            c'.toolCalls.Keys == c.toolCalls.Keys + {id} &&
            forall k :: k in c.toolCalls && k != id ==> c'.toolCalls[k] == c.toolCalls[k]
    ensures |c'.messages| == |c.messages| + 1 && c'.messages[..|c.messages|] == c.messages
    ensures var m := c'.messages[|c.messages|];
            m.messageType == "tool_call" && m.agentName == agent && m.step == step &&
            m.metadata.Some? && "tool_id" in m.metadata.value && "result_preview" in m.metadata.value &&
            m.metadata.value["tool_id"] == ToolId(tool, seconds) &&
            |m.metadata.value["result_preview"]| <= 100
    ensures c'.agentCommunications == c.agentCommunications
  {
    var id := ToolId(tool, seconds);
    var m := ObsMessage(now, agent, "tool_call", "🛠️ Called " + tool + " with params: " + parameters,
                        "info", step, None, Some(map["tool_id" := id, "result_preview" := Prefix(result, 100)]));
    c.(toolCalls := c.toolCalls[id := ToolCall(agent, tool, parameters, result, isoNow, step)],
       messages := c.messages + [m])
  }

  /** `get_messages_for_ui`: every message, in order, in UI form. */
  function GetMessagesForUi(c: Capture): (r: seq<UiMessage>)
    ensures |r| == |c.messages|
    ensures forall i :: 0 <= i < |r| ==> r[i] == ToUiFormat(c.messages[i])
  {
    seq(|c.messages|, i requires 0 <= i < |c.messages| => ToUiFormat(c.messages[i]))
  }

  /** Capturing never reorders or drops what the UI already showed: the
      UI list after a capture is the list before plus the new message. */
  lemma CaptureExtendsUiList(c: Capture, agent: string, level: string, message: string, step: int,
                             now: string)
    ensures var c' := CaptureLog(c, agent, level, message, step, now);
            GetMessagesForUi(c') == GetMessagesForUi(c) + [ToUiFormat(c'.messages[|c.messages|])]
  {
    var c' := CaptureLog(c, agent, level, message, step, now);
    assert forall i :: 0 <= i < |c.messages| ==> c'.messages[i] == c.messages[i];
  }

  /** `get_tool_call_details` */
  function GetToolCallDetails(c: Capture, id: string): (r: Option<ToolCall>)
    ensures r.Some? <==> id in c.toolCalls
    ensures r.Some? ==> r.value == c.toolCalls[id]
  {
    if id in c.toolCalls then Some(c.toolCalls[id]) else None
  }

  /** `clear`: messages, tool calls and agent communications all emptied. */
  function Clear(c: Capture): (c': Capture)
    ensures c'.messages == [] && c'.toolCalls == map[] && c'.agentCommunications == []
  {
    Capture([], map[], [])
  }

  /** After a clear nothing is shown and no tool call can be looked up. */
  lemma ClearForgets(c: Capture, id: string)
    ensures GetMessagesForUi(Clear(c)) == []
    ensures GetToolCallDetails(Clear(c), id).None?
  {
  }

  // ---------------------------------------------------------------------
  // ObservabilityAwareAgent
  // ---------------------------------------------------------------------

  datatype AwareAgent = AwareAgent(name: string, stepCounter: int)

  /** What the wrapped agent did: returned a result (given as its text) or
      raised an error (given as its text). */
  datatype Outcome = Returned(text: string) | Raised(error: string)

  /** `ObservabilityAwareAgent.__call__`: bumps the step counter, logs the
      request, then logs the response at `info` or the error at `error`,
      both under the new step, and passes the result on or re-raises. */
  function Call(a: AwareAgent, c: Capture, query: string, outcome: Outcome,
                before: string, after: string): (out: (AwareAgent, Capture, Result<string, string>))
    ensures out.0 == a.(stepCounter := a.stepCounter + 1)
    ensures |out.1.messages| == |c.messages| + 2 && out.1.messages[..|c.messages|] == c.messages
    ensures var request := out.1.messages[|c.messages|];
            var reply := out.1.messages[|c.messages| + 1];
            request.step == out.0.stepCounter && reply.step == out.0.stepCounter &&
            request.level == "info" && request.agentName == a.name && reply.agentName == a.name &&
            reply.level == (if outcome.Raised? then "error" else "info")
    ensures outcome.Returned? ==> out.2 == Success(outcome.text)
    ensures outcome.Raised? ==> out.2 == Failure(outcome.error)
    ensures out.1.toolCalls == c.toolCalls
  {
    var step := a.stepCounter + 1;
    var logged := CaptureLog(c, a.name, "info", "📥 Received request: " + Prefix(query, 100) + "...", step, before);
    match outcome
    case Returned(text) =>
      (a.(stepCounter := step),
       CaptureLog(logged, a.name, "info", "📤 Response generated: " + Prefix(text, 100) + "...", step, after),
       Success(text))
    case Raised(error) =>
      (a.(stepCounter := step),
       CaptureLog(logged, a.name, "error", "❌ Error: " + error, step, after),
       Failure(error))
  }

  /** A sequence of calls, each with its query, outcome and clock readings. */
  datatype CallInput = CallInput(query: string, outcome: Outcome, before: string, after: string)

  function Calls(a: AwareAgent, c: Capture, inputs: seq<CallInput>): (AwareAgent, Capture)
    decreases |inputs|
  {
    if inputs == [] then (a, c)
    else
      var prev := Calls(a, c, inputs[..|inputs| - 1]);
      var last := inputs[|inputs| - 1];
      var out := Call(prev.0, prev.1, last.query, last.outcome, last.before, last.after);
      (out.0, out.1)
  }

  /** Two messages per step, the k-th pair carrying step k. */
  ghost predicate NumberedInPairs(ms: seq<ObsMessage>) {
    |ms| % 2 == 0 && forall i :: 0 <= i < |ms| ==> ms[i].step == i / 2 + 1
  }

  lemma AppendPair(ms: seq<ObsMessage>, x: ObsMessage, y: ObsMessage)
    requires NumberedInPairs(ms)
    requires x.step == |ms| / 2 + 1 && y.step == |ms| / 2 + 1
    ensures NumberedInPairs(ms + [x, y])
  {
    var n := |ms| / 2;
    var r := ms + [x, y];
    forall i | 0 <= i < |r|
      ensures r[i].step == i / 2 + 1
    {
      if i < |ms| {
        assert r[i] == ms[i];
      } else if i == 2 * n {
        assert i / 2 == n;
      } else {
        assert i == 2 * n + 1 && i / 2 == n;
      }
    }
  }

  /** One call on a wrapper whose log is numbered in pairs extends the
      numbering by one more pair. */
  lemma CallAppendsPair(a: AwareAgent, c: Capture, x: CallInput)
    requires NumberedInPairs(c.messages) && a.stepCounter == |c.messages| / 2
    ensures var out := Call(a, c, x.query, x.outcome, x.before, x.after);
            out.0.stepCounter == a.stepCounter + 1 && |out.1.messages| == |c.messages| + 2 &&
            NumberedInPairs(out.1.messages)
  {
    var out := Call(a, c, x.query, x.outcome, x.before, x.after);
    var ms := c.messages;
    assert out.1.messages == ms + [out.1.messages[|ms|], out.1.messages[|ms| + 1]];
    AppendPair(ms, out.1.messages[|ms|], out.1.messages[|ms| + 1]);
  }

  /** A fresh wrapper called n times has counted n steps and logged two
      messages per call, the k-th pair carrying step k. */
  lemma {:induction false} CallsNumberSteps(name: string, inputs: seq<CallInput>)
    ensures var out := Calls(AwareAgent(name, 0), Fresh, inputs);
            out.0.stepCounter == |inputs| && |out.1.messages| == 2 * |inputs| &&
            NumberedInPairs(out.1.messages)
    decreases |inputs|
  {
    if inputs != [] {
      var init := inputs[..|inputs| - 1];
      CallsNumberSteps(name, init);
      var prev := Calls(AwareAgent(name, 0), Fresh, init);
      CallAppendsPair(prev.0, prev.1, inputs[|inputs| - 1]);
    }
  }
}

=== FILE: omap.dfy ===
/** Python's `dict`: a finite map that remembers insertion order. Assigning
    to an existing key keeps its position; a new key goes to the end;
    deleting a key keeps the order of the others. */
module OrderedMap {
  import opened Wrappers

  datatype Dict<K(==,!new), V> = Dict(keys: seq<K>, values: map<K, V>)

  /** The keys are distinct and are exactly the keys of the map. */
  ghost predicate Valid<K(!new), V>(d: Dict<K, V>) {
    Distinct(d.keys) && (forall k :: k in d.values <==> k in d.keys)
  }

  function Empty<K(==,!new), V>(): (d: Dict<K, V>)
    ensures Valid(d) && d.keys == [] && d.values == map[]
  {
    Dict([], map[])
  }

  function Get<K(==,!new), V>(d: Dict<K, V>, k: K): (r: Option<V>)
    ensures r.Some? <==> k in d.values
    ensures r.Some? ==> r.value == d.values[k]
  {
    if k in d.values then Some(d.values[k]) else None
  }

  /** `d[k] = v` */
  function Put<K(==,!new), V>(d: Dict<K, V>, k: K, v: V): (r: Dict<K, V>)
    requires Valid(d)
    ensures Valid(r)
    ensures r.values == d.values[k := v]
    ensures k in d.values ==> r.keys == d.keys
    ensures k !in d.values ==> r.keys == d.keys + [k]
  {
    if k in d.values then Dict(d.keys, d.values[k := v])
    else Dict(d.keys + [k], d.values[k := v])
  }

  /** Overwriting a key and then writing back its old value restores the
      dictionary, key order included. */
  lemma PutRestore<K(!new), V>(d: Dict<K, V>, k: K, v: V)
    requires Valid(d) && k in d.values
    ensures Put(Put(d, k, v), k, d.values[k]) == d
  {
    assert d.values[k := v][k := d.values[k]] == d.values;
  }

  /** The key sequence without `k`, order kept. */
  function RemoveKey<K(==,!new)>(ks: seq<K>, k: K): (r: seq<K>)
    ensures k !in r
    ensures forall x :: x in r <==> x in ks && x != k
    ensures |r| <= |ks|
    decreases |ks|
  {
    if |ks| == 0 then []
    else if ks[0] == k then RemoveKey(ks[1..], k)
    else [ks[0]] + RemoveKey(ks[1..], k)
  }

  predicate Distinct<K(==,!new)>(ks: seq<K>) {
    forall i, j :: 0 <= i < j < |ks| ==> ks[i] != ks[j]
  }

  lemma {:induction false} RemoveKeyDistinct<K(!new)>(ks: seq<K>, k: K)
    requires Distinct(ks)
    ensures Distinct(RemoveKey(ks, k))
    decreases |ks|
  {
    if |ks| > 0 {
      assert Distinct(ks[1..]) by {
        forall i, j | 0 <= i < j < |ks[1..]|
          ensures ks[1..][i] != ks[1..][j]
        {
          assert ks[1..][i] == ks[i + 1] && ks[1..][j] == ks[j + 1];
        }
      }
      RemoveKeyDistinct(ks[1..], k);
      var rest := RemoveKey(ks[1..], k);
      if ks[0] != k {
        assert ks[0] !in ks[1..] by {
          forall j | 0 <= j < |ks[1..]|
            ensures ks[1..][j] != ks[0]
          {
            assert ks[1..][j] == ks[j + 1];
          }
        }
        assert ks[0] !in rest;
        var r := [ks[0]] + rest;
        forall i, j | 0 <= i < j < |r|
          ensures r[i] != r[j]
        {
          assert r[j] == rest[j - 1];
          if i == 0 {
            assert rest[j - 1] in rest;
          } else {
            assert r[i] == rest[i - 1];
          }
        }
      }
    }
  }

  /** `del d[k]` (a missing key leaves `d` as it is). */
  function Remove<K(==,!new), V>(d: Dict<K, V>, k: K): (r: Dict<K, V>)
    requires Valid(d)
    ensures Valid(r)
    ensures r.values == d.values - {k}
  {
    RemoveKeyDistinct(d.keys, k);
    Dict(RemoveKey(d.keys, k), d.values - {k})
  }

  /** `list(d.values())`, in key order. */
  function Values<K(==,!new), V>(d: Dict<K, V>): (vs: seq<V>)
    requires Valid(d)
    ensures |vs| == |d.keys|
    ensures forall i :: 0 <= i < |vs| ==> d.keys[i] in d.values && vs[i] == d.values[d.keys[i]]
  {
    seq(|d.keys|, i requires 0 <= i < |d.keys| && Valid(d) => d.values[d.keys[i]])
  }

  /** A dict literal `{k1: v1, k2: v2, ...}`: later duplicates overwrite. */
  function FromPairs<K(==,!new), V>(pairs: seq<(K, V)>): (d: Dict<K, V>)
    ensures Valid(d)
    ensures forall i :: 0 <= i < |pairs| ==> pairs[i].0 in d.values
    ensures forall k :: k in d.values ==> exists i :: 0 <= i < |pairs| && pairs[i] == (k, d.values[k])
    decreases |pairs|
  {
    if |pairs| == 0 then Empty()
    else
      var d0 := FromPairs(pairs[..|pairs| - 1]);
      FromPairsStep(pairs, d0);
      Put(d0, pairs[|pairs| - 1].0, pairs[|pairs| - 1].1)
  }

  /** Pair `i` is the last one with its key, so a dict literal keeps its value. */
  ghost predicate LastOfKey<K, V>(pairs: seq<(K, V)>, i: int) {
    0 <= i < |pairs| && forall j :: i < j < |pairs| ==> pairs[j].0 != pairs[i].0
  }

  /** Later duplicates overwrite: the last pair with a key gives its value. */
  lemma {:induction false} FromPairsLastWins<K(!new), V>(pairs: seq<(K, V)>, i: int)
    requires LastOfKey(pairs, i)
    ensures pairs[i].0 in FromPairs(pairs).values
    ensures FromPairs(pairs).values[pairs[i].0] == pairs[i].1
    decreases |pairs|
  {
    var n := |pairs| - 1;
    var init := pairs[..n];
    var d0 := FromPairs(init);
    assert FromPairs(pairs) == Put(d0, pairs[n].0, pairs[n].1);
    if i < n {
      assert init[i] == pairs[i];
      assert LastOfKey(init, i) by {
        forall j | i < j < |init| ensures init[j].0 != init[i].0 {
          assert init[j] == pairs[j];
        }
      }
      FromPairsLastWins(init, i);
      assert pairs[n].0 != pairs[i].0;
    }
  }

  /** Adding the last pair to the dict built from the others. */
  lemma FromPairsStep<K(!new), V>(pairs: seq<(K, V)>, d0: Dict<K, V>)
    requires |pairs| > 0 && Valid(d0)
    requires forall i :: 0 <= i < |pairs| - 1 ==> pairs[i].0 in d0.values
    requires forall k :: k in d0.values ==> exists i :: 0 <= i < |pairs| - 1 && pairs[i] == (k, d0.values[k])
    ensures var d := Put(d0, pairs[|pairs| - 1].0, pairs[|pairs| - 1].1);
            (forall i :: 0 <= i < |pairs| ==> pairs[i].0 in d.values)
            && (forall k :: k in d.values ==> exists i :: 0 <= i < |pairs| && pairs[i] == (k, d.values[k]))
  {
    var n := |pairs| - 1;
    var d := Put(d0, pairs[n].0, pairs[n].1);
    forall k | k in d.values
      ensures exists i :: 0 <= i < |pairs| && pairs[i] == (k, d.values[k])
    {
      if k == pairs[n].0 {
        assert pairs[n] == (k, d.values[k]);
      } else {
        var i :| 0 <= i < n && pairs[i] == (k, d0.values[k]);
        assert pairs[i] == (k, d.values[k]);
      }
    }
  }
}

=== FILE: orchestrator.dfy ===
/** The orchestrator's bookkeeping (Agents/LogisticsOrchestratorAgent.py):
    the in-memory request store with its write, status update and active
    listing, the final-status decision, the cost estimate, the business
    justification text, and the status sequence the AI workflow writes.
    The three agents the workflow calls are inputs: each either returns
    its result or raises. Clock readings are parameters. */
module Orchestrator {
  import opened Wrappers
  import opened Text
  import opened Seqs
  import opened OrderedMap

  /** A JSON-like detail record; an empty one is falsy. */
  type Details = map<string, string>

  predicate Truthy(d: Option<Details>) {
    d.Some? && d.value != map[]
  }

  /** One stored request. Entries made by a status update for an unknown
      id have no request fields. */
  datatype Entry = Entry(
    requestId: string,
    timestamp: string,
    requestStatus: Option<string>,
    priority: Option<string>,
    fields: Option<RequestFields>,
    optionalFields: map<string, FieldValue>,
    lastUpdated: Option<string>,
    acceptedTimestamp: Option<string>,
    completedTimestamp: Option<string>,
    failedTimestamp: Option<string>,
    errorDetails: Option<Details>,
    orchestrationDetails: Option<Details>)

  /** An optional field is stored with the value the request gave it:
      the remaining quantity is a number, the other fields text. */
  datatype FieldValue = TextValue(text: string) | NumberValue(number: int)

  datatype RequestFields = RequestFields(orderId: string, partNumber: string, quantityRequested: int,
                                         currentBinLevel: int, maxBinCapacity: int)

  type Store = Dict<string, Entry>

  /** The incoming request: each field under its snake-case key, its
      CamelCase key, or absent. */
  datatype RequestData = RequestData(
    requestId: Option<string>,
    orderId: Option<string>, orderIdAlt: Option<string>,
    partNumber: Option<string>, partNumberAlt: Option<string>,
    quantityRequested: Option<int>, remainingQuantityRequired: Option<int>,
    currentBinLevel: Option<int>, currentBinLevelAlt: Option<int>,
    maxBinCapacity: Option<int>, maxBinCapacityAlt: Option<int>,
    /** Every other key, with its value as text. */
    other: map<string, string>)

  /** `d.get(a, d.get(b, default))` */
  function Pick<T>(a: Option<T>, b: Option<T>, default: T): T {
    if a.Some? then a.value else b.GetOr(default)
  }

  const OptionalFieldNames := {"BinLevelPercent", "RemainingQuantityRequired", "RequestedBy", "Location"}

  const RemainingKey := "RemainingQuantityRequired"

  function Fields(d: RequestData): (f: RequestFields)
    ensures d.quantityRequested.None? && d.remainingQuantityRequired.None? ==> f.quantityRequested == 0
    ensures d.maxBinCapacity.None? && d.maxBinCapacityAlt.None? ==> f.maxBinCapacity == 100
    ensures d.orderId.None? && d.orderIdAlt.None? ==> f.orderId == "Unknown"
  {
    RequestFields(Pick(d.orderId, d.orderIdAlt, "Unknown"), Pick(d.partNumber, d.partNumberAlt, "Unknown"),
                  Pick(d.quantityRequested, d.remainingQuantityRequired, 0),
                  Pick(d.currentBinLevel, d.currentBinLevelAlt, 0),
                  Pick(d.maxBinCapacity, d.maxBinCapacityAlt, 100))
  }

  /** `write_replenishment_request`: stores a fresh entry under the
      request's id (or `fallbackId`), replacing any entry with that id. */
  function WriteReplenishmentRequest(s: Store, d: RequestData, status: string, priority: string,
                                     fallbackId: string, now: string): (out: (string, Store))
    requires Valid(s)
    ensures Valid(out.1)
    ensures out.0 == d.requestId.GetOr(fallbackId)
    ensures out.0 in out.1.values
    ensures var e := out.1.values[out.0];
            e.requestStatus == Some(status) && e.priority == Some(priority) && e.fields == Some(Fields(d))
            && e.completedTimestamp.None? && e.orchestrationDetails.None?
    ensures var e := out.1.values[out.0];
            && (RemainingKey in e.optionalFields <==> d.remainingQuantityRequired.Some?)
            && (d.remainingQuantityRequired.Some? ==>
                  e.optionalFields[RemainingKey] == NumberValue(d.remainingQuantityRequired.value))
            && (forall k :: k != RemainingKey ==> (k in e.optionalFields <==> k in OptionalFieldNames && k in d.other))
            && (forall k :: k in e.optionalFields && k != RemainingKey ==> e.optionalFields[k] == TextValue(d.other[k]))
    ensures forall k :: k in s.values && k != out.0 ==> k in out.1.values && out.1.values[k] == s.values[k]
  {
    var id := d.requestId.GetOr(fallbackId);
    var texts := map k | k in d.other && k in OptionalFieldNames && k != RemainingKey :: TextValue(d.other[k]);
    var opt := if d.remainingQuantityRequired.Some? then texts[RemainingKey := NumberValue(d.remainingQuantityRequired.value)]
               else texts;
    var e := Entry(id, now, Some(status), Some(priority), Some(Fields(d)), opt, None, None, None, None, None,
                   None);
    (id, Put(s, id, e))
  }

  /** `update_request_status`: creates a bare entry for an unknown id, sets
      the status and last update, adds the timestamp belonging to
      ACCEPTED, COMPLETED or FAILED, error details only for FAILED, and the
      orchestration details when they are non-empty. */
  function UpdateRequestStatus(s: Store, id: string, status: string, orchestration: Option<Details>,
                               error: Option<Details>, now: string): (s': Store)
    requires Valid(s)
    ensures Valid(s')
    ensures id in s'.values
    ensures forall k :: k in s.values && k != id ==> k in s'.values && s'.values[k] == s.values[k]
    ensures forall k :: k in s'.values ==> k in s.values || k == id
    ensures var old_ := if id in s.values then s.values[id]
                        else Entry(id, now, None, None, None, map[], None, None, None, None, None, None);
            var e := s'.values[id];
            e.requestStatus == Some(status) && e.lastUpdated == Some(now)
            && e.requestId == old_.requestId && e.timestamp == old_.timestamp
            && e.optionalFields == old_.optionalFields
            && e.fields == old_.fields && e.priority == old_.priority
            && e.completedTimestamp == (if status == "COMPLETED" then Some(now) else old_.completedTimestamp)
            && e.acceptedTimestamp == (if status == "ACCEPTED" then Some(now) else old_.acceptedTimestamp)
            && e.failedTimestamp == (if status == "FAILED" then Some(now) else old_.failedTimestamp)
            && e.errorDetails == (if status == "FAILED" && Truthy(error) then error else old_.errorDetails)
            && e.orchestrationDetails == (if Truthy(orchestration) then orchestration
                                          else old_.orchestrationDetails)
  {
    var e0 := if id in s.values then s.values[id]
              else Entry(id, now, None, None, None, map[], None, None, None, None, None, None);
    var e1 := e0.(requestStatus := Some(status), lastUpdated := Some(now));
    var e2 := if status == "ACCEPTED" then e1.(acceptedTimestamp := Some(now))
              else if status == "COMPLETED" then e1.(completedTimestamp := Some(now))
              else if status == "FAILED" then
                var f := e1.(failedTimestamp := Some(now));
                if Truthy(error) then f.(errorDetails := error) else f
              else e1;
    var e3 := if Truthy(orchestration) then e2.(orchestrationDetails := orchestration) else e2;
    Put(s, id, e3)
  }

  /** A request written and then updated keeps its request fields and
      carries the new status. */
  lemma WriteThenUpdate(s: Store, d: RequestData, status: string, priority: string, fallbackId: string,
                        now: string, newStatus: string, later: string)
    requires Valid(s)
    ensures var (id, s1) := WriteReplenishmentRequest(s, d, status, priority, fallbackId, now);
            var s2 := UpdateRequestStatus(s1, id, newStatus, None, None, later);
            s2.values[id].fields == Some(Fields(d)) && s2.values[id].requestStatus == Some(newStatus)
            && s2.values[id].priority == Some(priority)
            && s2.values[id].optionalFields == s1.values[id].optionalFields
  {
  }

  predicate IsActive(e: Entry) {
    e.requestStatus == Some("ACTIVE")
  }

  function Take<T>(xs: seq<T>, n: nat): seq<T> {
    if n < |xs| then xs[..n] else xs
  }

  /** `list_active_requests`: the ACTIVE entries in store order, at most
      `limit` of them when `limit` is positive. */
  function ListActiveRequests(s: Store, limit: int): (r: seq<Entry>)
    requires Valid(s)
    ensures forall e :: e in r ==> IsActive(e) && e in Values(s)
    ensures limit > 0 ==> |r| <= limit
    ensures r <= Filter(IsActive, Values(s))
    ensures limit <= 0 || Count(IsActive, Values(s)) <= limit ==> r == Filter(IsActive, Values(s))
    ensures limit > 0 && Count(IsActive, Values(s)) > limit ==> |r| == limit
  {
    var active := Filter(IsActive, Values(s));
    CountIsFilterLength(IsActive, Values(s));
    if limit > 0 then Take(active, limit) else active
  }

  // ---- decisions ----

  /** A fleet result: absent or empty (falsy), or one with its `scheduled`
      flag. */
  datatype FleetResult = NoFleetResult | FleetResult(scheduled: bool, deliveryCost: Option<real>)

  datatype FinalStatus = PendingInventory | PendingDelivery | PendingApproval | ApprovedStatus | PendingReview

  /** `determine_final_status`, including its closing fallback. */
  function DetermineFinalStatus(inventoryAvailable: bool, fleet: FleetResult, approved: bool): (st: FinalStatus)
    ensures st == PendingInventory <==> !inventoryAvailable
    ensures st == PendingDelivery <==> inventoryAvailable && fleet.FleetResult? && !fleet.scheduled
    ensures st == PendingApproval <==>
              inventoryAvailable && (fleet.NoFleetResult? || fleet.scheduled) && !approved
  {
    if !inventoryAvailable then PendingInventory
    else if fleet.FleetResult? && !fleet.scheduled then PendingDelivery
    else if !approved then PendingApproval
    else if inventoryAvailable && (fleet.NoFleetResult? || fleet.scheduled) && approved then ApprovedStatus
    else PendingReview
  }

  /** The closing PENDING_REVIEW fallback can never be reached, and
      APPROVED means every step succeeded. */
  lemma FinalStatusNeverPendingReview(inventoryAvailable: bool, fleet: FleetResult, approved: bool)
    ensures DetermineFinalStatus(inventoryAvailable, fleet, approved) != PendingReview
    ensures DetermineFinalStatus(inventoryAvailable, fleet, approved) == ApprovedStatus <==>
              inventoryAvailable && (fleet.NoFleetResult? || fleet.scheduled) && approved
  {
  }

  /** `calculate_estimated_cost` without the final rounding: 100 handling
      plus the available stock at its unit cost (10 when missing) plus the
      delivery cost (50 when missing, 0 without a fleet result). */
  function CalculateEstimatedCost(availableQuantity: Option<real>, costPerUnit: Option<real>, fleet: FleetResult)
    : (c: real)
    ensures fleet.NoFleetResult? ==> c == 100.0 + availableQuantity.GetOr(0.0) * costPerUnit.GetOr(10.0)
    ensures fleet.FleetResult? ==>
              c == 100.0 + availableQuantity.GetOr(0.0) * costPerUnit.GetOr(10.0) + fleet.deliveryCost.GetOr(50.0)
  {
    var inventoryCost := availableQuantity.GetOr(0.0) * costPerUnit.GetOr(10.0);
    var delivery := match fleet
      case NoFleetResult => 0.0
      case FleetResult(_, d) => d.GetOr(50.0);
    100.0 + inventoryCost + delivery
  }

  /** A fleet result adds its delivery cost, 50 when it names none, to the
      estimate made without one. */
  lemma EstimateFleetAddsDelivery(availableQuantity: Option<real>, costPerUnit: Option<real>,
                                  scheduled: bool, deliveryCost: Option<real>)
    ensures CalculateEstimatedCost(availableQuantity, costPerUnit, FleetResult(scheduled, deliveryCost))
            == CalculateEstimatedCost(availableQuantity, costPerUnit, NoFleetResult) + deliveryCost.GetOr(50.0)
  {
  }

  /** At a non-negative unit cost, more available stock never lowers the
      estimate, and with non-negative parts the estimate is at least the
      100 handling cost. */
  lemma EstimateMonotoneInStock(a: real, b: real, costPerUnit: Option<real>, fleet: FleetResult)
    requires 0.0 <= a <= b && costPerUnit.GetOr(10.0) >= 0.0
    ensures CalculateEstimatedCost(Some(a), costPerUnit, fleet) <= CalculateEstimatedCost(Some(b), costPerUnit, fleet)
    ensures (fleet.NoFleetResult? || fleet.deliveryCost.GetOr(50.0) >= 0.0) ==>
              CalculateEstimatedCost(Some(a), costPerUnit, fleet) >= 100.0
  {
    var c := costPerUnit.GetOr(10.0);
    assert (b - a) * c >= 0.0;
    assert b * c - a * c == (b - a) * c;
    assert a * c >= 0.0;
  }

  /** With nothing known the estimate is the handling cost alone. */
  lemma EstimateWithNothingKnown()
    ensures CalculateEstimatedCost(None, None, NoFleetResult) == 100.0
    ensures CalculateEstimatedCost(None, None, FleetResult(true, None)) == 150.0
  {
  }

  const UrgentClause := "URGENT: Production line stoppage imminent without immediate replenishment."
  const HighClause := "HIGH PRIORITY: Critical for production schedule maintenance."
  const StandardClause := "Standard replenishment to maintain operational efficiency."

  function PriorityClause(priority: string): string {
    if priority == "URGENT" then UrgentClause
    else if priority == "HIGH" then HighClause
    else StandardClause
  }

  /** `generate_business_justification`: the part (snake-case key first,
      then CamelCase, else "Unknown"), the bin level the same way (else 0),
      then the clause of the priority. */
  function GenerateBusinessJustification(partNumber: Option<string>, partNumberAlt: Option<string>,
                                         binLevel: Option<int>, binLevelAlt: Option<int>, priority: string)
    : (j: string)
    ensures StartsWith(j, "Replenishment required for " + Pick(partNumber, partNumberAlt, "Unknown"))
    ensures var clause := PriorityClause(priority);
            |clause| <= |j| && j[|j| - |clause|..] == clause
    ensures j == "Replenishment required for " + Pick(partNumber, partNumberAlt, "Unknown")
                 + " due to low inventory (" + IntToString(Pick(binLevel, binLevelAlt, 0)) + " units). "
                 + PriorityClause(priority)
  {
    var head := "Replenishment required for " + Pick(partNumber, partNumberAlt, "Unknown")
                + " due to low inventory (" + IntToString(Pick(binLevel, binLevelAlt, 0)) + " units). ";
    var j := head + PriorityClause(priority);
    assert j[..|"Replenishment required for " + Pick(partNumber, partNumberAlt, "Unknown")|]
           == "Replenishment required for " + Pick(partNumber, partNumberAlt, "Unknown");
    j
  }

  /** The justification names the part and the bin level, and it tells
      URGENT, HIGH and every other priority apart. */
  lemma JustificationMentions(partNumber: Option<string>, partNumberAlt: Option<string>,
                              binLevel: Option<int>, binLevelAlt: Option<int>, priority: string)
    ensures var j := GenerateBusinessJustification(partNumber, partNumberAlt, binLevel, binLevelAlt, priority);
            Contains(j, Pick(partNumber, partNumberAlt, "Unknown"))
            && Contains(j, IntToString(Pick(binLevel, binLevelAlt, 0)))
            && Contains(j, PriorityClause(priority))
  {
    var j := GenerateBusinessJustification(partNumber, partNumberAlt, binLevel, binLevelAlt, priority);
    var part := Pick(partNumber, partNumberAlt, "Unknown");
    var level := IntToString(Pick(binLevel, binLevelAlt, 0));
    var clause := PriorityClause(priority);
    ContainsEachPart("Replenishment required for ", part, " due to low inventory (", level, " units). ", clause);
  }

  /** A concatenation contains its second, fourth and sixth parts. */
  lemma ContainsEachPart(a: string, p: string, b: string, l: string, c: string, k: string)
    ensures var j := a + p + b + l + c + k;
            Contains(j, p) && Contains(j, l) && Contains(j, k)
  {
    var j := a + p + b + l + c + k;
    assert j == a + p + (b + l + c + k);
    ContainsMiddle(a, p, b + l + c + k);
    assert j == (a + p + b) + l + (c + k);
    ContainsMiddle(a + p + b, l, c + k);
    assert j == (a + p + b + l + c) + k + "";
    ContainsMiddle(a + p + b + l + c, k, "");
  }

  /** Two justifications for the same part and level are equal exactly when
      the priorities fall in the same class: URGENT, HIGH, or any other. */
  lemma JustificationDistinguishesPriority(partNumber: Option<string>, partNumberAlt: Option<string>,
                                           binLevel: Option<int>, binLevelAlt: Option<int>, p: string, q: string)
    ensures GenerateBusinessJustification(partNumber, partNumberAlt, binLevel, binLevelAlt, p)
            == GenerateBusinessJustification(partNumber, partNumberAlt, binLevel, binLevelAlt, q)
            <==> PriorityClause(p) == PriorityClause(q)
    ensures PriorityClause(p) == PriorityClause(q) <==>
              (p == "URGENT" <==> q == "URGENT") && (p == "HIGH" <==> q == "HIGH")
  {
    var head := "Replenishment required for " + Pick(partNumber, partNumberAlt, "Unknown")
                + " due to low inventory (" + IntToString(Pick(binLevel, binLevelAlt, 0)) + " units). ";
    var jp := GenerateBusinessJustification(partNumber, partNumberAlt, binLevel, binLevelAlt, p);
    var jq := GenerateBusinessJustification(partNumber, partNumberAlt, binLevel, binLevelAlt, q);
    if jp == jq {
      assert jp[|head|..] == PriorityClause(p);
      assert jq[|head|..] == PriorityClause(q);
    }
    assert |UrgentClause| == 74 && |HighClause| == 60 && |StandardClause| == 58;
  }

  // ---- the workflow ----

  /** What a collaborating agent did: returned a result, or raised. */
  datatype Outcome<T> = Returned(value: T) | Raised

  const SuccessStatuses := ["CHECKING_INVENTORY", "INVENTORY_CONFIRMED", "SCHEDULING_AGV", "AGV_ASSIGNED",
                            "AWAITING_APPROVAL", "APPROVED", "AGV_DISPATCHED", "PICKING_INVENTORY",
                            "IN_TRANSIT", "DELIVERED", "COMPLETED"]

  datatype Stage = InventoryStage | FleetStage | ApprovalStage

  datatype WorkflowResult = WorkflowSucceeded | StoppedAt(stage: Stage) | WorkflowFailed

  /** The statuses `execute_ai_workflow` writes, in order, given what the
      inventory, fleet and approver agents do. */
  function WorkflowStatuses(inventory: Outcome<bool>, fleet: Outcome<bool>, approval: Outcome<bool>)
    : (out: (WorkflowResult, seq<string>))
    ensures out.0.WorkflowSucceeded? <==>
              inventory == Returned(true) && fleet == Returned(true) && approval == Returned(true)
    ensures out.0.WorkflowSucceeded? ==> out.1 == SuccessStatuses
    ensures !out.0.WorkflowSucceeded? ==>
              |out.1| >= 2 && out.1[..|out.1| - 1] <= SuccessStatuses && |out.1| - 1 < |SuccessStatuses|
    ensures out.0 == StoppedAt(InventoryStage) <==> inventory == Returned(false)
    ensures out.0 == StoppedAt(InventoryStage) ==> out.1 == ["CHECKING_INVENTORY", "INVENTORY_UNAVAILABLE"]
    ensures out.0 == StoppedAt(FleetStage) ==> out.1[|out.1| - 1] == "AGV_UNAVAILABLE"
    ensures out.0 == StoppedAt(ApprovalStage) ==> out.1[|out.1| - 1] == "REJECTED"
    ensures out.0.WorkflowFailed? ==> out.1[|out.1| - 1] == "WORKFLOW_FAILED"
  {
    var s := SuccessStatuses;
    match inventory
    case Raised => (WorkflowFailed, s[..1] + ["WORKFLOW_FAILED"])
    case Returned(false) => (StoppedAt(InventoryStage), s[..1] + ["INVENTORY_UNAVAILABLE"])
    case Returned(true) =>
      match fleet
      case Raised => (WorkflowFailed, s[..3] + ["WORKFLOW_FAILED"])
      case Returned(false) => (StoppedAt(FleetStage), s[..3] + ["AGV_UNAVAILABLE"])
      case Returned(true) =>
        match approval
        case Raised => (WorkflowFailed, s[..5] + ["WORKFLOW_FAILED"])
        case Returned(false) => (StoppedAt(ApprovalStage), s[..5] + ["REJECTED"])
        case Returned(true) => (WorkflowSucceeded, s)
  }

  /** Writes each status in turn to the entry of `id`. */
  function ApplyStatuses(s: Store, id: string, statuses: seq<string>, now: string): (s': Store)
    requires Valid(s)
    ensures Valid(s')
    ensures |statuses| > 0 ==> id in s'.values && s'.values[id].requestStatus == Some(statuses[|statuses| - 1])
    ensures forall k :: k in s.values && k != id ==> k in s'.values && s'.values[k] == s.values[k]
    decreases |statuses|
  {
    if |statuses| == 0 then s
    else
      var s1 := ApplyStatuses(s, id, statuses[..|statuses| - 1], now);
      UpdateRequestStatus(s1, id, statuses[|statuses| - 1], None, None, now)
  }

  /** After a successful workflow the request is COMPLETED and carries a
      completion time; after an early exit it shows the exit status. Other
      requests are untouched. */
  lemma {:induction false} WorkflowFinalStatus(s: Store, id: string, now: string, inventory: Outcome<bool>,
                                               fleet: Outcome<bool>, approval: Outcome<bool>)
    requires Valid(s)
    ensures var (r, statuses) := WorkflowStatuses(inventory, fleet, approval);
            var s' := ApplyStatuses(s, id, statuses, now);
            (r.WorkflowSucceeded? ==>
               s'.values[id].requestStatus == Some("COMPLETED") && s'.values[id].completedTimestamp == Some(now))
            && (r == StoppedAt(FleetStage) ==> s'.values[id].requestStatus == Some("AGV_UNAVAILABLE"))
            && (forall k :: k in s.values && k != id ==> s'.values[k] == s.values[k])
  {
    var (r, statuses) := WorkflowStatuses(inventory, fleet, approval);
    if r.WorkflowSucceeded? {
      assert statuses[|statuses| - 1] == "COMPLETED";
    }
  }

  /** The fleet step as the workflow writes it: the call passes keyword
      arguments (`pickup_location`, `quantity_pieces`, `delivery_deadline`)
      that the fleet agent's `schedule_delivery` does not accept, so it
      always raises, and the statuses are those of a raising fleet agent. */
  function WorkflowStatusesAsWritten(inventory: Outcome<bool>, approval: Outcome<bool>)
    : (out: (WorkflowResult, seq<string>))
    ensures !out.0.WorkflowSucceeded?
    ensures inventory == Returned(true) ==>
              out == (WorkflowFailed, ["CHECKING_INVENTORY", "INVENTORY_CONFIRMED", "SCHEDULING_AGV",
                                       "WORKFLOW_FAILED"])
    ensures inventory != Returned(true) ==> out == WorkflowStatuses(inventory, Returned(true), approval)
  {
    var out := WorkflowStatuses(inventory, Raised, approval);
    assert inventory == Returned(true) ==> out.1 == SuccessStatuses[..3] + ["WORKFLOW_FAILED"];
    assert SuccessStatuses[..3] + ["WORKFLOW_FAILED"]
           == ["CHECKING_INVENTORY", "INVENTORY_CONFIRMED", "SCHEDULING_AGV", "WORKFLOW_FAILED"];
    out
  }

  /** As written, no request the workflow handles ends COMPLETED: once the
      stock is confirmed it ends WORKFLOW_FAILED right after SCHEDULING_AGV,
      whatever the approver would have said; with a fleet agent that
      returns a scheduled delivery it would complete. */
  lemma {:induction false} WorkflowNeverCompletesAsWritten(s: Store, id: string, now: string,
                                                           inventory: Outcome<bool>, approval: Outcome<bool>)
    requires Valid(s)
    ensures var s' := ApplyStatuses(s, id, WorkflowStatusesAsWritten(inventory, approval).1, now);
            s'.values[id].requestStatus != Some("COMPLETED")
            && (inventory == Returned(true) ==> s'.values[id].requestStatus == Some("WORKFLOW_FAILED"))
    ensures var s' := ApplyStatuses(s, id, WorkflowStatuses(Returned(true), Returned(true), Returned(true)).1, now);
            s'.values[id].requestStatus == Some("COMPLETED")
  {
    var (r, statuses) := WorkflowStatusesAsWritten(inventory, approval);
    assert statuses[|statuses| - 1] != "COMPLETED";
    WorkflowFinalStatus(s, id, now, Returned(true), Returned(true), Returned(true));
  }
}

=== FILE: ranking.dfy ===
/** Choosing by a score: Python's `max(xs, key=f)`, which returns the first
    element with the greatest score, and the head of a stable descending
    sort, which is the same element, then the best of the rest, and so on. */
module Ranking {

  /** Index of the first element whose score is the greatest. */
  function FirstMax<T>(xs: seq<T>, score: T -> real): (i: nat)
    requires |xs| > 0
    ensures i < |xs|
    ensures forall j :: 0 <= j < |xs| ==> score(xs[j]) <= score(xs[i])
    ensures forall j :: 0 <= j < i ==> score(xs[j]) < score(xs[i])
    decreases |xs|
  {
    if |xs| == 1 then 0
    else
      var k := FirstMax(xs[1..], score);
      assert forall j :: 1 <= j < |xs| ==> xs[j] == xs[1..][j - 1];
      if score(xs[0]) >= score(xs[k + 1]) then 0 else k + 1
  }

  function Without<T>(xs: seq<T>, i: nat): (r: seq<T>)
    requires i < |xs|
    ensures |r| == |xs| - 1
    ensures forall x :: x in r ==> x in xs
  {
    xs[..i] + xs[i + 1..]
  }

  /** Scores never increase along `r`. */
  predicate Descending<T>(r: seq<T>, score: T -> real) {
    forall a, b :: 0 <= a < b < |r| ==> score(r[a]) >= score(r[b])
  }

  /** Putting an element no worse than all of a descending list in front
      keeps it descending. */
  lemma ConsDescending<T>(x: T, rest: seq<T>, score: T -> real)
    requires Descending(rest, score)
    requires forall y :: y in rest ==> score(y) <= score(x)
    ensures Descending([x] + rest, score)
  {
    var r := [x] + rest;
    forall a, b | 0 <= a < b < |r|
      ensures score(r[a]) >= score(r[b])
    {
      assert r[b] == rest[b - 1];
      if a > 0 {
        assert r[a] == rest[a - 1];
      }
    }
  }

  /** The first `k` elements of `xs` stably sorted by descending score,
      obtained by taking the first best element `k` times. */
  function Top<T>(xs: seq<T>, score: T -> real, k: nat): (r: seq<T>)
    ensures |r| == if k < |xs| then k else |xs|
    ensures forall x :: x in r ==> x in xs
    ensures Descending(r, score)
    ensures |r| > 0 ==> forall x :: x in xs ==> score(x) <= score(r[0])
    ensures |r| > 0 ==> r[0] == xs[FirstMax(xs, score)]
    decreases k
  {
    if k == 0 || |xs| == 0 then []
    else
      var i := FirstMax(xs, score);
      var rest := Top(Without(xs, i), score, k - 1);
      assert forall x :: x in rest ==> x in xs;
      ConsDescending(xs[i], rest, score);
      [xs[i]] + rest
  }
}

=== FILE: seqs.dfy ===
/** List comprehensions `[x for x in s if f(x)]`, `len([...])` and
    "first element such that", as used throughout the services. */
module Seqs {
  import opened Wrappers

  /** `[x for x in s if f(x)]`, order kept. */
  function Filter<T(!new)>(f: T -> bool, s: seq<T>): (r: seq<T>)
    ensures |r| <= |s|
    ensures forall x :: x in r <==> x in s && f(x)
    ensures forall i :: 0 <= i < |r| ==> f(r[i])
    decreases |s|
  {
    if |s| == 0 then []
    else if f(s[0]) then [s[0]] + Filter(f, s[1..])
    else Filter(f, s[1..])
  }

  /** Filtering distributes over concatenation. */
  lemma {:induction false} FilterConcat<T(!new)>(f: T -> bool, a: seq<T>, b: seq<T>)
    ensures Filter(f, a + b) == Filter(f, a) + Filter(f, b)
    decreases |a|
  {
    if |a| > 0 {
      assert (a + b)[1..] == a[1..] + b;
      FilterConcat(f, a[1..], b);
    } else {
      assert a + b == b;
    }
  }

  /** Element `m` of a filtered list sits at some index `i` of the input,
      and the elements kept before it are exactly those kept from `s[..i]`. */
  lemma {:induction false} FilterPosition<T(!new)>(f: T -> bool, s: seq<T>, m: nat) returns (i: nat)
    requires m < |Filter(f, s)|
    ensures i < |s| && s[i] == Filter(f, s)[m]
    ensures Filter(f, s[..i]) == Filter(f, s)[..m]
    decreases |s|
  {
    var r := Filter(f, s);
    if f(s[0]) && m == 0 {
      i := 0;
      assert s[..0] == [];
    } else {
      var m' := if f(s[0]) then m - 1 else m;
      var i' := FilterPosition(f, s[1..], m');
      i := i' + 1;
      var p := s[..i];
      assert p[0] == s[0] && p[1..] == s[1..][..i'];
      if f(s[0]) {
        assert r == [s[0]] + Filter(f, s[1..]);
        assert Filter(f, p) == [s[0]] + Filter(f, s[1..][..i']);
        assert r[..m] == [s[0]] + Filter(f, s[1..])[..m'];
      } else {
        assert r == Filter(f, s[1..]);
        assert Filter(f, p) == Filter(f, s[1..][..i']);
      }
    }
  }

  /** Filtering twice by the same test changes nothing. */
  lemma {:induction false} FilterIdempotent<T(!new)>(f: T -> bool, s: seq<T>)
    ensures Filter(f, Filter(f, s)) == Filter(f, s)
    decreases |s|
  {
    if |s| > 0 {
      FilterIdempotent(f, s[1..]);
      if f(s[0]) {
        assert ([s[0]] + Filter(f, s[1..]))[1..] == Filter(f, s[1..]);
      }
    }
  }

  /** Two successive filters are one filter by the conjunction `h`. */
  lemma {:induction false} FilterFilter<T(!new)>(f: T -> bool, g: T -> bool, h: T -> bool, s: seq<T>)
    requires forall x :: h(x) == (f(x) && g(x))
    ensures Filter(g, Filter(f, s)) == Filter(h, s)
    decreases |s|
  {
    if |s| > 0 {
      FilterFilter(f, g, h, s[1..]);
      if f(s[0]) {
        assert ([s[0]] + Filter(f, s[1..]))[1..] == Filter(f, s[1..]);
      }
    }
  }

  /** Filtering depends only on what the test answers. */
  lemma {:induction false} FilterExt<T(!new)>(f: T -> bool, g: T -> bool, s: seq<T>)
    requires forall x :: f(x) == g(x)
    ensures Filter(f, s) == Filter(g, s)
    decreases |s|
  {
    if |s| > 0 {
      FilterExt(f, g, s[1..]);
    }
  }

  /** A test every element passes keeps the whole sequence. */
  lemma {:induction false} FilterAll<T(!new)>(f: T -> bool, s: seq<T>)
    requires forall x :: f(x)
    ensures Filter(f, s) == s
    decreases |s|
  {
    if |s| > 0 {
      FilterAll(f, s[1..]);
      assert s == [s[0]] + s[1..];
    }
  }

  /** `len([x for x in s if f(x)])` */
  function Count<T(!new)>(f: T -> bool, s: seq<T>): (n: nat)
    ensures n <= |s|
    ensures n == 0 <==> forall i :: 0 <= i < |s| ==> !f(s[i])
    decreases |s|
  {
    if |s| == 0 then 0
    else (if f(s[0]) then 1 else 0) + Count(f, s[1..])
  }

  lemma {:induction false} CountIsFilterLength<T(!new)>(f: T -> bool, s: seq<T>)
    ensures Count(f, s) == |Filter(f, s)|
    decreases |s|
  {
    if |s| > 0 {
      CountIsFilterLength(f, s[1..]);
    }
  }

  lemma {:induction false} CountConcat<T(!new)>(f: T -> bool, a: seq<T>, b: seq<T>)
    ensures Count(f, a + b) == Count(f, a) + Count(f, b)
    decreases |a|
  {
    if |a| > 0 {
      assert (a + b)[1..] == a[1..] + b;
      CountConcat(f, a[1..], b);
    } else {
      assert a + b == b;
    }
  }

  /** Replacing one element changes a count by at most the difference the
      element itself makes. */
  lemma {:induction false} CountUpdate<T(!new)>(f: T -> bool, s: seq<T>, i: nat, x: T)
    requires i < |s|
    ensures Count(f, s[i := x]) + (if f(s[i]) then 1 else 0)
         == Count(f, s) + (if f(x) then 1 else 0)
    decreases |s|
  {
    if i > 0 {
      assert s[i := x][1..] == s[1..][i - 1 := x];
      CountUpdate(f, s[1..], i - 1, x);
    } else {
      assert s[i := x][1..] == s[1..];
    }
  }

  /** Index of the first element satisfying `f`. */
  function FirstIndex<T>(f: T -> bool, s: seq<T>): (r: Option<nat>)
    ensures r.Some? ==>
              r.value < |s| && f(s[r.value]) && forall j :: 0 <= j < r.value ==> !f(s[j])
    ensures r.None? <==> forall j :: 0 <= j < |s| ==> !f(s[j])
    decreases |s|
  {
    if |s| == 0 then None
    else if f(s[0]) then Some(0)
    else
      match FirstIndex(f, s[1..])
      case None => None
      case Some(i) => Some(i + 1)
  }
}

=== FILE: text.dfy ===
/** The handful of Python string operations the services rely on: `in` on
    strings, `startswith`, `strip`, `lower`/`upper`, `split('\n')` and
    `'\n'.join`. Case mapping covers ASCII letters only. */
module Text {

  /** Python's `str.isspace`, code point by code point. */
  predicate IsSpace(c: char) {
    var n := c as int;
    n == 32 || 9 <= n <= 13 || 0x1c <= n <= 0x1f || n == 0x85 || n == 0xa0
    || n == 0x1680 || 0x2000 <= n <= 0x200a || n == 0x2028 || n == 0x2029
    || n == 0x202f || n == 0x205f || n == 0x3000
  }

  /** `s.startswith(p)` */
  predicate StartsWith(s: string, p: string) {
    |p| <= |s| && s[..|p|] == p
  }

  /** `sub in s`: some suffix of `s` starts with `sub`. */
  predicate Contains(s: string, sub: string)
    decreases |s|
  {
    StartsWith(s, sub) || (|s| > 0 && Contains(s[1..], sub))
  }

  /** `Contains` holds exactly when `sub` occurs at some position. */
  lemma {:induction false} ContainsAt(s: string, sub: string)
    ensures Contains(s, sub) <==> exists i :: 0 <= i <= |s| && StartsWith(s[i..], sub)
    decreases |s|
  {
    assert s[0..] == s;
    if |s| > 0 {
      ContainsAt(s[1..], sub);
      if Contains(s, sub) && !StartsWith(s, sub) {
        var i :| 0 <= i <= |s[1..]| && StartsWith(s[1..][i..], sub);
        assert s[i + 1..] == s[1..][i..];
      }
      if !Contains(s, sub) {
        forall i | 0 <= i <= |s|
          ensures !StartsWith(s[i..], sub)
        {
          if i > 0 {
            assert s[1..][i - 1..] == s[i..];
          }
        }
      }
    }
  }

  /** A string contains every middle part it is built from. */
  lemma ContainsMiddle(a: string, b: string, c: string)
    ensures Contains(a + b + c, b)
  {
    var s := a + b + c;
    assert s[|a|..][..|b|] == b;
    ContainsAt(s, b);
  }

  /** Every string contains itself. */
  lemma ContainsSelf(s: string)
    ensures Contains(s, s)
  {
    assert StartsWith(s, s);
  }

  /** A string that contains `sub` is at least as long as `sub`. */
  lemma {:induction false} ContainsLength(s: string, sub: string)
    requires Contains(s, sub)
    ensures |sub| <= |s|
    decreases |s|
  {
    if !StartsWith(s, sub) {
      ContainsLength(s[1..], sub);
    }
  }

  function LowerChar(c: char): char {
    if 'A' <= c <= 'Z' then (c as int + 32) as char else c
  }

  function UpperChar(c: char): char {
    if 'a' <= c <= 'z' then (c as int - 32) as char else c
  }

  /** `s.lower()` on ASCII letters. */
  function Lower(s: string): (r: string)
    ensures |r| == |s|
    ensures forall i :: 0 <= i < |s| ==> r[i] == LowerChar(s[i])
  {
    seq(|s|, i requires 0 <= i < |s| => LowerChar(s[i]))
  }

  /** `s.upper()` on ASCII letters. */
  function Upper(s: string): (r: string)
    ensures |r| == |s|
    ensures forall i :: 0 <= i < |s| ==> r[i] == UpperChar(s[i])
  {
    seq(|s|, i requires 0 <= i < |s| => UpperChar(s[i]))
  }

  /** Drops leading whitespace. */
  function TrimLeft(s: string): (r: string)
    ensures |r| <= |s| && r == s[|s| - |r|..]
    ensures |r| > 0 ==> !IsSpace(r[0])
    ensures forall i :: 0 <= i < |s| - |r| ==> IsSpace(s[i])
    decreases |s|
  {
    if |s| > 0 && IsSpace(s[0]) then TrimLeft(s[1..]) else s
  }

  /** Drops trailing whitespace. */
  function TrimRight(s: string): (r: string)
    ensures |r| <= |s| && r == s[..|r|]
    ensures |r| > 0 ==> !IsSpace(r[|r| - 1])
    ensures forall i :: |r| <= i < |s| ==> IsSpace(s[i])
    decreases |s|
  {
    if |s| > 0 && IsSpace(s[|s| - 1]) then TrimRight(s[..|s| - 1]) else s
  }

  /** `s.strip()`: the longest slice without whitespace at either end; only
      whitespace is removed. */
  function Strip(s: string): (r: string)
    ensures |r| <= |s|
    ensures Contains(s, r)
    ensures |r| > 0 ==> !IsSpace(r[0]) && !IsSpace(r[|r| - 1])
    ensures r == "" <==> AllSpace(s)
  {
    StripInside(s);
    StripEmpty(s);
    TrimRight(TrimLeft(s))
  }

  lemma StripInside(s: string)
    ensures Contains(s, TrimRight(TrimLeft(s)))
  {
    var left := TrimLeft(s);
    var r := TrimRight(left);
    var lo := |s| - |left|;
    assert s[lo..] == left;
    assert left[..|r|] == r;
    assert StartsWith(s[lo..], r);
    ContainsAt(s, r);
  }

  predicate AllSpace(s: string) {
    forall i :: 0 <= i < |s| ==> IsSpace(s[i])
  }

  lemma StripEmpty(s: string)
    ensures TrimRight(TrimLeft(s)) == "" <==> AllSpace(s)
  {
    var left := TrimLeft(s);
    var lo := |s| - |left|;
    var r := TrimRight(left);
    if r != "" {
      assert r[0] == s[lo];
    }
  }

  /** `s.split(sep)` for a one-character separator. */
  function Split(s: string, sep: char): (parts: seq<string>)
    ensures |parts| >= 1
    ensures forall i :: 0 <= i < |parts| ==> sep !in parts[i]
    decreases |s|
  {
    if |s| == 0 then [""]
    else
      var rest := Split(s[1..], sep);
      if s[0] == sep then [""] + rest
      else [[s[0]] + rest[0]] + rest[1..]
  }

  /** `sep.join(parts)` for a one-character separator. */
  function Join(parts: seq<string>, sep: char): string
    decreases |parts|
  {
    if |parts| == 0 then ""
    else if |parts| == 1 then parts[0]
    else parts[0] + [sep] + Join(parts[1..], sep)
  }

  /** Splitting and joining again gives back the original string. */
  lemma {:induction false} JoinSplit(s: string, sep: char)
    ensures Join(Split(s, sep), sep) == s
    decreases |s|
  {
    if |s| > 0 {
      var rest := Split(s[1..], sep);
      JoinSplit(s[1..], sep);
      if s[0] == sep {
        assert ([""] + rest)[1..] == rest;
        assert s == [sep] + s[1..];
      } else if |rest| == 1 {
        assert s == [s[0]] + s[1..];
      } else {
        var parts := [[s[0]] + rest[0]] + rest[1..];
        assert parts[1..] == rest[1..];
        assert s == [s[0]] + s[1..];
      }
    }
  }

  /** Joining pieces that do not contain the separator and splitting again
      gives back the pieces. */
  lemma {:induction false} SplitJoin(parts: seq<string>, sep: char)
    requires |parts| >= 1
    requires forall i :: 0 <= i < |parts| ==> sep !in parts[i]
    ensures Split(Join(parts, sep), sep) == parts
    decreases |parts|, |parts[0]|
  {
    if |parts[0]| > 0 {
      var head := parts[0];
      var shorter := [head[1..]] + parts[1..];
      assert sep !in head[1..] by {
        assert forall j :: 0 <= j < |head[1..]| ==> head[1..][j] == head[j + 1];
      }
      assert forall i :: 0 <= i < |shorter| ==> sep !in shorter[i] by {
        forall i | 0 <= i < |shorter|
          ensures sep !in shorter[i]
        {
          if i > 0 {
            assert shorter[i] == parts[i];
          }
        }
      }
      SplitJoin(shorter, sep);
      assert shorter[1..] == parts[1..];
      var j := Join(parts, sep);
      assert j == [head[0]] + Join(shorter, sep);
      assert j[1..] == Join(shorter, sep);
      assert head == [head[0]] + head[1..];
    } else if |parts| > 1 {
      SplitJoin(parts[1..], sep);
      var j := Join(parts, sep);
      assert j == [sep] + Join(parts[1..], sep);
      assert j[1..] == Join(parts[1..], sep);
      assert parts == [""] + parts[1..];
    }
  }

  /** Joining at least one non-empty piece gives a non-empty string. */
  lemma {:induction false} JoinNonEmpty(parts: seq<string>, sep: char)
    requires |parts| >= 1 && parts[0] != ""
    ensures Join(parts, sep) != ""
  {
    if |parts| > 1 {
      assert |Join(parts, sep)| >= |parts[0]|;
    }
  }

  predicate IsDigit(c: char) {
    '0' <= c <= '9'
  }

  function DigitChar(d: nat): (c: char)
    requires d < 10
    ensures IsDigit(c) && c as int - '0' as int == d
  {
    ('0' as int + d) as char
  }

  /** `str(n)` for a natural number: decimal, no leading zeros. */
  function NatToString(n: nat): (s: string)
    ensures |s| >= 1
    ensures forall i :: 0 <= i < |s| ==> IsDigit(s[i])
    ensures n > 0 ==> s[0] != '0'
    decreases n
  {
    if n < 10 then [DigitChar(n)] else NatToString(n / 10) + [DigitChar(n % 10)]
  }

  /** `str(n)` for any integer. */
  function IntToString(n: int): (s: string)
    ensures |s| >= 1
    ensures s[0] == '-' <==> n < 0
  {
    if n >= 0 then NatToString(n) else "-" + NatToString(-n)
  }

  /** The value of a string of decimal digits. */
  function ParseDigits(s: string): nat
    requires forall i :: 0 <= i < |s| ==> IsDigit(s[i])
    decreases |s|
  {
    if |s| == 0 then 0
    else
      assert IsDigit(s[|s| - 1]);
      10 * ParseDigits(s[..|s| - 1]) + (s[|s| - 1] as int - '0' as int)
  }

  /** Reading back a formatted number gives the number. */
  lemma {:induction false} ParseNatToString(n: nat)
    ensures ParseDigits(NatToString(n)) == n
    decreases n
  {
    if n >= 10 {
      var s := NatToString(n);
      assert s[..|s| - 1] == NatToString(n / 10);
      ParseNatToString(n / 10);
    }
  }

  /** `f"{n:0{width}d}"`: zeros on the left up to `width` characters. */
  function ZeroPad(s: string, width: nat): (r: string)
    ensures |r| == if |s| < width then width else |s|
    ensures r[|r| - |s|..] == s
    ensures forall i :: 0 <= i < |r| - |s| ==> r[i] == '0'
  {
    if |s| >= width then s else seq(width - |s|, _ => '0') + s
  }
}

=== FILE: wrappers.dfy ===
/** Failure-compatible wrappers used across the model: Python's `None` and
    the `{"error": ...}` dictionaries the services return become `None` and
    `Failure` values. */
module Wrappers {

  datatype Option<+T> = None | Some(value: T) {

    predicate IsFailure() {
      None?
    }

    function PropagateFailure<U>(): Option<U>
      requires None?
    {
      None
    }

    function Extract(): T
      requires Some?
    {
      value
    }

    function GetOr(default: T): T {
      match this
      case Some(v) => v
      case None => default
    }
  }

  datatype Result<+T, +E> = Success(value: T) | Failure(error: E) {

    predicate IsFailure() {
      Failure?
    }

    function PropagateFailure<U>(): Result<U, E>
      requires Failure?
    {
      Failure(error)
    }

    function Extract(): T
      requires Success?
    {
      value
    }
  }
}
